=== FILE: README.md ===
# Court Room session engine and tab generators, in Dafny

This project models three parts of a Next.js teaching application and proves
properties of them:

- **The Court Room page** (`app/court-room/page.tsx`). A session runs three
  stages in a fixed order: an accessibility audit, agile change requests and
  security hardening. Each stage is gated by a form: alt text, a colour
  choice, or validation options.
  - The first and third stages *escalate*. A warning arrives 2 s after the
    stage is entered. An urgent notice follows after the escalation delay. A
    judge's legal notice follows after twice the delay, together with a court
    summons.
  - A perpetual *distraction* timer posts random informational messages.
  - A manual countdown ticks once a second.
  - Completing a stage resolves its messages, cancels its escalation timers,
    lifts a summons aimed at it and advances the active stage. After the last
    stage, a celebration banner shows for 6 s.
  - Unmounting the page cancels every timer.
  - The page also renders a snapshot of the session as an HTML report.
- **The exported tab generator** (`lib/generateHTML.ts`). It emits a
  stand-alone HTML page with one button and one panel per tab, escaping
  headers and contents. It also emits a script that switches tabs on a click
  or on the arrow keys. The file also contains the `validateTabsData` and
  `sanitizeTabHeader` helpers.
- **The tab builder component** (`components/TabsBuilder.tsx`). It holds the
  list of tabs (at most 15, at least one), the selected tab and the generated
  output, and it has its own, weaker generator.

## How the model is organised

- **`wrappers.dfy`, `text.dfy`: shared helpers.** `Option`; JavaScript's
  `trim` whitespace; `length` and `substring`, which count UTF-16 code
  units; decimal digits; `padStart`; joining pieces of a template
  literal and locating a piece inside the joined text.
- **`html_escape.dfy`: the five-entity HTML escaper.** It is parametrised by
  the apostrophe entity, because the two sources differ. The court page uses
  `&#39;` and the library uses `&#039;`. The module also models the court
  page's five chained `replace` calls.
- **`json.dfy`: `JSON.stringify` on a list of strings.** The generated script
  embeds the tab ids this way. A reader for string literals and arrays of
  them, as a JavaScript parser reads the emitted literal, gives the round
  trip.
- **`tabs_html.dfy`: `lib/generateHTML.ts`.** The generated document is
  modelled as a list of pieces of the template literal. Lemmas say where each
  header, content and `display` value sits in the document. They also cover
  the arrow-key handler of the emitted script, `validateTabsData` and
  `sanitizeTabHeader`.
- **`tabs_builder.dfy`: `components/TabsBuilder.tsx`.**
  - Value-level functions for each state update.
  - The class `Editor`, whose methods update `tabs`, `selectedTabId` and
    `outputCode` in place.
  - The component's own generator.
- **`court_model.dfy`: the court page's static data and pure helpers.**
  Stages, templates, configuration fallbacks, `randomBetween`, the three
  stage gates and the countdown parser.
- **`court_timers.dfy`: the browser's timers.**
  - A clock, the map of pending timers keyed by id, the next id, and the
    number of `Math.random` values drawn so far.
  - `IsNext` is the timer the browser fires next: earliest due first, and
    earlier-registered first among equals.
- **`court_session.dfy`: the page's state as one value.** A `Session` holds
  the timers, the page's refs, the message counter and the React state.
  - Every handler and timer callback is a function on it.
  - `CommitEffects` performs the effects React runs after a render: first
    the cleanups of the effects whose dependencies changed
    (`CommitCleanups`), then the escalation effect for a newly active stage
    (`RunEscalationEffect`) and the celebration effect
    (`RunCelebrationEffect`).
  - `Apply` is one user action, one fired timer or one wait, followed by
    those effects. `Wait(t)` moves the clock to any time `t` up to the next
    timer's due time, so a user action can happen at any moment between
    timers.
- **`court_invariants.dfy`: the invariant `Valid`, with proofs that mounting
  establishes it and that `Apply` keeps it.**
  - `Valid` covers stage progress, message ids and timer ownership: every
    pending timer is referenced by the ref that can cancel it.
- **`court_properties.dfy`: properties of the session.**
  - The log is append-only, and handled messages stay handled.
  - Message ids are distinct.
  - Stages advance at most one at a time.
  - A completed stage is never escalated again.
  - The escalation timeline matches the page's tests.
  - Unmounting cancels every pending timer.
- **`court_room.dfy`: the class `CourtRoom.Page`.** Its fields are the
  session's parts, and its methods perform each handler step by step in
  place. Each method's contract ties the new state to the session function
  it performs, so every property proved about the functions holds for the
  object too.

## Model

| member | source | states |
|---|---|---|
| HtmlEscape.Escape | app/court-room/page.tsx:153-159 | escaping produces no markup character (`& < > " '`) |
| HtmlEscape.UnescapeEscape | lib/generateHTML.ts:127-136 | decoding the five entities gives back the original text, for either apostrophe entity |
| HtmlEscape.EscapeInjective | lib/generateHTML.ts:127-136 | different texts escape to different outputs |
| HtmlEscape.AmpersandsBeginEntities | lib/generateHTML.ts:127-136 | every `&` in escaped text starts one of the five entities |
| HtmlEscape.EscapePlain | lib/generateHTML.ts:127-136 | text without special characters is left unchanged |
| HtmlEscape.ChainedEscapeIsEscape | app/court-room/page.tsx:153-159 | the five chained `replace` calls, `&` first, equal the one-pass escape with `&#39;` |
| HtmlEscape.ReplaceAllChars | app/court-room/page.tsx:153-159 | every output character comes from the replacement text, for a replaced character, or is an input character that was not replaced |
| HtmlEscape.ReplaceAllKeepsOthers | app/court-room/page.tsx:153-159 | a global replace of one character leaves every other character in its place: between the replaced text before it and the replaced text after it |
| Json.Escape | lib/generateHTML.ts:51 | the string body that `JSON.stringify` emits is at least as long as the input and contains no control characters |
| Json.ScanEscaped | lib/generateHTML.ts:51 | a parser scanning an escaped body followed by any text skips the whole body before it can find a closing quote |
| Json.EscapedBodyEndsAtQuote | lib/generateHTML.ts:51 | no `"` inside the escaped body ends the literal: the body alone never closes, and with the closing quote appended it closes exactly at that quote |
| Json.QuoteEnds | lib/generateHTML.ts:51 | a literal followed by anything ends at its own closing quote and its body reads back as the original string |
| Json.ReadItemsJoin | lib/generateHTML.ts:51 | the comma-joined literals of a non-empty list read back as the list |
| Json.ReadStringArrayRoundTrip | lib/generateHTML.ts:51 | parsing `JSON.stringify` of an array of strings gives back the same strings in the same order |
| Json.UnescapeEscape | lib/generateHTML.ts:51 | reading the JSON string body back gives the original id |
| Json.QuoteInjective | lib/generateHTML.ts:92 | distinct ids give distinct JSON string literals |
| Json.HexRoundTrip | lib/generateHTML.ts:51 | one hex digit reads back its value |
| Json.UnescapeControl | lib/generateHTML.ts:51 | the six-character `\u00XY` escape of a control character without a one-letter escape reads back as that character, and decoding continues after it |
| TabsHtml.EscapeHtml | lib/generateHTML.ts:127-136 | the library's escaper emits no markup character |
| TabsHtml.EscapeHtmlGuarantees | lib/generateHTML.ts:127-136 | no markup character is left, every `&` begins an entity, clean text is unchanged, and `&#039;` decoding round-trips |
| TabsHtml.ButtonBlock | lib/generateHTML.ts:23-29 | one button per tab whose label is the escaped header |
| TabsHtml.PanelBlock | lib/generateHTML.ts:33-36 | one panel per tab holding the escaped content, displayed only for index 0 |
| TabsHtml.HeaderInDocument | lib/generateHTML.ts:23-29 | the escaped header of tab i occurs in the document at its button's place |
| TabsHtml.HeadersInOrder | lib/generateHTML.ts:23-29 | tab headers appear in tab order |
| TabsHtml.ContentInDocument | lib/generateHTML.ts:33-36 | the escaped content of tab i occurs in the document at its panel's place |
| TabsHtml.ContentsInOrder | lib/generateHTML.ts:33-36 | panel contents appear in tab order |
| TabsHtml.HeadersBeforeContents | lib/generateHTML.ts:21-36 | every header precedes every content |
| TabsHtml.DisplayInDocument | lib/generateHTML.ts:35 | panel i carries `block` when i is 0 and `none` otherwise |
| TabsHtml.OnlyFirstShown | lib/generateHTML.ts:35 | panel i is shown if and only if i is 0, for any pair of distinct display values |
| TabsHtml.OnlyFirstPanelDisplayed | lib/generateHTML.ts:35 | in the emitted page, `block` sits at panel i's display if and only if i is 0 |
| TabsHtml.DocumentFrame | lib/generateHTML.ts:12-107 | the document starts with the doctype and ends with `</html>` |
| TabsHtml.GeneratedIsDocument | lib/generateHTML.ts:7-11 | the generator always returns a framed HTML document, with tabs or without |
| TabsHtml.EmptyHtmlShape | lib/generateHTML.ts:110-125 | the empty page is a framed document that carries the "No Tabs to Display" message |
| TabsHtml.EmptyInputFallback | lib/generateHTML.ts:8-10 | a missing or empty list yields the empty page |
| TabsHtml.IdListsInDocument | lib/generateHTML.ts:51-92 | both copies of `JSON.stringify(tabs.map(t => t.id))` in the script occur in the document, at the places of their pieces |
| TabsHtml.IdListReadsBack | lib/generateHTML.ts:51 | reading the embedded id list back gives one id per tab, each tab's own, in list order |
| TabsHtml.IndexOf | lib/generateHTML.ts:93 | `indexOf` finds the first position of the id, and gives -1 exactly when it is absent |
| TabsHtml.ArrowTarget | lib/generateHTML.ts:96-100 | the new index is always a valid position |
| TabsHtml.ArrowIsRotation | lib/generateHTML.ts:96-100 | ArrowRight moves to (i + 1) mod n and ArrowLeft to (i - 1 + n) mod n |
| TabsHtml.ArrowInverse | lib/generateHTML.ts:96-100 | ArrowLeft undoes ArrowRight, and ArrowRight undoes ArrowLeft |
| TabsHtml.RightPressesRotate | lib/generateHTML.ts:90-104 | k presses of ArrowRight move to (i + k) mod n, so n presses come back |
| TabsHtml.ArrowFromMissing | lib/generateHTML.ts:97-99 | when the current tab is not listed, ArrowRight goes to the first tab and ArrowLeft to the last |
| TabsHtml.AsTab | lib/generateHTML.ts:142-147 | an element converts to a tab exactly when it is truthy with three string fields |
| TabsHtml.ValidateIffTabs | lib/generateHTML.ts:139-148 | an array validates if and only if every element converts to a tab |
| TabsHtml.TabsRoundTrip | lib/generateHTML.ts:139-148 | every list of tabs validates and converts back to itself |
| TabsHtml.MissingContentRejected | lib/generateHTML.ts:146 | one element without a string content rejects the whole array |
| TabsHtml.RemoveStripped | lib/generateHTML.ts:155 | the result holds exactly the input's characters other than `<`, `>` and `"`; an input without them is unchanged |
| TabsHtml.RemoveStrippedBlank | lib/generateHTML.ts:155 | only whitespace survives the removal exactly when the header holds nothing but `<>"` and whitespace |
| TabsHtml.SanitizeTabHeader | lib/generateHTML.ts:154-156 | the result is at most 50 UTF-16 code units, has no `<>"`, does not start with whitespace and holds only characters of the header; it is a prefix of the stripped, trimmed header, all of it when that fits in 50 code units and at least 49 code units of it otherwise; it is empty exactly when the header holds only `<>"` and whitespace |
| TabsHtml.SanitizeFixesCleanHeaders | lib/generateHTML.ts:154-156 | a trimmed header without `<>"` of at most 50 UTF-16 code units is unchanged |
| TabsHtml.SanitizeNotIdempotent | lib/generateHTML.ts:155 | when the cut at 50 code units ends in whitespace, sanitizing twice differs from sanitizing once |
| Text.Utf16Length | app/court-room/page.tsx:671 | `length` counts one or two code units per character, one for every character of the Basic Multilingual Plane |
| Text.Utf16Prefix | lib/generateHTML.ts:155 | `substring(0, n)` is the longest prefix that fits in `n` code units, the whole string when it fits |
| TabsBuilder.AfterAdd | components/TabsBuilder.tsx:42-53 | at 15 tabs the list is unchanged; otherwise one tab is appended and the others are kept |
| TabsBuilder.AddedTab | components/TabsBuilder.tsx:47-51 | the new tab's id is the clock's digits, its header is "Tab n+1", and its content is empty |
| TabsBuilder.AddsStopAtLimit | components/TabsBuilder.tsx:43-46 | any number of adds stops at 15 tabs |
| TabsBuilder.Without | components/TabsBuilder.tsx:60 | filtering drops exactly the tabs with the id and keeps all others |
| TabsBuilder.WithoutDistinct | components/TabsBuilder.tsx:60 | filtering keeps ids distinct |
| TabsBuilder.SelectionAfterRemove | components/TabsBuilder.tsx:62-64 | the selection changes only when the removed tab was selected |
| TabsBuilder.RemoveKeepsOne | components/TabsBuilder.tsx:55-65 | with distinct ids at least one tab remains; removing a listed id removes exactly one tab; an unknown id changes nothing |
| TabsBuilder.RemoveRepairsSelection | components/TabsBuilder.tsx:55-65 | after a removal the selected id still names a tab |
| TabsBuilder.SharedIdEmptiesList | components/TabsBuilder.tsx:55-61 | two tabs sharing an id (added in the same millisecond) are both removed, leaving no tab |
| TabsBuilder.WithHeader | components/TabsBuilder.tsx:67-69 | only the headers of tabs with the id change; ids and contents are kept |
| TabsBuilder.WithContent | components/TabsBuilder.tsx:71-73 | only the contents of tabs with the id change; ids and headers are kept |
| TabsBuilder.HeaderUpdateIdempotent | components/TabsBuilder.tsx:67-69 | setting the same header twice equals setting it once |
| TabsBuilder.UpdatesCommute | components/TabsBuilder.tsx:67-73 | a header edit and a content edit commute |
| TabsBuilder.UpdatesKeepIds | components/TabsBuilder.tsx:67-73 | edits keep the set of ids and their distinctness |
| TabsBuilder.Find | components/TabsBuilder.tsx:80 | `find` returns a tab with the id exactly when one exists |
| TabsBuilder.FindIsFirst | components/TabsBuilder.tsx:80 | `find` returns the first tab with the id |
| TabsBuilder.FindAfterHeaderEdit | components/TabsBuilder.tsx:67-80 | after a header edit the found tab carries the new header |
| TabsBuilder.FindAfterContentEdit | components/TabsBuilder.tsx:71-80 | after a content edit the found tab carries the new content |
| TabsBuilder.Editor.SelectedTab | components/TabsBuilder.tsx:80 | in a consistent state the selected tab exists and has the selected id |
| TabsBuilder.Editor.constructor | components/TabsBuilder.tsx:13-19 | three steps with ids 1 to 3, tab 1 selected, no output; consistent |
| TabsBuilder.Editor.AddTab | components/TabsBuilder.tsx:42-53 | the tabs become `AfterAdd`; the limit alert is raised at 15 tabs; a fresh id keeps the state consistent |
| TabsBuilder.Editor.RemoveTab | components/TabsBuilder.tsx:55-65 | the tabs and selection become `AfterRemove` and `SelectionAfterRemove`; the alert is raised at one tab; consistency is kept |
| TabsBuilder.Editor.UpdateTabHeader | components/TabsBuilder.tsx:67-69 | the tabs become `WithHeader`; nothing else changes; consistency is kept |
| TabsBuilder.Editor.UpdateTabContent | components/TabsBuilder.tsx:71-73 | the tabs become `WithContent`; nothing else changes; consistency is kept |
| TabsBuilder.Editor.SelectTab | components/TabsBuilder.tsx:106 | only the selection changes; selecting a listed tab keeps consistency |
| TabsBuilder.Editor.GenerateOutput | components/TabsBuilder.tsx:75-78 | the output becomes the component's generator applied to the tabs; nothing else changes |
| TabsBuilder.EscapeAngles | components/TabsBuilder.tsx:182 | replacing `<` and `>` leaves neither in the content |
| TabsBuilder.EscapeAnglesKeepsRest | components/TabsBuilder.tsx:182 | content without angle brackets is unchanged |
| TabsBuilder.EscapeAnglesNotInjective | components/TabsBuilder.tsx:182 | `&` is not escaped, so `<` and `&lt;` render to the same text |
| TabsBuilder.LocalHeaderInDocument | components/TabsBuilder.tsx:169-175 | the header of tab i occurs unescaped at its button's place |
| TabsBuilder.LocalContentInDocument | components/TabsBuilder.tsx:179-182 | the angle-escaped content of tab i occurs at its panel's place |
| TabsBuilder.LocalDisplayInDocument | components/TabsBuilder.tsx:181 | panel i carries `block` when i is 0 and `none` otherwise |
| TabsBuilder.LocalOnlyFirstShown | components/TabsBuilder.tsx:181 | panel i is shown if and only if i is 0 |
| TabsBuilder.LocalOnlyFirstPanelDisplayed | components/TabsBuilder.tsx:181 | in the emitted page, `block` sits at panel i's display if and only if i is 0 |
| TabsBuilder.CurrentTabIsFirst | components/TabsBuilder.tsx:186 | the script's current tab is the first tab's id, or empty when there is none |
| TabsBuilder.LocalIsDocument | components/TabsBuilder.tsx:157-208 | the output starts with the doctype and ends with `</html>` |
| CourtModel.StageOrderIsPermutation | app/court-room/page.tsx:20 | each stage appears in the stage order exactly once |
| CourtModel.EscalationMessage | app/court-room/page.tsx:104-138 | initial, urgent and legal notices are a warning, urgent and legal respectively, and only the legal one is sent by the judge |
| CourtModel.OnlyEscalationsEscalate | app/court-room/page.tsx:51-138 | no summons, acceptance, time-up or distraction text equals an escalation notice |
| CourtModel.EscalationMessagesDistinct | app/court-room/page.tsx:104-138 | the two escalating stages never share a notice text |
| CourtModel.SummonsMessage | app/court-room/page.tsx:510-523 | the summons is a legal message from the court clerk |
| CourtModel.AcceptedMessage | app/court-room/page.tsx:680-685 | acceptance messages are informational |
| CourtModel.EscalationDelay | app/court-room/page.tsx:32-39 | the delay is positive; a positive configured value is used, otherwise 120000 |
| CourtModel.DistractionBounds | app/court-room/page.tsx:41-49 | both bounds are positive; min falls back to 20000; a configured max is used exactly when it is above min, else 30000 |
| CourtModel.BoundsOrdered | app/court-room/page.tsx:41-49 | when min is unset or below 30000, min < max |
| CourtModel.BoundsInverted | app/court-room/page.tsx:41-49 | a min of at least 30000 with max unset gives max 30000, inverted when min > 30000 |
| CourtModel.RandomBetweenRange | app/court-room/page.tsx:148-151 | the draw lies in [min, max) for ordered bounds and in [max, min] for inverted ones; equal bounds give min |
| CourtModel.RandomBetweenPositive | app/court-room/page.tsx:148-151 | positive bounds give a positive delay |
| CourtModel.DistractionIndex | app/court-room/page.tsx:565 | the random pick is a valid index into the distraction pool |
| CourtModel.AltError | app/court-room/page.tsx:667-689 | alt text passes if and only if the trimmed text has at least 8 UTF-16 code units and an ASCII letter; it is too short if and only if it has fewer than 8; long enough without a letter gives the letters error |
| CourtModel.AltErrorIgnoresPadding | app/court-room/page.tsx:670 | surrounding whitespace does not change the verdict |
| CourtModel.ColorError | app/court-room/page.tsx:691-708 | the colour stage passes if and only if the inline high-contrast choice is picked |
| CourtModel.Toggle | app/court-room/page.tsx:729-734 | a toggle flips exactly the chosen option |
| CourtModel.ToggleTwice | app/court-room/page.tsx:729-734 | toggling twice restores the options |
| CourtModel.ValidationError | app/court-room/page.tsx:710-727 | validation passes if and only if both required and sanitise are on |
| CourtModel.LengthIsIrrelevant | app/court-room/page.tsx:710-727 | the length option never changes the verdict |
| CourtModel.ParseDuration | app/court-room/page.tsx:584-595 | a non-number or negative input gives the invalid-duration error; an accepted duration is positive |
| CourtModel.ParseWholeDuration | app/court-room/page.tsx:584-595 | whole minutes m and seconds s give m*60+s seconds when positive, otherwise the empty-duration error |
| CourtModel.FractionalSecondsRefused | app/court-room/page.tsx:591 | fractions are floored away, so 0 minutes and under 1 second is empty |
| CourtReport.EscapeHtml | app/court-room/page.tsx:153-159 | the report's escaper is the five-entity escape with `&#39;` and emits no markup character |
| CourtReport.EscapeHtmlRoundTrip | app/court-room/page.tsx:153-159 | decoding the escaped text gives it back |
| CourtReport.FormatSecondsRoundTrip | app/court-room/page.tsx:140-146 | `mm:ss` is a digit clock whose reading gives back the seconds, with seconds below 60 |
| CourtReport.Progress | app/court-room/page.tsx:377-383 | one entry per stage in order, completed exactly when the stage is completed |
| CourtReport.StageItemStatus | app/court-room/page.tsx:386-393 | a stage item reads "Completed" or "In progress" according to its flag |
| CourtReport.MessageItemShape | app/court-room/page.tsx:398-407 | an item opens with the escaped sender, and a resolved message carries the resolved marker |
| CourtReport.MessageList | app/court-room/page.tsx:395-409 | one item per message, in log order |
| CourtReport.MessageItemsAreJoined | app/court-room/page.tsx:395-409 | items are joined with no separator, and an empty log gives the placeholder item |
| CourtReport.ReportIsDocument | app/court-room/page.tsx:411-437 | the report is a framed HTML document |
| CourtReport.ReportShowsCountdown | app/court-room/page.tsx:426 | the report shows the countdown as a clock |
| CourtReport.ReportListsStages | app/court-room/page.tsx:427-430 | the report lists each stage's item in order |
| CourtReport.ReportStageStatus | app/court-room/page.tsx:377-430 | a stage is listed as completed if and only if it is completed |
| CourtReport.ReportNoMessagesIffEmpty | app/court-room/page.tsx:395-434 | the placeholder appears if and only if the log is empty |
| CourtReport.ReportListsMessages | app/court-room/page.tsx:431-434 | every message is listed at its position |
| CourtTimers.Register | app/court-room/page.tsx:535-574 | `setTimeout` adds exactly one timer under the next id, due after the delay, and keeps ids fresh |
| CourtTimers.Cancel | app/court-room/page.tsx:503-508 | `clearTimeout` removes exactly that id and keeps the others |
| CourtTimers.CancelAll | app/court-room/page.tsx:503-508 | clearing a list removes exactly the listed ids |
| CourtTimers.NextExists | app/court-room/page.tsx:525-574 | whenever a timer is pending, some timer is next to fire |
| CourtTimers.NextUnique | app/court-room/page.tsx:525-574 | at most one timer is next to fire |
| CourtTimers.NextNotOverdue | app/court-room/page.tsx:525-574 | firing the next timer never moves the clock back |
| CourtSession.ConfigFrom | app/court-room/page.tsx:32-49 | the configuration read at start is valid and uses the fallbacks |
| CourtSession.PushMessage | app/court-room/page.tsx:475-493 | one message is appended with the template's text, unresolved, stamped now, with id `now-n` |
| CourtSession.Resolve | app/court-room/page.tsx:495-501 | exactly the messages related to the stage become resolved; nothing else changes |
| CourtSession.ResolveStageMessages | app/court-room/page.tsx:495-501 | only the log changes, and it changes by `Resolve` |
| CourtSession.ResolveById | app/court-room/page.tsx:968-974 | exactly the messages with the id become resolved; nothing else changes |
| CourtSession.MarkHandled | app/court-room/page.tsx:968-974 | only the log changes, and it changes by `ResolveById` |
| CourtSession.ClearStageTimeouts | app/court-room/page.tsx:503-508 | exactly the stage's listed timers are cancelled and its list is emptied; the scheduled flag is kept |
| CourtSession.TriggerCourtSummons | app/court-room/page.tsx:510-523 | the summons is raised for the stage and one clerk message is appended |
| CourtSession.ScheduleEscalation | app/court-room/page.tsx:525-560 | a second call is a no-op; the first arms three timers under fresh ids and records them for the stage |
| CourtSession.DistractionDelay | app/court-room/page.tsx:562-563 | the delay is positive, and within [min, max) for ordered bounds |
| CourtSession.ScheduleNextDistraction | app/court-room/page.tsx:562-574 | exactly one distraction timer is added, after a random delay, and the ref points at it |
| CourtSession.StopTimer | app/court-room/page.tsx:576-582 | the countdown interval is cleared and the clock stops; nothing else changes |
| CourtSession.StartTimer | app/court-room/page.tsx:584-622 | a rejected duration only sets the error; an accepted one replaces the interval with a fresh one-second tick |
| CourtSession.PauseTimer | app/court-room/page.tsx:624-626 | pause stops the clock and keeps the remaining seconds |
| CourtSession.ResetTimer | app/court-room/page.tsx:628-632 | reset stops the clock, zeroes it and clears the error |
| CourtSession.MarkStageComplete | app/court-room/page.tsx:634-665 | completing is idempotent; otherwise it records the stage, resolves its messages, cancels its timers, lifts its summons, and advances or celebrates |
| CourtSession.AltSubmit | app/court-room/page.tsx:667-689 | a rejected answer sets the error and changes nothing else; an accepted one clears the error and leaves the stage completed, by posting the acceptance and then marking the stage complete |
| CourtSession.ColorSubmit | app/court-room/page.tsx:691-708 | a wrong choice sets the error and changes nothing else; the right one clears the error and leaves the stage completed, by posting the acceptance and then marking the stage complete |
| CourtSession.ValidationSubmit | app/court-room/page.tsx:710-727 | missing options set the error and change nothing else; otherwise the error is cleared and the stage left completed, by posting the acceptance and then marking the stage complete |
| CourtSession.ToggleValidationOption | app/court-room/page.tsx:729-734 | the options become the toggled ones and nothing else changes |
| CourtSession.ReturnToCoding | app/court-room/page.tsx:1071 | the modal closes; the summoned stage and everything else are kept |
| CourtSession.Elapse | app/court-room/page.tsx:535-621 | firing moves the clock to the due time; a timeout is removed and an interval re-armed a second later |
| CourtSession.OnEscalate | app/court-room/page.tsx:535-555 | the notice is posted, and a legal notice also summons for the stage |
| CourtSession.OnDistraction | app/court-room/page.tsx:562-573 | exactly one entry is appended, unresolved, unrelated to any stage, stamped now, carrying the sender, body and severity of the pool entry the first draw picks; the next distraction is pending under the next id, due now plus the delay of the second draw, and becomes the distraction ref; other timers, the rest of the view and the other refs are kept |
| CourtSession.WaitUntil | app/court-room/page.tsx:476-487 | the clock `Date.now` reads the new time and nothing else changes, so the next message is stamped with it |
| CourtSession.OnTick | app/court-room/page.tsx:603-621 | the countdown drops by one; at one or zero it stops and posts the time-up message |
| CourtSession.ClearCelebration | app/court-room/page.tsx:771 | a set celebration ref is dropped and its timeout cancelled; without one nothing changes; nothing but the ref and the timers changes |
| CourtSession.CommitCleanups | app/court-room/page.tsx:745-774 | exactly the previous escalating stage's timeouts (when the stage index changed) and the celebration timeout (when the flag changed) are cancelled; that stage's list is emptied, a changed flag drops the celebration ref, other timers and refs are untouched |
| CourtSession.RunEscalationEffect | app/court-room/page.tsx:745-754 | a newly active escalating stage not yet armed gets its initial, urgent and legal notices at now + 2000, now + delay and now + 2 × delay under the next three ids, recorded as its timeouts; earlier timers are kept |
| CourtSession.RunCelebrationEffect | app/court-room/page.tsx:766-770 | a raised flag registers a `HideCelebration` timeout due at now + 6000 under the next id and makes it the celebration ref; otherwise nothing changes |
| CourtSession.CommitEffects | app/court-room/page.tsx:745-774 | the effects change only timers and refs, never what the page shows; with neither the stage index nor the celebration flag changed, nothing happens |
| CourtSession.CommitCancelsCleared | app/court-room/page.tsx:745-774 | after a commit, every timeout its cleanups clear is gone and every other timer registered before it is pending unchanged |
| CourtSession.CommitArmsNewStage | app/court-room/page.tsx:745-754 | a commit entering a not yet armed escalating stage leaves its three notices pending under the first free ids, recorded as its timeouts |
| CourtSession.CommitStartsCelebration | app/court-room/page.tsx:766-774 | a commit raising the flag leaves a `HideCelebration` timeout due 6000 ms later pending as the celebration ref, and the previous ref's timeout cancelled |
| CourtSession.Initial | app/court-room/page.tsx:337-373 | the page starts with no timers, no messages and no completed stage |
| CourtSession.Mount | app/court-room/page.tsx:736-754 | mounting arms the distraction (id 1) and the first stage's three escalations (ids 2 to 4) |
| CourtSession.Unmount | app/court-room/page.tsx:756-764 | unmounting keeps progress and the scheduled flags |
| CourtSession.ClearStages | app/court-room/page.tsx:761 | clearing every stage's timeouts changes only timers and lists |
| CourtSession.ClearStagesCancels | app/court-room/page.tsx:761 | exactly the timers listed for the given stages are cancelled, and their lists are emptied |
| CourtSession.Apply | app/court-room/page.tsx:475-774 | an action shows what its handler shows; the effects only touch timers |
| CourtInvariants.MountValid | app/court-room/page.tsx:736-754 | the page is consistent right after mounting |
| CourtInvariants.ApplyValid | app/court-room/page.tsx:475-774 | every offered action, every timer firing and every wait up to the next due time keeps the page consistent |
| CourtInvariants.WaitValid | app/court-room/page.tsx:476-487 | waiting up to the next due time keeps the page consistent: no timer becomes overdue |
| CourtInvariants.FireValid | app/court-room/page.tsx:525-621 | firing the next timer keeps the page consistent |
| CourtInvariants.PushValid | app/court-room/page.tsx:475-493 | posting a message keeps the page consistent |
| CourtInvariants.SummonsValid | app/court-room/page.tsx:510-523 | a summons for the active, uncompleted, escalating stage keeps the page consistent |
| CourtInvariants.ScheduleValid | app/court-room/page.tsx:525-560 | arming the active stage keeps every pending timer owned by a ref |
| CourtInvariants.StartValid | app/court-room/page.tsx:584-622 | starting the countdown keeps the page consistent |
| CourtInvariants.CompleteValid | app/court-room/page.tsx:634-665 | completing a stage, followed by the effects, keeps the page consistent |
| CourtInvariants.AltValid | app/court-room/page.tsx:667-689 | the alt form keeps the page consistent |
| CourtInvariants.ColorValid | app/court-room/page.tsx:691-708 | the colour form keeps the page consistent |
| CourtInvariants.ValidationFormValid | app/court-room/page.tsx:710-727 | the validation form keeps the page consistent |
| CourtProperties.IdTextInjective | app/court-room/page.tsx:478 | an id `time-n` determines both the time and n |
| CourtProperties.IdsDistinct | app/court-room/page.tsx:475-491 | message ids in a consistent log are pairwise distinct |
| CourtProperties.MarkHandledExactlyOne | app/court-room/page.tsx:968-974 | "Mark handled" resolves exactly the clicked message |
| CourtProperties.ExtendsTransitive | app/court-room/page.tsx:475-501 | log growth composes across steps |
| CourtProperties.ApplyExtends | app/court-room/page.tsx:475-774 | every action only appends messages and only resolves, never un-resolves |
| CourtProperties.ApplyProgress | app/court-room/page.tsx:634-665 | every action completes at most one stage and advances at most one index |
| CourtProperties.RunValid | app/court-room/page.tsx:475-774 | any run of offered actions keeps the page consistent, the log growing and progress monotone |
| CourtProperties.QuietStep | app/court-room/page.tsx:634-665 | after its completion, no action posts a stage's escalation notice |
| CourtProperties.CompletedStageStaysQuiet | __tests__/court-room.test.tsx:23-45 | once a stage is completed, no run of actions ever posts its escalation notices |
| CourtProperties.AcceptedStampedNow | app/court-room/page.tsx:476-487 | an accepted alt text's confirmation is stamped with the clock's reading |
| CourtProperties.AnswerStampedWhenGiven | app/court-room/page.tsx:476-487 | after waiting until any time before the next timer, the timers are unchanged and an accepted answer is confirmed by an entry stamped with that time |
| CourtProperties.AnsweredAccessibilityIsFinal | __tests__/court-room.test.tsx:23-45 | an accepted alt text moves to the colour stage, posts the acceptance, and silences accessibility escalation for good |
| CourtProperties.ScheduleArms | app/court-room/page.tsx:525-560 | arming a stage schedules its notices at now+2000, now+delay and now+2·delay |
| CourtProperties.EnteringValidationArmsIt | __tests__/court-room.test.tsx:47-84 | the right colour choice enters the validation stage and arms its three notices at the same instant |
| CourtProperties.EscalationNotice | __tests__/court-room.test.tsx:47-84 | each escalation posts its notice at its due time; the legal one also summons and adds the clerk's message |
| CourtProperties.UnmountReleases | app/court-room/page.tsx:756-764 | unmounting cancels exactly the timers the page's refs hold |
| CourtProperties.UnmountClearsTimers | app/court-room/page.tsx:756-764 | unmounting a consistent page leaves no timer pending |
| CourtRoom.Page.constructor | app/court-room/page.tsx:337-373 | the new page's state is `Mount`, and it is consistent |
| CourtRoom.Page.Dispatch | app/court-room/page.tsx:475-774 | the in-place update equals `Apply`, and consistency is kept |
| CourtRoom.Page.Unmount | app/court-room/page.tsx:756-764 | the in-place cleanup equals `Unmount`, and a consistent page is left with no timer |
| CourtRoom.Page.ClearStages | app/court-room/page.tsx:761 | the loop over the stages equals `ClearStages` |
| CourtRoom.Page.CommitEffects | app/court-room/page.tsx:745-774 | the in-place effects equal `CommitEffects` |
| CourtRoom.Page.ClearCelebration | app/court-room/page.tsx:766-774 | equals `ClearCelebration` |
| CourtRoom.Page.SetTimer | app/court-room/page.tsx:535-574 | registers one timer under the next id |
| CourtRoom.Page.ClearTimer | app/court-room/page.tsx:503-508 | equals `Cancel` on the runtime |
| CourtRoom.Page.WaitUntil | app/court-room/page.tsx:476-487 | the in-place clock update equals `WaitUntil` |
| CourtRoom.Page.FireTimer | app/court-room/page.tsx:535-621 | the in-place callback equals `FireTimer` |
| CourtRoom.Page.PushMessage | app/court-room/page.tsx:475-493 | equals `PushMessage` |
| CourtRoom.Page.ResolveStageMessages | app/court-room/page.tsx:495-501 | equals `ResolveStageMessages` |
| CourtRoom.Page.MarkHandled | app/court-room/page.tsx:968-974 | equals `MarkHandled` |
| CourtRoom.Page.ClearStageTimeouts | app/court-room/page.tsx:503-508 | the `forEach(clearTimeout)` loop equals `ClearStageTimeouts` |
| CourtRoom.Page.TriggerCourtSummons | app/court-room/page.tsx:510-523 | equals `TriggerCourtSummons` |
| CourtRoom.Page.ScheduleEscalation | app/court-room/page.tsx:525-560 | equals `ScheduleEscalation` |
| CourtRoom.Page.OnEscalate | app/court-room/page.tsx:535-555 | equals `OnEscalate` |
| CourtRoom.Page.ScheduleNextDistraction | app/court-room/page.tsx:562-574 | equals `ScheduleNextDistraction` |
| CourtRoom.Page.OnDistraction | app/court-room/page.tsx:562-573 | equals `OnDistraction` |
| CourtRoom.Page.StopTimer | app/court-room/page.tsx:576-582 | equals `StopTimer` |
| CourtRoom.Page.StartTimer | app/court-room/page.tsx:584-622 | equals `StartTimer` |
| CourtRoom.Page.ResetTimer | app/court-room/page.tsx:628-632 | equals `ResetTimer` |
| CourtRoom.Page.OnTick | app/court-room/page.tsx:603-621 | equals `OnTick` |
| CourtRoom.Page.MarkStageComplete | app/court-room/page.tsx:634-665 | equals `MarkStageComplete` |
| CourtRoom.Page.AltSubmit | app/court-room/page.tsx:667-689 | equals `AltSubmit` |
| CourtRoom.Page.ColorSubmit | app/court-room/page.tsx:691-708 | equals `ColorSubmit` |
| CourtRoom.Page.ValidationSubmit | app/court-room/page.tsx:710-727 | equals `ValidationSubmit` |
| CourtRoom.Page.ToggleValidationOption | app/court-room/page.tsx:729-734 | equals `ToggleValidationOption` |
| CourtRoom.Page.ReturnToCoding | app/court-room/page.tsx:1071 | equals `ReturnToCoding` |

## Behaviour of the code worth noting

- **Distraction bounds.** `getDistractionBounds` compares only a configured
  maximum with the minimum. With a configured minimum of 30000 or more and no
  configured maximum, it returns max = 30000 ≤ min. `randomBetween` then
  draws from `[max, min]`. The model keeps this (`CourtModel.BoundsInverted`,
  `CourtModel.RandomBetweenRange`).
- **Countdown parsing.** `Math.floor` accepts fractional minutes and seconds
  and drops the fractions. A duration whose parts are all below one is
  therefore refused as empty (`CourtModel.FractionalSecondsRefused`).
- **Lengths are UTF-16 code units.** The alt-text gate counts code units, so
  "cat" followed by a space and two emoji is long enough. The header cut
  keeps 50 code units, so a header of emoji keeps 25 of them.

## Left out

- Rendering: the JSX markup, styling and the theme are not modelled.
- Saving the report: `handleSaveOutput`, the download link and the outputs
  API are I/O.
- `localStorage` in the tab builder: loading and saving the tabs is browser
  storage and is not modelled. The state starts from the three default tabs.
- The tab builder's `alert` is a browser dialog. The model returns the alert
  text instead.
- `generateTabId`: its output comes from `Date.now` and `Math.random` and
  nothing depends on it. It is not modelled.
- `sanitizeTabContent`: its regular expression, with a lookahead and
  case-insensitive matching, is not modelled.
- Behaviour of the emitted scripts: only the arrow-key index arithmetic is
  modelled. DOM lookups, styles and the hover handlers are not.
- Timestamps: `toLocaleString` is locale-dependent. The report takes the
  stamp formatter as a parameter.
- Clock and randomness:
  - `Date.now` is the runtime's `now`.
  - `Math.random` is a stream of draws in `[0, 1)` given by the
    configuration.
  - The browser's choice of which timer fires next is the `Fire` action. It
    is offered only for the earliest due timer, ties going to the timer
    registered first. Time passing between timers is the `Wait` action.
- Environment variables arrive already parsed, as optional integers.
  - `CourtModel.EscalationDelay` does not model non-integer millisecond
    values.
  - `CourtModel.DistractionBounds` likewise does not model non-integer
    millisecond values.
  - Strings that `Number` rejects are the `None` case.
- Form inputs: the countdown fields arrive as optional reals. `None` stands
  for a value that `Number` turns into `NaN` or an infinity.
- CourtModel.ParseDuration: computes `minutes * 60 + seconds` exactly, as an
  unbounded integer. The page computes it in doubles. Minutes of about
  3e306 or more pass `Number.isFinite`, but the product is `Infinity`; the
  countdown then never reaches zero and `formatSeconds` prints
  "Infinity:NaN". Totals above 2^53 also lose precision. Neither is modelled.
- TabsHtml.SanitizeTabHeader: when the cut at 50 code units falls between
  the two halves of a surrogate pair, `substring` keeps a lone high
  surrogate. A Dafny string cannot hold one, so the model drops that whole
  character and keeps 49 code units.
- Browser delay clamping: delays above 2^31-1 ms are not clamped, and
  timers are not coalesced.
- React double effects: the double-invoked effects and updaters of strict
  development mode are not modelled. Each handler runs once, and its effects
  run once afterwards.
- Timer ids are modelled as starting at 1 and never reused, as browsers do.
  So the page's truthiness tests on refs mean "a timer is set".
- `CourtReport.FormatSecondsRoundTrip` covers only non-negative counts. The
  countdown never goes below zero.
- `CourtSession.Resolve` and `CourtSession.ResolveById` are functions.
  `prev.map(...)` in the source builds a new array, so there is no in-place
  update to model.
- Escalation delays below 2000 ms are allowed, as in the code. The urgent
  notice then fires before the initial one. No property here assumes the
  opposite order.

=== FILE: court_invariants.dfy ===
/** What holds of every Court Room session from mount onwards, and the proof
    that mounting establishes it and every step the page offers preserves it. */
module CourtInvariants {
  import opened Wrappers
  import opened CourtModel
  import opened CourtTimers
  import opened CourtSession

  // ---------------------------------------------------------------------------
  // The invariant

  /** Stages are completed in play order: the completed list is a prefix of
      the stage order, as long as the index, or all three stages once the last
      one is done. A summons names the active, unfinished stage. */
  predicate ProgressValid(v: View) {
    v.stageIndex < |StageOrder|
    && |v.completed| <= |StageOrder| && v.completed == StageOrder[..|v.completed|]
    && (|v.completed| == v.stageIndex || (v.stageIndex == |StageOrder| - 1 && |v.completed| == |StageOrder|))
    && (v.summonedStage.Some? ==>
          ActiveStage(v) == v.summonedStage && v.summonedStage.value !in v.completed && Escalates(v.summonedStage.value))
    && (v.celebration ==> |v.completed| == |StageOrder|)
  }

  /** The `i`-th message carries the id the counter gave it when it was pushed. */
  predicate LogValid(ms: seq<Message>, counter: nat) {
    |ms| == counter && forall i :: 0 <= i < |ms| ==> ms[i].id == IdText(ms[i].timestamp, i + 1)
  }

  /** Pending timer `h` is held by the ref its callback belongs to and by no
      other; an escalation belongs to the active, unfinished, armed stage. */
  predicate Owned(rt: Runtime, refs: TimerRefs, v: View, h: Handle)
    requires h in rt.pending
  {
    var e := rt.pending[h].event;
    (h in TimeoutsOf(refs, Accessibility) <==> (e.Escalate? && e.stage == Accessibility))
    && (h in TimeoutsOf(refs, Visual) <==> (e.Escalate? && e.stage == Visual))
    && (h in TimeoutsOf(refs, Validation) <==> (e.Escalate? && e.stage == Validation))
    && (e.Escalate? ==> Escalates(e.stage) && e.stage in refs.scheduled && e.stage !in v.completed
                        && ActiveStage(v) == Some(e.stage))
    && (refs.countdown == Some(h) <==> e == Tick)
    && (refs.distraction == Some(h) <==> e == Distraction)
    && (refs.celebration == Some(h) <==> e == HideCelebration)
  }

  /** The timer table and the refs agree: ids are fresh, nothing is overdue,
      every pending timer is owned, the countdown interval and the celebration
      timeout are pending while their refs are set, a distraction is always
      pending, and the first stage was armed on mount. */
  predicate TimersValid(rt: Runtime, refs: TimerRefs, v: View) {
    Fresh(rt) && NoneOverdue(rt)
    && (forall h :: h in rt.pending ==> Owned(rt, refs, v, h))
    && (forall st, h :: h in TimeoutsOf(refs, st) ==> h < rt.nextHandle)
    && (refs.countdown.Some? ==> refs.countdown.value in rt.pending)
    && refs.distraction.Some? && refs.distraction.value in rt.pending
    && (refs.celebration.Some? ==> refs.celebration.value in rt.pending
                                   && rt.pending[refs.celebration.value].at <= rt.now + 6000)
    && Accessibility in refs.scheduled
  }

  /** The running flag and the celebration flag follow their timers. */
  predicate FlagsValid(s: Session) {
    (s.view.timerRunning <==> s.refs.countdown.Some?)
    && (s.view.celebration <==> s.refs.celebration.Some?)
  }

  /** Only escalating stages are ever armed, and the last stage only once the
      page has reached it. */
  predicate ArmingValid(refs: TimerRefs, v: View) {
    Visual !in refs.scheduled && (Validation in refs.scheduled ==> v.stageIndex == |StageOrder| - 1)
  }

  predicate Valid(s: Session) {
    ProgressValid(s.view) && LogValid(s.view.messages, s.counter)
    && TimersValid(s.rt, s.refs, s.view) && FlagsValid(s) && ArmingValid(s.refs, s.view)
  }

  // ---------------------------------------------------------------------------
  // Mounting

  /** Mounting at `start` leaves four timers: the first distraction, and the
      first stage's three escalation timeouts after 2000 ms, one delay and two
      delays. */
  lemma MountTimers(cfg: Config, start: nat)
    requires ConfigValid(cfg)
    ensures var s, d := Mount(cfg, start), cfg.escalationDelay;
            s.rt.pending == map[1 := Timer(start + DistractionDelay(cfg, 0), Distraction),
                                 2 := Timer(start + 2000, Escalate(Accessibility, InitialNotice)),
                                 3 := Timer(start + d, Escalate(Accessibility, UrgentNotice)),
                                 4 := Timer(start + 2 * d, Escalate(Accessibility, LegalNotice))]
            && s.rt == Runtime(start, s.rt.pending, 5, 1)
            && s.refs == TimerRefs(None, Some(1), map[Accessibility := [2, 3, 4], Visual := [], Validation := []],
                                   {Accessibility}, None)
            && s.counter == 0 && s.view == Initial(start).view
  {
    var s1 := ScheduleNextDistraction(Initial(start), cfg);
    assert s1.rt.pending == map[1 := Timer(start + DistractionDelay(cfg, 0), Distraction)];
  }

  /** The page starts valid. */
  lemma MountValid(cfg: Config, start: nat)
    requires ConfigValid(cfg)
    ensures Valid(Mount(cfg, start))
  {
    MountTimers(cfg, start);
    MountedValid(Mount(cfg, start));
  }

  lemma MountedValid(s: Session)
    requires s.rt.pending.Keys == {1, 2, 3, 4} && s.rt.nextHandle == 5
    requires s.rt.pending[1].event == Distraction && s.rt.pending[2].event == Escalate(Accessibility, InitialNotice)
    requires s.rt.pending[3].event == Escalate(Accessibility, UrgentNotice)
    requires s.rt.pending[4].event == Escalate(Accessibility, LegalNotice)
    requires forall h :: h in s.rt.pending ==> s.rt.pending[h].at >= s.rt.now
    requires s.refs == TimerRefs(None, Some(1), map[Accessibility := [2, 3, 4], Visual := [], Validation := []],
                                 {Accessibility}, None)
    requires s.counter == 0 && s.view == Initial(s.rt.now).view
    ensures Valid(s)
  {
    assert TimeoutsOf(s.refs, Accessibility) == [2, 3, 4];
    assert TimeoutsOf(s.refs, Visual) == [] && TimeoutsOf(s.refs, Validation) == [];
    assert ActiveStage(s.view) == Some(Accessibility);
    forall h | h in s.rt.pending ensures Owned(s.rt, s.refs, s.view, h) {
      assert h == 1 || h == 2 || h == 3 || h == 4;
    }
  }

  // ---------------------------------------------------------------------------
  // Messages

  /** Appending a message numbers it after the last one. */
  lemma PushLog(s: Session, t: Template, related: Option<Stage>)
    requires LogValid(s.view.messages, s.counter)
    ensures var r := PushMessage(s, t, related); LogValid(r.view.messages, r.counter)
  {
    var r := PushMessage(s, t, related);
    var n := |s.view.messages|;
    forall i | 0 <= i < |r.view.messages|
      ensures r.view.messages[i].id == IdText(r.view.messages[i].timestamp, i + 1)
    {
      if i < n {
        assert r.view.messages[i] == r.view.messages[..n][i];
      }
    }
  }

  /** Appending a message keeps the session valid. */
  lemma PushValid(s: Session, t: Template, related: Option<Stage>)
    requires Valid(s)
    ensures Valid(PushMessage(s, t, related))
  {
    var r := PushMessage(s, t, related);
    PushLog(s, t, related);
    TimersView(s.rt, s.refs, s.view, r.view);
  }

  /** The summons names the active, unfinished stage. */
  lemma SummonsValid(s: Session, st: Stage)
    requires Valid(s) && ActiveStage(s.view) == Some(st) && st !in s.view.completed && Escalates(st)
    ensures Valid(TriggerCourtSummons(s, st))
  {
    var s1 := s.(view := s.view.(summoned := true, summonedStage := Some(st)));
    TimersView(s.rt, s.refs, s.view, s1.view);
    PushValid(s1, SummonsMessage(st), Some(st));
  }

  // ---------------------------------------------------------------------------
  // Stage timeouts

  /** Clearing the active stage's timeouts leaves no escalation pending, so
      the timers are valid whatever the page shows next. */
  lemma ClearActiveValid(s: Session, st: Stage, v: View)
    requires TimersValid(s.rt, s.refs, s.view) && ActiveStage(s.view) == Some(st)
    requires Accessibility in s.refs.scheduled
    ensures var r := ClearStageTimeouts(s, st);
            TimersValid(r.rt, r.refs, v) && forall h :: h in r.rt.pending ==> !r.rt.pending[h].event.Escalate?
  {
    var r := ClearStageTimeouts(s, st);
    forall h | h in r.rt.pending ensures Owned(r.rt, r.refs, v, h) && !r.rt.pending[h].event.Escalate? {
      assert Owned(s.rt, s.refs, s.view, h);
    }
  }

  /** Clearing another stage's timeouts cancels nothing. */
  lemma ClearInactiveValid(s: Session, st: Stage)
    requires TimersValid(s.rt, s.refs, s.view) && ActiveStage(s.view) != Some(st)
    ensures var r := ClearStageTimeouts(s, st);
            r.rt == s.rt && TimersValid(r.rt, r.refs, r.view)
  {
    var r := ClearStageTimeouts(s, st);
    forall h | h in s.rt.pending ensures h in r.rt.pending {
      assert Owned(s.rt, s.refs, s.view, h);
    }
    assert r.rt.pending == s.rt.pending;
    forall h | h in r.rt.pending ensures Owned(r.rt, r.refs, r.view, h) {
      assert Owned(s.rt, s.refs, s.view, h);
    }
  }

  /** Arming the active, unfinished stage keeps the timers valid. */
  lemma ScheduleValid(s: Session, cfg: Config, st: Stage)
    requires TimersValid(s.rt, s.refs, s.view) && cfg.escalationDelay > 0
    requires ActiveStage(s.view) == Some(st) && Escalates(st) && st !in s.view.completed
    ensures var r := ScheduleEscalation(s, cfg, st);
            TimersValid(r.rt, r.refs, r.view)
  {
    var r := ScheduleEscalation(s, cfg, st);
    if st in s.refs.scheduled {
      assert r == s;
    } else {
      ArmedValid(s.rt, s.refs, s.view, st, cfg.escalationDelay, r.rt, r.refs);
    }
  }

  /** The timers after a stage is armed, stated over the parts. */
  lemma ArmedValid(rt: Runtime, refs: TimerRefs, v: View, st: Stage, d: nat, r: Runtime, q: TimerRefs)
    requires TimersValid(rt, refs, v) && ActiveStage(v) == Some(st) && Escalates(st) && st !in v.completed
    requires st !in refs.scheduled
    requires r == rt.(pending := EscalationTimers(rt.pending, rt.now, rt.nextHandle, d, st), nextHandle := rt.nextHandle + 3)
    requires q == refs.(scheduled := refs.scheduled + {st},
                        stageTimeouts := refs.stageTimeouts[st := [rt.nextHandle, rt.nextHandle + 1, rt.nextHandle + 2]])
    ensures TimersValid(r, q, v)
  {
    forall g | g in r.pending
      ensures g < r.nextHandle && r.pending[g].at >= r.now && Owned(r, q, v, g)
    {
      ArmedOwned(rt, refs, v, st, d, r, q, g);
    }
    forall o, g | g in TimeoutsOf(q, o) ensures g < r.nextHandle {
      if o != st {
        assert g in TimeoutsOf(refs, o);
      }
    }
  }

  /** A timer pending after a stage is armed is owned. */
  lemma ArmedOwned(rt: Runtime, refs: TimerRefs, v: View, st: Stage, d: nat, r: Runtime, q: TimerRefs, g: Handle)
    requires TimersValid(rt, refs, v) && ActiveStage(v) == Some(st) && Escalates(st) && st !in v.completed
    requires st !in refs.scheduled
    requires r == rt.(pending := EscalationTimers(rt.pending, rt.now, rt.nextHandle, d, st), nextHandle := rt.nextHandle + 3)
    requires q == refs.(scheduled := refs.scheduled + {st},
                        stageTimeouts := refs.stageTimeouts[st := [rt.nextHandle, rt.nextHandle + 1, rt.nextHandle + 2]])
    requires g in r.pending
    ensures g < r.nextHandle && r.pending[g].at >= r.now && Owned(r, q, v, g)
  {
    var h := rt.nextHandle;
    if g in rt.pending {
      assert Owned(rt, refs, v, g);
      assert g < h;
      assert r.pending[g] == rt.pending[g];
    } else {
      assert g == h || g == h + 1 || g == h + 2;
      assert refs.countdown.Some? ==> refs.countdown.value < h;
      assert refs.celebration.Some? ==> refs.celebration.value < h;
      assert refs.distraction.value < h;
      forall o | o != st ensures g !in TimeoutsOf(q, o) {
        assert g !in TimeoutsOf(refs, o);
      }
    }
  }

  // ---------------------------------------------------------------------------
  // Views

  /** Stage timeout ids stay below the next id when the lists are kept and
      ids are only handed out. */
  lemma TimeoutsBelow(rt: Runtime, refs: TimerRefs, r: Runtime, q: TimerRefs)
    requires forall st, h :: h in TimeoutsOf(refs, st) ==> h < rt.nextHandle
    requires q.stageTimeouts == refs.stageTimeouts && rt.nextHandle <= r.nextHandle
    ensures forall st, h :: h in TimeoutsOf(q, st) ==> h < r.nextHandle
  {
    forall st, h | h in TimeoutsOf(q, st) ensures h < r.nextHandle {
      assert TimeoutsOf(q, st) == TimeoutsOf(refs, st);
    }
  }

  /** Owned timers only look at the stage index and the completed stages. */
  lemma TimersView(rt: Runtime, refs: TimerRefs, v: View, w: View)
    requires TimersValid(rt, refs, v) && w.stageIndex == v.stageIndex && w.completed == v.completed
    ensures TimersValid(rt, refs, w)
  {
    forall h | h in rt.pending ensures Owned(rt, refs, w, h) {
      assert Owned(rt, refs, v, h);
    }
  }

  /** A change to the form fields, the countdown value or the modal flag
      alone keeps the session valid. */
  lemma FormValid(s: Session, w: View)
    requires Valid(s)
    requires w.(altError := s.view.altError, colorError := s.view.colorError, validationError := s.view.validationError,
                timerError := s.view.timerError, options := s.view.options, summoned := s.view.summoned,
                countdown := s.view.countdown) == s.view
    ensures Valid(s.(view := w))
  {
    TimersView(s.rt, s.refs, s.view, w);
  }

  /** A commit that changes neither the stage index nor the celebration flag
      runs no effect. */
  lemma CommitIdle(cfg: Config, before: View, s: Session)
    requires cfg.escalationDelay > 0
    requires before.stageIndex == s.view.stageIndex && before.celebration == s.view.celebration
    ensures CommitEffects(cfg, before, s) == s
  {
  }

  /** Marking a message handled keeps every id. */
  lemma MarkHandledValid(s: Session, id: string)
    requires Valid(s)
    ensures Valid(MarkHandled(s, id))
  {
    var r := MarkHandled(s, id);
    forall i | 0 <= i < |r.view.messages|
      ensures r.view.messages[i].id == IdText(r.view.messages[i].timestamp, i + 1)
    {
      assert r.view.messages[i].(resolved := s.view.messages[i].resolved) == s.view.messages[i];
    }
    TimersView(s.rt, s.refs, s.view, r.view);
  }

  // ---------------------------------------------------------------------------
  // Countdown

  lemma StopValid(s: Session)
    requires Valid(s)
    ensures Valid(StopTimer(s))
  {
    var r := StopTimer(s);
    TimeoutsBelow(s.rt, s.refs, r.rt, r.refs);
    forall h | h in r.rt.pending ensures Owned(r.rt, r.refs, r.view, h) {
      assert Owned(s.rt, s.refs, s.view, h);
    }
  }

  lemma ResetValid(s: Session)
    requires Valid(s)
    ensures Valid(ResetTimer(s))
  {
    StopValid(s);
    FormValid(StopTimer(s), ResetTimer(s).view);
  }

  lemma StartValid(s: Session, minutes: Option<real>, seconds: Option<real>)
    requires Valid(s)
    ensures Valid(StartTimer(s, minutes, seconds))
  {
    var r := StartTimer(s, minutes, seconds);
    if ParseDuration(minutes, seconds).Rejected? {
      FormValid(s, r.view);
    } else {
      var h := s.rt.nextHandle;
      TimeoutsBelow(s.rt, s.refs, r.rt, r.refs);
      forall g | g in r.rt.pending ensures Owned(r.rt, r.refs, r.view, g) {
        if g != h {
          assert Owned(s.rt, s.refs, s.view, g);
        }
      }
    }
  }

  // ---------------------------------------------------------------------------
  // Stage completion

  /** Completing the active, unfinished stage keeps progress, log and timers
      valid, and leaves no escalation pending; only the celebration timeout
      may still be missing. */
  lemma CompletedValid(t: Session, st: Stage)
    requires Valid(t) && ActiveStage(t.view) == Some(st) && st !in t.view.completed
    ensures var m := MarkStageComplete(t, st);
            ProgressValid(m.view) && LogValid(m.view.messages, m.counter) && TimersValid(m.rt, m.refs, m.view)
            && (forall h :: h in m.rt.pending ==> !m.rt.pending[h].event.Escalate?)
            && TimeoutsOf(m.refs, st) == [] && |m.view.completed| == t.view.stageIndex + 1
            && m.refs.countdown == t.refs.countdown && m.refs.celebration == t.refs.celebration
            && m.view.timerRunning == t.view.timerRunning && m.refs.scheduled == t.refs.scheduled
  {
    var m := MarkStageComplete(t, st);
    var v := t.view;
    assert |v.completed| == v.stageIndex;
    assert m.view.completed == StageOrder[..|m.view.completed|];
    ClearActiveValid(t, st, m.view);
    forall i | 0 <= i < |m.view.messages|
      ensures m.view.messages[i].id == IdText(m.view.messages[i].timestamp, i + 1)
    {
      assert m.view.messages[i].(resolved := v.messages[i].resolved) == v.messages[i];
    }
  }

  /** The commit after the page moved to the next stage: the previous
      stage's list is already empty, and the next stage is armed if it
      escalates. */
  lemma AdvanceValid(cfg: Config, before: View, m: Session)
    requires cfg.escalationDelay > 0
    requires ProgressValid(m.view) && LogValid(m.view.messages, m.counter) && TimersValid(m.rt, m.refs, m.view)
    requires FlagsValid(m)
    requires forall h :: h in m.rt.pending ==> !m.rt.pending[h].event.Escalate?
    requires before.stageIndex < |StageOrder| && m.view.stageIndex == before.stageIndex + 1
    requires |m.view.completed| == m.view.stageIndex
    requires TimeoutsOf(m.refs, StageOrder[before.stageIndex]) == [] && ArmingValid(m.refs, before)
    requires m.view.celebration == before.celebration
    ensures Valid(CommitEffects(cfg, before, m))
  {
    var prev, next := StageOrder[before.stageIndex], StageOrder[m.view.stageIndex];
    assert ActiveStage(before) == Some(prev) && ActiveStage(m.view) == Some(next);
    var s1 := if Escalates(prev) then ClearStageTimeouts(m, prev) else m;
    if Escalates(prev) {
      ClearInactiveValid(m, prev);
    }
    assert s1.view == m.view && s1.counter == m.counter && s1.refs.countdown == m.refs.countdown
           && s1.refs.celebration == m.refs.celebration && s1.rt == m.rt;
    if Escalates(next) {
      assert next !in m.view.completed by {
        StageOrderIsPermutation(next);
      }
      ScheduleValid(s1, cfg, next);
    }
  }

  /** The commit after the last stage was completed: the celebration timeout
      is registered six seconds ahead. */
  lemma CelebrateValid(cfg: Config, before: View, m: Session)
    requires cfg.escalationDelay > 0
    requires ProgressValid(m.view) && LogValid(m.view.messages, m.counter) && TimersValid(m.rt, m.refs, m.view)
    requires m.view.stageIndex == before.stageIndex && m.view.celebration && !before.celebration
    requires m.refs.celebration.None? && (m.view.timerRunning <==> m.refs.countdown.Some?)
    requires ArmingValid(m.refs, m.view)
    ensures Valid(CommitEffects(cfg, before, m))
  {
    var h := m.rt.nextHandle;
    var r := CommitEffects(cfg, before, m);
    assert r.rt == Register(m.rt, 6000, HideCelebration) && r.refs == m.refs.(celebration := Some(h));
    TimeoutsBelow(m.rt, m.refs, r.rt, r.refs);
    forall g | g in r.rt.pending ensures Owned(r.rt, r.refs, r.view, g) {
      if g != h {
        assert Owned(m.rt, m.refs, m.view, g);
      }
    }
  }

  /** Completing the active stage, then committing, keeps the session valid. */
  lemma CompleteValid(cfg: Config, before: View, t: Session, st: Stage)
    requires cfg.escalationDelay > 0
    requires Valid(t) && ActiveStage(t.view) == Some(st)
    requires before.stageIndex == t.view.stageIndex && before.celebration == t.view.celebration
    ensures Valid(CommitEffects(cfg, before, MarkStageComplete(t, st)))
  {
    var m := MarkStageComplete(t, st);
    if st in t.view.completed {
      CommitIdle(cfg, before, m);
    } else {
      CompletedValid(t, st);
      if t.view.stageIndex + 1 < |StageOrder| {
        AdvanceValid(cfg, before, m);
      } else {
        assert !t.view.celebration;
        CelebrateValid(cfg, before, m);
      }
    }
  }

  // ---------------------------------------------------------------------------
  // The three stage forms

  lemma AltValid(cfg: Config, s: Session, answer: string)
    requires cfg.escalationDelay > 0 && Valid(s) && ActiveStage(s.view) == Some(Accessibility)
    ensures Valid(CommitEffects(cfg, s.view, AltSubmit(s, answer)))
  {
    var s0 := s.(view := s.view.(altError := AltError(answer)));
    FormValid(s, s0.view);
    if AltError(answer).Some? {
      CommitIdle(cfg, s.view, s0);
    } else {
      PushValid(s0, AcceptedMessage(Accessibility), Some(Accessibility));
      CompleteValid(cfg, s.view, PushMessage(s0, AcceptedMessage(Accessibility), Some(Accessibility)), Accessibility);
    }
  }

  lemma ColorValid(cfg: Config, s: Session, choice: string)
    requires cfg.escalationDelay > 0 && Valid(s) && ActiveStage(s.view) == Some(Visual)
    ensures Valid(CommitEffects(cfg, s.view, ColorSubmit(s, choice)))
  {
    var s0 := s.(view := s.view.(colorError := ColorError(choice)));
    FormValid(s, s0.view);
    if ColorError(choice).Some? {
      CommitIdle(cfg, s.view, s0);
    } else {
      PushValid(s0, AcceptedMessage(Visual), Some(Visual));
      CompleteValid(cfg, s.view, PushMessage(s0, AcceptedMessage(Visual), Some(Visual)), Visual);
    }
  }

  lemma ValidationFormValid(cfg: Config, s: Session)
    requires cfg.escalationDelay > 0 && Valid(s) && ActiveStage(s.view) == Some(Validation)
    ensures Valid(CommitEffects(cfg, s.view, ValidationSubmit(s)))
  {
    var s0 := s.(view := s.view.(validationError := ValidationError(s.view.options)));
    FormValid(s, s0.view);
    if ValidationError(s.view.options).Some? {
      CommitIdle(cfg, s.view, s0);
    } else {
      PushValid(s0, AcceptedMessage(Validation), Some(Validation));
      CompleteValid(cfg, s.view, PushMessage(s0, AcceptedMessage(Validation), Some(Validation)), Validation);
    }
  }

  // ---------------------------------------------------------------------------
  // Timer callbacks

  /** Taking the next timer, when it is an escalation timeout or the
      countdown interval, keeps the session valid. */
  lemma ElapseValid(s: Session, h: Handle)
    requires Valid(s) && IsNext(s.rt.pending, h)
    requires s.rt.pending[h].event.Escalate? || s.rt.pending[h].event == Tick
    ensures Valid(Elapse(s, h))
  {
    var r := Elapse(s, h);
    NextNotOverdue(s.rt, h);
    assert Owned(s.rt, s.refs, s.view, h);
    forall g | g in r.rt.pending ensures Owned(r.rt, r.refs, r.view, g) {
      assert Owned(s.rt, s.refs, s.view, g);
    }
  }

  /** The notice, and for the legal notice the summons, name the active,
      unfinished stage. */
  lemma OnEscalateValid(s: Session, st: Stage, level: Level)
    requires Valid(s) && ActiveStage(s.view) == Some(st) && st !in s.view.completed && Escalates(st)
    ensures Valid(OnEscalate(s, st, level))
  {
    PushValid(s, EscalationMessage(st, level), Some(st));
    if level == LegalNotice {
      SummonsValid(PushMessage(s, EscalationMessage(st, level), Some(st)), st);
    }
  }

  lemma FireEscalateValid(s: Session, cfg: Config, h: Handle)
    requires Valid(s) && ConfigValid(cfg) && IsNext(s.rt.pending, h) && s.rt.pending[h].event.Escalate?
    ensures Valid(CommitEffects(cfg, s.view, FireTimer(s, cfg, h)))
  {
    var e := s.rt.pending[h].event;
    assert Owned(s.rt, s.refs, s.view, h);
    ElapseValid(s, h);
    OnEscalateValid(Elapse(s, h), e.stage, e.level);
    CommitIdle(cfg, s.view, FireTimer(s, cfg, h));
  }

  /** Running the distraction timeout replaces it by the next one. */
  lemma FireDistractionValid(s: Session, cfg: Config, h: Handle)
    requires Valid(s) && ConfigValid(cfg) && IsNext(s.rt.pending, h) && s.rt.pending[h].event == Distraction
    ensures Valid(CommitEffects(cfg, s.view, FireTimer(s, cfg, h)))
  {
    var s1 := Elapse(s, h);
    var k := DistractionIndex(cfg.random(s1.rt.draws));
    var s2 := s1.(rt := s1.rt.(draws := s1.rt.draws + 1));
    var r := ScheduleNextDistraction(PushMessage(s2, DistractionPool[k], None), cfg);
    assert r == OnDistraction(s1, cfg);
    var n := s.rt.nextHandle;
    NextNotOverdue(s.rt, h);
    assert Owned(s.rt, s.refs, s.view, h);
    PushLog(s2, DistractionPool[k], None);
    TimeoutsBelow(s.rt, s.refs, r.rt, r.refs);
    forall g | g in r.rt.pending ensures Owned(r.rt, r.refs, r.view, g) {
      if g != n {
        assert Owned(s.rt, s.refs, s.view, g);
      }
    }
    CommitIdle(cfg, s.view, r);
  }

  /** A tick counts down, or at the last second stops the interval and
      posts the time-up notice. */
  lemma OnTickValid(s: Session)
    requires Valid(s)
    ensures Valid(OnTick(s))
  {
    if s.view.countdown <= 1 {
      StopValid(s);
      PushValid(StopTimer(s), TimeUpMessage, None);
      var s1 := PushMessage(StopTimer(s), TimeUpMessage, None);
      FormValid(s1, s1.view.(countdown := 0));
    } else {
      FormValid(s, s.view.(countdown := s.view.countdown - 1));
    }
  }

  lemma FireTickValid(s: Session, cfg: Config, h: Handle)
    requires Valid(s) && ConfigValid(cfg) && IsNext(s.rt.pending, h) && s.rt.pending[h].event == Tick
    ensures Valid(CommitEffects(cfg, s.view, FireTimer(s, cfg, h)))
  {
    ElapseValid(s, h);
    OnTickValid(Elapse(s, h));
    CommitIdle(cfg, s.view, FireTimer(s, cfg, h));
  }

  /** The celebration timeout hides the overlay; the commit's cleanup then
      drops its ref. */
  lemma FireHideValid(s: Session, cfg: Config, h: Handle)
    requires Valid(s) && ConfigValid(cfg) && IsNext(s.rt.pending, h) && s.rt.pending[h].event == HideCelebration
    ensures Valid(CommitEffects(cfg, s.view, FireTimer(s, cfg, h)))
  {
    var s0 := Elapse(s, h);
    var s1 := s0.(view := s0.view.(celebration := false));
    assert FireTimer(s, cfg, h) == s1;
    var r := CommitEffects(cfg, s.view, s1);
    assert Owned(s.rt, s.refs, s.view, h);
    assert s.view.celebration;
    assert r == s1.(rt := Cancel(s0.rt, h), refs := s.refs.(celebration := None));
    assert Cancel(s0.rt, h).pending == s0.rt.pending;
    NextNotOverdue(s.rt, h);
    TimeoutsBelow(s.rt, s.refs, r.rt, r.refs);
    forall g | g in r.rt.pending ensures Owned(r.rt, r.refs, r.view, g) {
      assert Owned(s.rt, s.refs, s.view, g);
    }
  }

  // ---------------------------------------------------------------------------
  // Every step

  /** Whatever the page offers next keeps the session valid. */
  lemma ApplyValid(s: Session, cfg: Config, a: Action)
    requires Valid(s) && ConfigValid(cfg) && Enabled(s, a)
    ensures Valid(Apply(s, cfg, a))
  {
    var r := Handler(s, cfg, a);
    match a
    case SubmitAlt(answer) => AltValid(cfg, s, answer);
    case SubmitColor(choice) => ColorValid(cfg, s, choice);
    case SubmitValidation => ValidationFormValid(cfg, s);
    case ToggleOption(which) =>
      FormValid(s, r.view);
      CommitIdle(cfg, s.view, r);
    case StartCountdown(m, sec) =>
      StartValid(s, m, sec);
      CommitIdle(cfg, s.view, r);
    case PauseCountdown =>
      StopValid(s);
      CommitIdle(cfg, s.view, r);
    case ResetCountdown =>
      ResetValid(s);
      CommitIdle(cfg, s.view, r);
    case MarkMessageHandled(id) =>
      MarkHandledValid(s, id);
      CommitIdle(cfg, s.view, r);
    case DismissSummons =>
      FormValid(s, r.view);
      CommitIdle(cfg, s.view, r);
    case Fire(h) => FireValid(s, cfg, h);
    case Wait(t) =>
      WaitValid(s, t);
      CommitIdle(cfg, s.view, r);
  }

  /** Waiting up to the next due time keeps the session valid: no timer
      becomes overdue and the celebration timeout stays within its 6000 ms. */
  lemma WaitValid(s: Session, t: nat)
    requires Valid(s) && s.rt.now <= t && forall h :: h in s.rt.pending ==> t <= s.rt.pending[h].at
    ensures Valid(WaitUntil(s, t))
  {
    var r := WaitUntil(s, t);
    forall g | g in r.rt.pending ensures Owned(r.rt, r.refs, r.view, g) {
      assert Owned(s.rt, s.refs, s.view, g);
    }
  }

  /** Whichever timer the browser runs next, the session stays valid. */
  lemma FireValid(s: Session, cfg: Config, h: Handle)
    requires Valid(s) && ConfigValid(cfg) && IsNext(s.rt.pending, h)
    ensures Valid(Apply(s, cfg, Fire(h)))
  {
    var e := s.rt.pending[h].event;
    assert Handler(s, cfg, Fire(h)) == FireTimer(s, cfg, h);
    if e == HideCelebration {
      FireHideValid(s, cfg, h);
    } else if e.Escalate? {
      FireEscalateValid(s, cfg, h);
    } else if e == Distraction {
      FireDistractionValid(s, cfg, h);
    } else {
      FireTickValid(s, cfg, h);
    }
  }
}

=== FILE: court_model.dfy ===
/** The fixed vocabulary of the court-room page (app/court-room/page.tsx): the
    three stages, the messages the page can post, the configuration read from
    the environment, the random draws, and the three stage gates that decide
    whether a submitted answer completes its stage. Everything here is pure. */
module CourtModel {
  import opened Wrappers
  import opened Text

  // ---------------------------------------------------------------------------
  // Stages (app/court-room/page.tsx:6, 20, 74-102)

  datatype Stage = Accessibility | Visual | Validation

  /** The order in which the stages are played. */
  const StageOrder: seq<Stage> := [Accessibility, Visual, Validation]

  /** Every stage has exactly one place in the order. */
  lemma StageOrderIsPermutation(s: Stage)
    ensures exists i :: 0 <= i < |StageOrder| && StageOrder[i] == s
    ensures forall i, j :: 0 <= i < j < |StageOrder| ==> StageOrder[i] != StageOrder[j]
  {
    if s == Accessibility { assert StageOrder[0] == s; }
    else if s == Visual { assert StageOrder[1] == s; }
    else { assert StageOrder[2] == s; }
  }

  function StageTitle(s: Stage): string {
    match s
    case Accessibility => "Stage 1 - " + "Accessibility " + "Audit"
    case Visual => "Stage 2 - " + "Agile " + "Change " + "Requests"
    case Validation => "Stage 3 - " + "Security " + "Hardening"
  }

  /** The escalation effect arms timers only for these stages. */
  predicate Escalates(s: Stage) {
    s == Accessibility || s == Validation
  }

  // ---------------------------------------------------------------------------
  // Messages (app/court-room/page.tsx:8, 51-72, 104-138)

  datatype Severity = Info | Warning | Urgent | Legal

  /** What a message says before the log stamps it with an id and a time. */
  datatype Template = Template(sender: string, body: string, severity: Severity)

  /** A log entry (`CourtMessage`). `timestamp` is the clock reading in
      milliseconds when the entry was posted. */
  datatype Message = Message(id: string, sender: string, body: string, severity: Severity,
                             timestamp: nat, resolved: bool, related: Option<Stage>)

  /** The three steps of an escalation. */
  datatype Level = InitialNotice | UrgentNotice | LegalNotice

  /** The escalation messages a stage is armed with. The page picks the
      accessibility set for "accessibility" and the validation set for every
      other stage. */
  function EscalationMessage(s: Stage, level: Level): (t: Template)
    ensures t.severity == match level
                         case InitialNotice => Warning
                         case UrgentNotice => Urgent
                         case LegalNotice => Legal
    ensures level == LegalNotice <==> t.sender == "Judge"
  {
    if s == Accessibility then
      match level
      case InitialNotice =>
        Template("Accessibility " + "Officer", "Fix alt in " + "img1 before " + "the release " + "goes live.", Warning)
      case UrgentNotice =>
        Template("Accessibility " + "Officer", "Urgent fix " + "alt in " + "img1. We " + "are " + "breaching " + "the " + "Disability " + "Act.", Urgent)
      case LegalNotice =>
        Template("Judge", "You ignored " + "accessibility " + "guidelines. " + "The court " + "fines you " + "for " + "breaching " + "the " + "Disability " + "Act.", Legal)
    else
      match level
      case InitialNotice =>
        Template("Security " + "Analyst", "Fix input " + "validation " + "on the " + "login form " + "immediately.", Warning)
      case UrgentNotice =>
        Template("Security " + "Analyst", "Urgent fix " + "input " + "validation. " + "We are " + "moments " + "away from a " + "data breach.", Urgent)
      case LegalNotice =>
        Template("Judge", "Neglecting " + "input " + "validation " + "broke the " + "laws of " + "tort. " + "Damages are " + "awarded " + "against you.", Legal)
  }

  /** The two escalating stages never share an escalation message, so a message
      in the log tells which stage it escalates. */
  lemma EscalationMessagesDistinct(l: Level, m: Level)
    ensures EscalationMessage(Accessibility, l).body != EscalationMessage(Validation, m).body
  {
  }

  /** The court clerk's announcement that opens a hearing about stage `s`. */
  function SummonsMessage(s: Stage): (t: Template)
    ensures t.severity == Legal && t.sender == "Court Clerk"
  {
    Template("Court Clerk", "The court " + "is now in " + "session for " + "\"" + StageTitle(s) + "\".", Legal)
  }

  /** The confirmation posted when a stage's answer is accepted. */
  function AcceptedMessage(s: Stage): (t: Template)
    ensures t.severity == Info
  {
    match s
    case Accessibility =>
      Template("Accessibility " + "Officer", "Alt text " + "applied " + "correctly. " + "Accessibility " + "check " + "cleared.", Info)
    case Visual =>
      Template("Agile Coach", "Title " + "colour " + "update " + "approved. " + "Proceed to " + "the next " + "task.", Info)
    case Validation =>
      Template("Security " + "Analyst", "Input " + "validation " + "enforced. " + "Attack " + "surface " + "reduced.", Info)
  }

  const TimeUpMessage: Template := Template("Timer", "Countdown " + "reached " + "zero. Time " + "is up.", Urgent)

  /** The interruptions a distraction draws from. */
  const DistractionPool: seq<Template> := [
    Template("Project " + "Manager", "Sprint " + "retro in 5 " + "minutes. " + "Are you " + "done with " + "sprint 1?", Info),
    Template("Family", "Can you " + "pick up the " + "kids after " + "work today?", Info),
    Template("Agile Coach", "Change the " + "title " + "colour to " + "red before " + "stand-up " + "please.", Info),
    Template("Security " + "Operations", "Reminder: " + "review " + "yesterday's " + "penetration " + "test notes.", Info),
    Template("Finance", "Your " + "invoice is " + "pending " + "approval. " + "Double-check " + "billable " + "hours.", Info)
  ]

  /** No message the page posts by itself carries the text of an escalation:
      only an escalation timer can put one in the log. */
  lemma OnlyEscalationsEscalate(s: Stage, l: Level, t: Stage, k: nat)
    ensures EscalationMessage(s, l).body != SummonsMessage(t).body
    ensures EscalationMessage(s, l).body != AcceptedMessage(t).body
    ensures EscalationMessage(s, l).body != TimeUpMessage.body
    ensures k < |DistractionPool| ==> EscalationMessage(s, l).body != DistractionPool[k].body
  {
    NotSummons(s, l, t);
    NotAccepted(s, l, t);
    if k < |DistractionPool| {
      NotDistraction(s, l, k);
    }
  }

  /** The escalation texts are told apart from every other text by length. */
  predicate EscalationLength(n: int) {
    n == 45 || n == 51 || n == 60 || n == 68 || n == 84 || n == 91
  }

  lemma EscalationLengths(s: Stage, l: Level)
    ensures EscalationLength(|EscalationMessage(s, l).body|)
  {
    match l
    case InitialNotice => InitialLength(s);
    case UrgentNotice => UrgentLength(s);
    case LegalNotice => LegalLength(s);
  }

  lemma InitialLength(s: Stage)
    ensures |EscalationMessage(s, InitialNotice).body| in {45, 51}
  {
  }

  lemma UrgentLength(s: Stage)
    ensures |EscalationMessage(s, UrgentNotice).body| in {60, 68}
  {
  }

  lemma LegalLength(s: Stage)
    ensures |EscalationMessage(s, LegalNotice).body| in {84, 91}
  {
  }

  lemma NotSummons(s: Stage, l: Level, t: Stage)
    ensures EscalationMessage(s, l).body != SummonsMessage(t).body
  {
    EscalationLengths(s, l);
    assert !EscalationLength(|SummonsMessage(t).body|);
  }

  lemma NotAccepted(s: Stage, l: Level, t: Stage)
    ensures EscalationMessage(s, l).body != AcceptedMessage(t).body
  {
    EscalationLengths(s, l);
    assert !EscalationLength(|AcceptedMessage(t).body|);
  }

  lemma NotDistraction(s: Stage, l: Level, k: nat)
    requires k < |DistractionPool|
    ensures EscalationMessage(s, l).body != DistractionPool[k].body
  {
    EscalationLengths(s, l);
    assert !EscalationLength(|DistractionPool[k].body|);
  }

  // ---------------------------------------------------------------------------
  // Configuration (app/court-room/page.tsx:32-49)

  const DefaultEscalationDelay: int := 120000
  const DefaultDistractionMin: int := 20000
  const DefaultDistractionMax: int := 30000

  /** `getEscalationDelay`: the configured delay in milliseconds when it is a
      positive number, two minutes otherwise. `None` stands for an unset or
      empty variable and for one that does not parse to a finite number. */
  function EscalationDelay(configured: Option<int>): (d: int)
    ensures d > 0
    ensures d == DefaultEscalationDelay || configured == Some(d)
    ensures configured.Some? && configured.value > 0 ==> d == configured.value
  {
    if configured.Some? && configured.value > 0 then configured.value else DefaultEscalationDelay
  }

  datatype Bounds = Bounds(min: int, max: int)

  /** `getDistractionBounds`: each bound falls back to its default on its own.
      The maximum is accepted only above the (possibly defaulted) minimum. */
  function DistractionBounds(minConfigured: Option<int>, maxConfigured: Option<int>): (b: Bounds)
    ensures b.min > 0 && b.max > 0
    ensures b.min == DefaultDistractionMin || minConfigured == Some(b.min)
    ensures b.max == DefaultDistractionMax || (maxConfigured == Some(b.max) && b.max > b.min)
    ensures maxConfigured.Some? && maxConfigured.value > b.min ==> b.max == maxConfigured.value
    ensures minConfigured.Some? && minConfigured.value > 0 ==> b.min == minConfigured.value
  {
    var min := if minConfigured.Some? && minConfigured.value > 0 then minConfigured.value else DefaultDistractionMin;
    var max := if maxConfigured.Some? && maxConfigured.value > min then maxConfigured.value else DefaultDistractionMax;
    Bounds(min, max)
  }

  /** The bounds are ordered whenever the minimum stays below the default
      maximum, and only then can a missing maximum be relied on. */
  lemma BoundsOrdered(minConfigured: Option<int>, maxConfigured: Option<int>)
    requires minConfigured.None? || minConfigured.value < DefaultDistractionMax
    ensures DistractionBounds(minConfigured, maxConfigured).min < DistractionBounds(minConfigured, maxConfigured).max
  {
  }

  /** A configured minimum at or above the default maximum, with no maximum
      configured, gives bounds the wrong way round. */
  lemma BoundsInverted(minConfigured: int)
    requires minConfigured >= DefaultDistractionMax
    ensures DistractionBounds(Some(minConfigured), None) == Bounds(minConfigured, DefaultDistractionMax)
    ensures minConfigured > DefaultDistractionMax ==>
              DistractionBounds(Some(minConfigured), None).min > DistractionBounds(Some(minConfigured), None).max
  {
  }

  // ---------------------------------------------------------------------------
  // Random draws (app/court-room/page.tsx:148-151, 565)

  /** A value of `Math.random()`. */
  predicate IsDraw(u: real) {
    0.0 <= u < 1.0
  }

  /** `randomBetween(min, max)` for the draw `u`. */
  function RandomBetween(min: int, max: int, u: real): int
    requires IsDraw(u)
  {
    (u * (max - min) as real).Floor + min
  }

  /** With ordered bounds the delay lies in [min, max); with inverted bounds it
      lies in [max, min]; equal bounds give exactly that value. */
  lemma RandomBetweenRange(min: int, max: int, u: real)
    requires IsDraw(u)
    ensures min < max ==> min <= RandomBetween(min, max, u) < max
    ensures max < min ==> max <= RandomBetween(min, max, u) <= min
    ensures min == max ==> RandomBetween(min, max, u) == min
  {
    if min < max {
      OrderedRange(min, max, u);
    } else if max < min {
      InvertedRange(min, max, u);
    } else {
      assert (max - min) as real == 0.0;
    }
  }

  lemma OrderedRange(min: int, max: int, u: real)
    requires IsDraw(u) && min < max
    ensures min <= RandomBetween(min, max, u) < max
  {
    var d: real := (max - min) as real;
    ScaleBelow(u, d);
    FloorWithin(u * d, max - min);
  }

  lemma InvertedRange(min: int, max: int, u: real)
    requires IsDraw(u) && max < min
    ensures max <= RandomBetween(min, max, u) <= min
  {
    var e: real := (min - max) as real;
    ScaleBelow(u, e);
    assert u * (max - min) as real == -(u * e);
    FloorAbove(u * (max - min) as real, max - min);
  }

  lemma FloorWithin(x: real, d: int)
    requires 0.0 <= x < d as real
    ensures 0 <= x.Floor < d
  {
  }

  lemma FloorAbove(x: real, d: int)
    requires d as real < x <= 0.0
    ensures d <= x.Floor <= 0
  {
  }

  lemma ScaleBelow(u: real, d: real)
    requires IsDraw(u) && d > 0.0
    ensures 0.0 <= u * d < d
  {
    assert d - u * d == (1.0 - u) * d;
  }

  /** Every distraction delay of a page is positive, so a rescheduled
      distraction always lies in the future. */
  lemma RandomBetweenPositive(min: int, max: int, u: real)
    requires IsDraw(u) && min > 0 && max > 0
    ensures RandomBetween(min, max, u) > 0
  {
    RandomBetweenRange(min, max, u);
  }

  /** `Math.floor(Math.random() * distractionPool.length)`. */
  function DistractionIndex(u: real): (i: nat)
    requires IsDraw(u)
    ensures i < |DistractionPool|
  {
    ScaleBelow(u, 5.0);
    (u * 5.0).Floor
  }

  // ---------------------------------------------------------------------------
  // Stage gates (app/court-room/page.tsx:667-727)

  const AltTooShort: string := "Provide a " + "meaningful " + "description " + "(at least 8 " + "characters)."
  const AltNoLetters: string := "Use " + "descriptive " + "words, not " + "just " + "symbols or " + "numbers."
  const ColorRejected: string := "Select the " + "high-contrast " + "inline " + "style to " + "satisfy the " + "brief."
  const ValidationRejected: string := "Enable " + "required " + "fields and " + "sanitisation " + "to pass the " + "audit."
  const HighContrastChoice: string := "inline-high-contrast"

  /** `/[a-zA-Z]/.test(s)`. */
  predicate HasAsciiLetter(s: string) {
    exists i | 0 <= i < |s| :: 'a' <= s[i] <= 'z' || 'A' <= s[i] <= 'Z'
  }

  /** The alt-text gate: `None` when the answer completes the stage, otherwise
      the error shown under the field. Length is counted in UTF-16 code units,
      and checked before letters. */
  function AltError(answer: string): (e: Option<string>)
    ensures e.None? <==> Utf16Length(Trim(answer)) >= 8 && HasAsciiLetter(Trim(answer))
    ensures e == Some(AltTooShort) <==> Utf16Length(Trim(answer)) < 8
    ensures Utf16Length(Trim(answer)) >= 8 && !HasAsciiLetter(Trim(answer)) ==> e == Some(AltNoLetters)
  {
    var trimmed := Trim(answer);
    if Utf16Length(trimmed) < 8 then Some(AltTooShort)
    else if !HasAsciiLetter(trimmed) then Some(AltNoLetters)
    else None
  }

  /** Trimming twice is trimming once. */
  lemma TrimIdempotent(s: string)
    ensures Trim(Trim(s)) == Trim(s)
  {
    TrimOfTrimmed(Trim(s));
  }

  /** Surrounding whitespace never changes the verdict: the gate judges the
      trimmed answer. */
  lemma AltErrorIgnoresPadding(answer: string)
    ensures AltError(Trim(answer)) == AltError(answer)
  {
    TrimIdempotent(answer);
  }

  // Examples of the gate at work.

  lemma AltAccepted()
    ensures AltError("a photo of " + "a cat") == None
  {
    TrimOfTrimmed("a photo of " + "a cat");
    assert ("a photo of " + "a cat")[0] == 'a';
  }

  /** Two emoji are four code units: "cat" and two cats reach eight. */
  lemma AltAcceptedCountsCodeUnits()
    ensures AltError("cat " + "\U{1F431}\U{1F431}") == None
  {
    var cats := "\U{1F431}\U{1F431}";
    var s := "cat " + cats;
    TrimOfTrimmed(s);
    Utf16LengthConcat("cat ", cats);
    assert cats[1..][1..] == [];
    assert Utf16Length(cats) == 4;
    assert s[0] == 'c';
  }

  lemma AltTooShortExample()
    ensures AltError("a photo") == Some(AltTooShort)
  {
    TrimOfTrimmed("a photo");
  }

  lemma AltDigitsOnly()
    ensures AltError("12345678") == Some(AltNoLetters)
  {
    var digits := "12345678";
    TrimOfTrimmed(digits);
    assert forall i :: 0 <= i < |digits| ==> '0' <= digits[i] <= '9';
  }

  /** The colour gate accepts one exact choice. */
  function ColorError(choice: string): (e: Option<string>)
    ensures e.None? <==> choice == HighContrastChoice
    ensures e.Some? ==> e.value == ColorRejected
  {
    if choice != HighContrastChoice then Some(ColorRejected) else None
  }

  /** The checkboxes of the validation stage. */
  datatype ValidationOptions = ValidationOptions(required: bool, length: bool, sanitise: bool)

  datatype ValidationOption = Required | Length | Sanitise

  /** `toggleValidationOption`: flips the one named box. */
  function Toggle(o: ValidationOptions, which: ValidationOption): (r: ValidationOptions)
    ensures (r.required != o.required) <==> which == Required
    ensures (r.length != o.length) <==> which == Length
    ensures (r.sanitise != o.sanitise) <==> which == Sanitise
  {
    match which
    case Required => o.(required := !o.required)
    case Length => o.(length := !o.length)
    case Sanitise => o.(sanitise := !o.sanitise)
  }

  lemma ToggleTwice(o: ValidationOptions, which: ValidationOption)
    ensures Toggle(Toggle(o, which), which) == o
  {
  }

  /** The validation gate. */
  function ValidationError(o: ValidationOptions): (e: Option<string>)
    ensures e.None? <==> o.required && o.sanitise
    ensures e.Some? ==> e.value == ValidationRejected
  {
    if !o.required || !o.sanitise then Some(ValidationRejected) else None
  }

  /** The "length" box never matters, whichever way it is toggled. */
  lemma LengthIsIrrelevant(o: ValidationOptions)
    ensures ValidationError(Toggle(o, Length)) == ValidationError(o)
  {
  }

  // ---------------------------------------------------------------------------
  // Countdown duration (app/court-room/page.tsx:584-595)

  const InvalidDuration: string := "Enter a " + "valid " + "positive " + "duration."
  const EmptyDuration: string := "Timer " + "duration " + "must be " + "greater " + "than zero."

  /** The outcome of reading the minutes and seconds fields. */
  datatype Duration = Accepted(seconds: nat) | Rejected(message: string)

  /** The duration of `handleStartTimer`; `None` stands for a field whose
      `Number(...)` is not finite. Fractions are dropped from each field. */
  function ParseDuration(minutes: Option<real>, seconds: Option<real>): (d: Duration)
    ensures d.Accepted? ==> d.seconds > 0
    ensures d.Rejected? ==> d.message == InvalidDuration || d.message == EmptyDuration
    ensures d.Rejected? && d.message == InvalidDuration <==>
              minutes.None? || seconds.None? || minutes.value < 0.0 || seconds.value < 0.0
  {
    if minutes.None? || seconds.None? || minutes.value < 0.0 || seconds.value < 0.0 then
      Rejected(InvalidDuration)
    else
      var total := minutes.value.Floor * 60 + seconds.value.Floor;
      if total <= 0 then Rejected(EmptyDuration) else Accepted(total)
  }

  /** Whole minutes and seconds give minutes * 60 + seconds, the page's default
      "10" and "00" give ten minutes, and zero is refused. */
  lemma ParseWholeDuration(m: nat, s: nat)
    ensures ParseDuration(Some(m as real), Some(s as real))
            == if m * 60 + s > 0 then Accepted(m * 60 + s) else Rejected(EmptyDuration)
    ensures ParseDuration(Some(10.0), Some(0.0)) == Accepted(600)
  {
    assert (m as real).Floor == m;
    assert (s as real).Floor == s;
    assert (10.0).Floor == 10;
    assert (0.0).Floor == 0;
  }

  /** A fraction of a second below one whole second is refused, not rounded up. */
  lemma FractionalSecondsRefused(f: real)
    requires 0.0 <= f < 1.0
    ensures ParseDuration(Some(0.0), Some(f)) == Rejected(EmptyDuration)
  {
    assert f.Floor == 0;
  }
}

=== FILE: court_properties.dfy ===
/** What the Court Room page promises over its whole life: the message log
    only grows, message ids are distinct, "Mark handled" touches one entry, a
    completed stage never hears from the court again, the next stage is armed
    on the schedule the escalation delay sets, and unmounting leaves no timer
    behind. */
module CourtProperties {
  import opened Wrappers
  import opened Text
  import opened CourtModel
  import opened CourtTimers
  import opened CourtSession
  import opened CourtInvariants

  // ---------------------------------------------------------------------------
  // Message ids (app/court-room/page.tsx:475-491)

  /** An id names the time and the counter it was made from: the digits of
      the time end at the first dash. */
  lemma IdTextInjective(t1: nat, n1: nat, t2: nat, n2: nat)
    requires IdText(t1, n1) == IdText(t2, n2)
    ensures t1 == t2 && n1 == n2
  {
    var a, b := Decimal(t1), Decimal(t2);
    var id := IdText(t1, n1);
    assert id == a + "-" + Decimal(n1) && id == b + "-" + Decimal(n2);
    if |a| < |b| {
      NoDashAmongDigits(b, Decimal(n2), |a|);
      assert false;
    } else if |b| < |a| {
      NoDashAmongDigits(a, Decimal(n1), |b|);
      assert false;
    }
    assert a == id[..|a|] == b;
    assert Decimal(n1) == id[|a| + 1..] == Decimal(n2);
    DecimalRoundTrip(t1);
    DecimalRoundTrip(t2);
    DecimalRoundTrip(n1);
    DecimalRoundTrip(n2);
  }

  lemma NoDashAmongDigits(a: string, c: string, k: nat)
    requires (forall i :: 0 <= i < |a| ==> IsDigit(a[i])) && k < |a|
    ensures (a + "-" + c)[k] != '-' && (a + "-" + c)[|a|] == '-'
  {
  }

  /** The counter makes every id in the log distinct, even for messages
      posted in the same millisecond. */
  lemma IdsDistinct(ms: seq<Message>, counter: nat, i: nat, j: nat)
    requires LogValid(ms, counter) && i < |ms| && j < |ms| && i != j
    ensures ms[i].id != ms[j].id
  {
    if ms[i].id == ms[j].id {
      IdTextInjective(ms[i].timestamp, i + 1, ms[j].timestamp, j + 1);
    }
  }

  /** "Mark handled" on the `i`-th entry resolves that entry and no other. */
  lemma MarkHandledExactlyOne(s: Session, i: nat)
    requires Valid(s) && i < |s.view.messages|
    ensures var ms, ns := s.view.messages, MarkHandled(s, s.view.messages[i].id).view.messages;
            |ns| == |ms| && ns[i].resolved
            && forall j :: 0 <= j < |ms| && j != i ==> ns[j] == ms[j]
  {
    var ms, ns := s.view.messages, MarkHandled(s, s.view.messages[i].id).view.messages;
    forall j | 0 <= j < |ms| && j != i ensures ns[j] == ms[j] {
      IdsDistinct(ms, s.counter, i, j);
      assert ns[j].(resolved := ms[j].resolved) == ms[j];
    }
  }

  // ---------------------------------------------------------------------------
  // The log only grows

  /** `ns` is `ms` with entries appended and possibly some resolved; nothing
      is removed, reordered, rewritten or unresolved. */
  predicate Extends(ms: seq<Message>, ns: seq<Message>) {
    |ms| <= |ns|
    && forall i :: 0 <= i < |ms| ==> ns[i].(resolved := ms[i].resolved) == ms[i] && (ms[i].resolved ==> ns[i].resolved)
  }

  lemma ExtendsReflexive(ms: seq<Message>)
    ensures Extends(ms, ms)
  {
  }

  lemma ExtendsTransitive(ms: seq<Message>, ns: seq<Message>, os: seq<Message>)
    requires Extends(ms, ns) && Extends(ns, os)
    ensures Extends(ms, os)
  {
    forall i | 0 <= i < |ms|
      ensures os[i].(resolved := ms[i].resolved) == ms[i] && (ms[i].resolved ==> os[i].resolved)
    {
      assert os[i].(resolved := ns[i].resolved) == ns[i];
    }
  }

  lemma PushExtends(s: Session, t: Template, related: Option<Stage>)
    ensures Extends(s.view.messages, PushMessage(s, t, related).view.messages)
  {
    var ms, ns := s.view.messages, PushMessage(s, t, related).view.messages;
    forall i | 0 <= i < |ms| ensures ns[i] == ms[i] {
      assert ns[i] == ns[..|ms|][i];
    }
  }

  /** Completing a stage only resolves entries. */
  lemma CompleteExtends(s: Session, st: Stage)
    ensures Extends(s.view.messages, MarkStageComplete(s, st).view.messages)
  {
  }

  /** A timer callback appends and never rewrites. */
  lemma FireExtends(s: Session, cfg: Config, h: Handle)
    requires ConfigValid(cfg) && h in s.rt.pending
    ensures Extends(s.view.messages, FireTimer(s, cfg, h).view.messages)
  {
    var s1 := Elapse(s, h);
    match s.rt.pending[h].event
    case Escalate(st, level) =>
      var s2 := PushMessage(s1, EscalationMessage(st, level), Some(st));
      PushExtends(s1, EscalationMessage(st, level), Some(st));
      if level == LegalNotice {
        var s3 := s2.(view := s2.view.(summoned := true, summonedStage := Some(st)));
        PushExtends(s3, SummonsMessage(st), Some(st));
        ExtendsTransitive(s.view.messages, s2.view.messages, TriggerCourtSummons(s2, st).view.messages);
      }
    case Distraction =>
      var k := DistractionIndex(cfg.random(s1.rt.draws));
      var s2 := s1.(rt := s1.rt.(draws := s1.rt.draws + 1));
      PushExtends(s2, DistractionPool[k], None);
    case Tick =>
      if s.view.countdown <= 1 {
        PushExtends(StopTimer(s1), TimeUpMessage, None);
      }
    case HideCelebration =>
  }

  /** Every step of the page keeps what the log already holds. */
  lemma ApplyExtends(s: Session, cfg: Config, a: Action)
    requires ConfigValid(cfg) && (a.Fire? ==> a.h in s.rt.pending)
    ensures Extends(s.view.messages, Apply(s, cfg, a).view.messages)
  {
    HandlerExtends(s, cfg, a);
  }

  lemma HandlerExtends(s: Session, cfg: Config, a: Action)
    requires ConfigValid(cfg) && (a.Fire? ==> a.h in s.rt.pending)
    ensures Extends(s.view.messages, Handler(s, cfg, a).view.messages)
  {
    match a
    case SubmitAlt(answer) =>
      if AltError(answer).None? {
        SubmitExtends(s.(view := s.view.(altError := None)), Accessibility);
      } else {
        ExtendsReflexive(s.view.messages);
      }
    case SubmitColor(choice) =>
      if ColorError(choice).None? {
        SubmitExtends(s.(view := s.view.(colorError := None)), Visual);
      } else {
        ExtendsReflexive(s.view.messages);
      }
    case SubmitValidation =>
      if ValidationError(s.view.options).None? {
        SubmitExtends(s.(view := s.view.(validationError := None)), Validation);
      } else {
        ExtendsReflexive(s.view.messages);
      }
    case MarkMessageHandled(id) =>
    case Fire(h) => FireExtends(s, cfg, h);
    case ToggleOption(_) => ExtendsReflexive(s.view.messages);
    case StartCountdown(_, _) => ExtendsReflexive(s.view.messages);
    case PauseCountdown => ExtendsReflexive(s.view.messages);
    case ResetCountdown => ExtendsReflexive(s.view.messages);
    case DismissSummons => ExtendsReflexive(s.view.messages);
    case Wait(_) => ExtendsReflexive(s.view.messages);
  }

  /** An accepted answer: its confirmation is appended, then the stage is
      completed. */
  lemma SubmitExtends(s: Session, st: Stage)
    ensures Extends(s.view.messages,
                    MarkStageComplete(PushMessage(s, AcceptedMessage(st), Some(st)), st).view.messages)
  {
    var t := PushMessage(s, AcceptedMessage(st), Some(st));
    PushExtends(s, AcceptedMessage(st), Some(st));
    CompleteExtends(t, st);
    ExtendsTransitive(s.view.messages, t.view.messages, MarkStageComplete(t, st).view.messages);
  }

  // ---------------------------------------------------------------------------
  // Progress (app/court-room/page.tsx:634-656)

  /** A timer callback never touches the stages. */
  lemma FireKeepsStages(s: Session, cfg: Config, h: Handle)
    requires ConfigValid(cfg) && h in s.rt.pending
    ensures var r := FireTimer(s, cfg, h);
            r.view.completed == s.view.completed && r.view.stageIndex == s.view.stageIndex
  {
  }

  /** One step completes at most the active stage and moves at most one
      stage on; nothing is ever uncompleted. */
  lemma HandlerProgress(s: Session, cfg: Config, a: Action)
    requires ConfigValid(cfg) && (a.Fire? ==> a.h in s.rt.pending)
    ensures Progressed(s.view, Handler(s, cfg, a).view)
  {
    match a
    case SubmitAlt(answer) =>
      var r := Handler(s, cfg, a);
      assert r == AltSubmit(s, answer);
      SubmitProgress(s.(view := s.view.(altError := None)), Accessibility);
    case SubmitColor(choice) =>
      var r := Handler(s, cfg, a);
      assert r == ColorSubmit(s, choice);
      SubmitProgress(s.(view := s.view.(colorError := None)), Visual);
    case SubmitValidation =>
      var r := Handler(s, cfg, a);
      assert r == ValidationSubmit(s);
      SubmitProgress(s.(view := s.view.(validationError := None)), Validation);
    case Fire(h) => FireKeepsStages(s, cfg, h);
    case MarkMessageHandled(id) =>
    case ToggleOption(_) =>
    case StartCountdown(_, _) =>
    case PauseCountdown =>
    case ResetCountdown =>
    case DismissSummons =>
    case Wait(_) =>
  }

  /** At most the active stage was completed and the page moved at most one
      stage on; nothing was uncompleted. */
  predicate Progressed(v: View, w: View) {
    v.completed <= w.completed && |w.completed| <= |v.completed| + 1
    && v.stageIndex <= w.stageIndex <= v.stageIndex + 1
  }

  lemma SubmitProgress(s: Session, x: Stage)
    ensures Progressed(s.view, MarkStageComplete(PushMessage(s, AcceptedMessage(x), Some(x)), x).view)
  {
  }

  lemma ApplyProgress(s: Session, cfg: Config, a: Action)
    requires ConfigValid(cfg) && (a.Fire? ==> a.h in s.rt.pending)
    ensures Progressed(s.view, Apply(s, cfg, a).view)
  {
    HandlerProgress(s, cfg, a);
  }

  // ---------------------------------------------------------------------------
  // A completed stage is never escalated again (__tests__/court-room.test.tsx:23-45)

  /** No entry from index `lo` on carries one of stage `st`'s escalation
      texts. */
  predicate Quiet(ms: seq<Message>, lo: nat, st: Stage) {
    forall i, l: Level :: lo <= i < |ms| ==> ms[i].body != EscalationMessage(st, l).body
  }

  /** Appending a message that is not one of `st`'s escalations keeps the
      log quiet about `st`. */
  lemma PushQuiet(s: Session, t: Template, related: Option<Stage>, lo: nat, st: Stage)
    requires Quiet(s.view.messages, lo, st) && forall l: Level :: t.body != EscalationMessage(st, l).body
    ensures Quiet(PushMessage(s, t, related).view.messages, lo, st)
  {
    var ms, ns := s.view.messages, PushMessage(s, t, related).view.messages;
    forall i, l: Level | lo <= i < |ns| ensures ns[i].body != EscalationMessage(st, l).body {
      if i < |ms| {
        assert ns[i] == ns[..|ms|][i];
      }
    }
  }

  /** Resolving entries keeps the log quiet. */
  lemma ExtendsQuiet(ms: seq<Message>, ns: seq<Message>, lo: nat, st: Stage)
    requires Extends(ms, ns) && |ms| == |ns| && Quiet(ms, lo, st)
    ensures Quiet(ns, lo, st)
  {
    forall i, l: Level | lo <= i < |ns| ensures ns[i].body != EscalationMessage(st, l).body {
      assert ns[i].(resolved := ms[i].resolved) == ms[i];
    }
  }

  /** The escalations and the summons of another escalating stage differ
      from every escalation text of `st`. */
  lemma OtherStageTexts(st: Stage, o: Stage)
    requires Escalates(st) && Escalates(o) && o != st
    ensures forall l: Level, m: Level :: EscalationMessage(o, m).body != EscalationMessage(st, l).body
    ensures forall l: Level :: SummonsMessage(o).body != EscalationMessage(st, l).body
  {
    forall l: Level, m: Level ensures EscalationMessage(o, m).body != EscalationMessage(st, l).body {
      if st == Accessibility {
        EscalationMessagesDistinct(l, m);
      } else {
        EscalationMessagesDistinct(m, l);
      }
    }
    forall l: Level ensures SummonsMessage(o).body != EscalationMessage(st, l).body {
      NotSummons(st, l, o);
    }
  }

  /** An accepted answer posts its confirmation, which is no escalation. */
  lemma SubmitQuiet(s: Session, x: Stage, st: Stage)
    ensures Quiet(MarkStageComplete(PushMessage(s, AcceptedMessage(x), Some(x)), x).view.messages,
                  |s.view.messages|, st)
  {
    var t := PushMessage(s, AcceptedMessage(x), Some(x));
    forall l: Level ensures AcceptedMessage(x).body != EscalationMessage(st, l).body {
      NotAccepted(st, l, x);
    }
    PushQuiet(s, AcceptedMessage(x), Some(x), |s.view.messages|, st);
    CompleteExtends(t, x);
    ExtendsQuiet(t.view.messages, MarkStageComplete(t, x).view.messages, |s.view.messages|, st);
  }

  /** A timer callback posts an escalation only for the stage that timer
      was armed for. */
  lemma FireQuiet(s: Session, cfg: Config, h: Handle, st: Stage)
    requires ConfigValid(cfg) && h in s.rt.pending && Escalates(st)
    requires s.rt.pending[h].event.Escalate? ==>
               s.rt.pending[h].event.stage != st && Escalates(s.rt.pending[h].event.stage)
    ensures Quiet(FireTimer(s, cfg, h).view.messages, |s.view.messages|, st)
  {
    var s1 := Elapse(s, h);
    var lo := |s.view.messages|;
    match s.rt.pending[h].event
    case Escalate(o, level) =>
      OtherStageTexts(st, o);
      PushQuiet(s1, EscalationMessage(o, level), Some(o), lo, st);
      if level == LegalNotice {
        var s2 := PushMessage(s1, EscalationMessage(o, level), Some(o));
        PushQuiet(s2.(view := s2.view.(summoned := true, summonedStage := Some(o))), SummonsMessage(o), Some(o), lo, st);
      }
    case Distraction =>
      var k := DistractionIndex(cfg.random(s1.rt.draws));
      var s2 := s1.(rt := s1.rt.(draws := s1.rt.draws + 1));
      forall l: Level ensures DistractionPool[k].body != EscalationMessage(st, l).body {
        NotDistraction(st, l, k);
      }
      PushQuiet(s2, DistractionPool[k], None, lo, st);
    case Tick =>
      if s.view.countdown <= 1 {
        forall l: Level ensures TimeUpMessage.body != EscalationMessage(st, l).body {
          OnlyEscalationsEscalate(st, l, st, 0);
        }
        PushQuiet(StopTimer(s1), TimeUpMessage, None, lo, st);
      }
    case HideCelebration =>
  }

  /** Once `st` is completed, no step of the page posts one of its
      escalations. */
  lemma QuietStep(s: Session, cfg: Config, a: Action, st: Stage)
    requires Valid(s) && ConfigValid(cfg) && Enabled(s, a) && st in s.view.completed && Escalates(st)
    ensures Quiet(Apply(s, cfg, a).view.messages, |s.view.messages|, st)
  {
    if a.Fire? {
      assert Owned(s.rt, s.refs, s.view, a.h);
      FireQuiet(s, cfg, a.h, st);
    } else {
      FormQuiet(s, cfg, a, st);
    }
  }

  /** What the user does posts at most a confirmation. */
  lemma FormQuiet(s: Session, cfg: Config, a: Action, st: Stage)
    requires ConfigValid(cfg) && !a.Fire?
    ensures Quiet(Handler(s, cfg, a).view.messages, |s.view.messages|, st)
  {
    match a
    case SubmitAlt(answer) =>
      if AltError(answer).None? {
        SubmitQuiet(s.(view := s.view.(altError := None)), Accessibility, st);
      }
    case SubmitColor(choice) =>
      if ColorError(choice).None? {
        SubmitQuiet(s.(view := s.view.(colorError := None)), Visual, st);
      }
    case SubmitValidation =>
      if ValidationError(s.view.options).None? {
        SubmitQuiet(s.(view := s.view.(validationError := None)), Validation, st);
      }
    case MarkMessageHandled(id) =>
    case ToggleOption(_) =>
    case StartCountdown(_, _) =>
    case PauseCountdown =>
    case ResetCountdown =>
    case DismissSummons =>
    case Wait(_) =>
  }

  // ---------------------------------------------------------------------------
  // Runs of the page

  /** Each action of `acts` is offered by the page when its turn comes. */
  ghost predicate Allowed(s: Session, cfg: Config, acts: seq<Action>)
    requires ConfigValid(cfg)
    decreases |acts|
  {
    acts == [] || (Enabled(s, acts[0]) && Allowed(Apply(s, cfg, acts[0]), cfg, acts[1..]))
  }

  /** The session after the actions `acts`. */
  ghost function Run(s: Session, cfg: Config, acts: seq<Action>): Session
    requires ConfigValid(cfg) && Allowed(s, cfg, acts)
    decreases |acts|
  {
    if acts == [] then s else Run(Apply(s, cfg, acts[0]), cfg, acts[1..])
  }

  /** Every run of a valid session stays valid, keeps its log and never goes
      back a stage. */
  lemma {:induction false} RunValid(s: Session, cfg: Config, acts: seq<Action>)
    requires Valid(s) && ConfigValid(cfg) && Allowed(s, cfg, acts)
    ensures var r := Run(s, cfg, acts);
            Valid(r) && Extends(s.view.messages, r.view.messages)
            && s.view.completed <= r.view.completed && s.view.stageIndex <= r.view.stageIndex
    decreases |acts|
  {
    if acts == [] {
      ExtendsReflexive(s.view.messages);
    } else {
      var s1 := Apply(s, cfg, acts[0]);
      ApplyValid(s, cfg, acts[0]);
      ApplyExtends(s, cfg, acts[0]);
      ApplyProgress(s, cfg, acts[0]);
      RunValid(s1, cfg, acts[1..]);
      ExtendsTransitive(s.view.messages, s1.view.messages, Run(s1, cfg, acts[1..]).view.messages);
    }
  }

  /** Once an escalating stage is completed, none of its escalation texts
      is ever posted again, however long the page stays open. */
  lemma {:induction false} CompletedStageStaysQuiet(s: Session, cfg: Config, acts: seq<Action>, st: Stage)
    requires Valid(s) && ConfigValid(cfg) && Allowed(s, cfg, acts) && st in s.view.completed && Escalates(st)
    ensures Quiet(Run(s, cfg, acts).view.messages, |s.view.messages|, st)
    decreases |acts|
  {
    if acts != [] {
      var s1 := Apply(s, cfg, acts[0]);
      var r := Run(s1, cfg, acts[1..]);
      CompletedStep(s, cfg, acts[0], st);
      CompletedStageStaysQuiet(s1, cfg, acts[1..], st);
      RunValid(s1, cfg, acts[1..]);
      QuietAcross(s1.view.messages, r.view.messages, |s.view.messages|, st);
    }
  }

  /** One step of `CompletedStageStaysQuiet`: the step keeps the page valid,
      the stage completed and the log quiet about it. */
  lemma CompletedStep(s: Session, cfg: Config, a: Action, st: Stage)
    requires Valid(s) && ConfigValid(cfg) && Enabled(s, a) && st in s.view.completed && Escalates(st)
    ensures var s1 := Apply(s, cfg, a);
            Valid(s1) && st in s1.view.completed && Quiet(s1.view.messages, |s.view.messages|, st)
  {
    var s1 := Apply(s, cfg, a);
    QuietStep(s, cfg, a, st);
    ApplyValid(s, cfg, a);
    ApplyProgress(s, cfg, a);
    var k :| 0 <= k < |s.view.completed| && s.view.completed[k] == st;
    assert s1.view.completed[k] == st;
  }

  /** A log quiet about `st` from `lo`, extended by entries that are quiet
      too, stays quiet from `lo`: resolving an entry keeps its text. */
  lemma QuietAcross(ms: seq<Message>, ns: seq<Message>, lo: nat, st: Stage)
    requires Quiet(ms, lo, st) && Quiet(ns, |ms|, st) && Extends(ms, ns)
    ensures Quiet(ns, lo, st)
  {
    forall i, l: Level | lo <= i < |ns| ensures ns[i].body != EscalationMessage(st, l).body {
      if i < |ms| {
        assert ns[i].(resolved := ms[i].resolved) == ms[i];
      }
    }
  }

  /** The first stage answered correctly: the page shows the second stage,
      the confirmation is the newest entry, and whatever happens next, the
      first stage's escalations never appear. */
  lemma AnsweredAccessibilityIsFinal(s: Session, cfg: Config, answer: string, acts: seq<Action>)
    requires Valid(s) && ConfigValid(cfg) && ActiveStage(s.view) == Some(Accessibility) && AltError(answer).None?
    requires Allowed(Apply(s, cfg, SubmitAlt(answer)), cfg, acts)
    ensures var r := Apply(s, cfg, SubmitAlt(answer));
            ActiveStage(r.view) == Some(Visual) && Accessibility in r.view.completed
            && r.view.messages[|s.view.messages|].body == AcceptedMessage(Accessibility).body
            && Quiet(Run(r, cfg, acts).view.messages, |r.view.messages|, Accessibility)
  {
    var r := Apply(s, cfg, SubmitAlt(answer));
    var t := PushMessage(s.(view := s.view.(altError := None)), AcceptedMessage(Accessibility), Some(Accessibility));
    assert s.view.stageIndex == 0 && s.view.completed == [];
    assert r.view == MarkStageComplete(t, Accessibility).view;
    assert r.view.messages[|s.view.messages|] == Resolve(t.view.messages, Accessibility)[|s.view.messages|];
    ApplyValid(s, cfg, SubmitAlt(answer));
    CompletedStageStaysQuiet(r, cfg, acts, Accessibility);
  }

  /** The user may act at any moment between timers: after waiting until `t`,
      an accepted answer is confirmed by an entry stamped `t`, and the same
      timers as before are pending. */
  lemma AnswerStampedWhenGiven(s: Session, cfg: Config, t: nat, answer: string)
    requires ConfigValid(cfg) && Enabled(s, Wait(t)) && AltError(answer).None?
    ensures var w := Apply(s, cfg, Wait(t));
            var r := Apply(w, cfg, SubmitAlt(answer));
            w.rt.pending == s.rt.pending && w.view == s.view
            && |r.view.messages| > |s.view.messages| && r.view.messages[|s.view.messages|].timestamp == t
  {
    var w := WaitUntil(s, t);
    assert Handler(s, cfg, Wait(t)) == w;
    CommitIdle(cfg, s.view, w);
    AcceptedStampedNow(w, cfg, answer);
  }

  /** An accepted answer's confirmation carries the clock's reading. */
  lemma AcceptedStampedNow(s: Session, cfg: Config, answer: string)
    requires ConfigValid(cfg) && AltError(answer).None?
    ensures var r := Apply(s, cfg, SubmitAlt(answer));
            |r.view.messages| > |s.view.messages| && r.view.messages[|s.view.messages|].timestamp == s.rt.now
  {
    var p := PushMessage(s.(view := s.view.(altError := None)), AcceptedMessage(Accessibility), Some(Accessibility));
    var r := AltSubmit(s, answer);
    assert r.view == MarkStageComplete(p, Accessibility).view;
    assert r.view.messages[|s.view.messages|].timestamp == p.view.messages[|s.view.messages|].timestamp;
  }

  // ---------------------------------------------------------------------------
  // Escalation timeline (__tests__/court-room.test.tsx:47-84)

  /** Stage `st` carries its three escalation timers with ids `h`, `h + 1` and
      `h + 2`, armed at time `now` with escalation delay `d`. */
  predicate Armed(rt: Runtime, st: Stage, now: nat, h: Handle, d: nat) {
    h in rt.pending && h + 1 in rt.pending && h + 2 in rt.pending
    && rt.pending[h] == Timer(now + 2000, Escalate(st, InitialNotice))
    && rt.pending[h + 1] == Timer(now + d, Escalate(st, UrgentNotice))
    && rt.pending[h + 2] == Timer(now + 2 * d, Escalate(st, LegalNotice))
  }

  lemma ScheduleArms(s: Session, cfg: Config, st: Stage)
    requires cfg.escalationDelay > 0 && st !in s.refs.scheduled
    ensures Armed(ScheduleEscalation(s, cfg, st).rt, st, s.rt.now, s.rt.nextHandle, cfg.escalationDelay)
  {
  }

  /** Confirming the colour change moves the page to the last stage and arms
      it: the initial notice 2000 ms later, the urgent notice one delay later
      and the legal notice two delays later. */
  lemma EnteringValidationArmsIt(s: Session, cfg: Config, choice: string)
    requires Valid(s) && ConfigValid(cfg) && ActiveStage(s.view) == Some(Visual) && ColorError(choice).None?
    ensures ActiveStage(Apply(s, cfg, SubmitColor(choice)).view) == Some(Validation)
    ensures Apply(s, cfg, SubmitColor(choice)).rt.now == s.rt.now
    ensures Armed(Apply(s, cfg, SubmitColor(choice)).rt, Validation, s.rt.now, s.rt.nextHandle, cfg.escalationDelay)
  {
    var t := PushMessage(s.(view := s.view.(colorError := None)), AcceptedMessage(Visual), Some(Visual));
    var m := MarkStageComplete(t, Visual);
    assert s.view.stageIndex == 1 && Visual !in s.view.completed;
    assert ActiveStage(m.view) == Some(Validation);
    assert m.rt.nextHandle == s.rt.nextHandle && m.rt.now == s.rt.now;
    assert Validation !in m.refs.scheduled;
    assert Apply(s, cfg, SubmitColor(choice)) == ScheduleEscalation(m, cfg, Validation);
    ScheduleArms(m, cfg, Validation);
  }

  /** An escalation timer posts its notice for its stage; the legal notice is
      followed by the clerk's summons, and the summons opens. */
  lemma EscalationNotice(s: Session, cfg: Config, h: Handle)
    requires ConfigValid(cfg) && h in s.rt.pending && s.rt.pending[h].event.Escalate?
    ensures var e, n, r := s.rt.pending[h].event, |s.view.messages|, FireTimer(s, cfg, h);
            |r.view.messages| > n && r.view.messages[n].body == EscalationMessage(e.stage, e.level).body
            && r.view.messages[n].related == Some(e.stage) && r.rt.now == s.rt.pending[h].at
            && (e.level == LegalNotice ==>
                  |r.view.messages| == n + 2 && r.view.messages[n + 1].body == SummonsMessage(e.stage).body
                  && r.view.summoned && r.view.summonedStage == Some(e.stage))
            && (e.level != LegalNotice ==> |r.view.messages| == n + 1)
  {
    var e := s.rt.pending[h].event;
    var s2 := PushMessage(Elapse(s, h), EscalationMessage(e.stage, e.level), Some(e.stage));
    if e.level == LegalNotice {
      var r := TriggerCourtSummons(s2, e.stage);
      assert r.view.messages[|s.view.messages|] == r.view.messages[..|s2.view.messages|][|s.view.messages|];
    }
  }

  // ---------------------------------------------------------------------------
  // Unmounting (app/court-room/page.tsx:736-774)

  /** Id `h` is in one of the stages' timeout lists. */
  predicate InStageTimeouts(refs: TimerRefs, h: Handle) {
    h in TimeoutsOf(refs, Accessibility) || h in TimeoutsOf(refs, Visual) || h in TimeoutsOf(refs, Validation)
  }

  /** Id `h` is held by one of the page's refs. */
  predicate Claimed(refs: TimerRefs, h: Handle) {
    refs.distraction == Some(h) || refs.countdown == Some(h) || refs.celebration == Some(h) || InStageTimeouts(refs, h)
  }

  lemma ClearOneStage(x: Session, y: Session, st: Stage)
    requires y == ClearStageTimeouts(x, st)
    ensures forall h :: h in y.rt.pending <==> h in x.rt.pending && h !in TimeoutsOf(x.refs, st)
    ensures forall h :: h in y.rt.pending ==> (Claimed(y.refs, h) <==> Claimed(x.refs, h))
  {
    forall h | h in y.rt.pending ensures Claimed(y.refs, h) <==> Claimed(x.refs, h) {
      assert InStageTimeouts(y.refs, h) <==> InStageTimeouts(x.refs, h);
    }
  }

  lemma ClearEveryStage(x: Session, y: Session, sts: seq<Stage>)
    requires y == ClearStages(x, sts)
    requires forall h :: InStageTimeouts(x.refs, h) <==> ListedFor(x.refs, sts, h)
    ensures forall h :: h in y.rt.pending <==> h in x.rt.pending && !InStageTimeouts(x.refs, h)
    ensures y.refs.distraction == x.refs.distraction && y.refs.celebration == x.refs.celebration
  {
    ClearStagesCancels(x, sts);
  }

  lemma EveryStageListed(refs: TimerRefs)
    ensures forall h :: InStageTimeouts(refs, h) <==> ListedFor(refs, StageOrder, h)
  {
    forall h ensures InStageTimeouts(refs, h) <==> ListedFor(refs, StageOrder, h) {
      if InStageTimeouts(refs, h) {
        assert Accessibility in StageOrder && Visual in StageOrder && Validation in StageOrder;
      }
    }
  }

  /** Step `x` to `y` cancels only claimed timers, and every timer claimed
      after it was claimed before. */
  ghost predicate ReleasesClaimed(x: Session, y: Session) {
    forall h :: (h in y.rt.pending ==> h in x.rt.pending && (Claimed(y.refs, h) <==> Claimed(x.refs, h)))
                && (h in x.rt.pending && !Claimed(x.refs, h) ==> h in y.rt.pending)
  }

  /** The first two cleanups: the distraction timeout, then the active
      stage's timeouts. */
  lemma UnmountStart(s: Session, s1: Session, s2: Session)
    requires s1 == if s.refs.distraction.Some? then s.(rt := Cancel(s.rt, s.refs.distraction.value)) else s
    requires s2 == if ActiveStage(s1.view).Some? && Escalates(ActiveStage(s1.view).value)
                   then ClearStageTimeouts(s1, ActiveStage(s1.view).value) else s1
    ensures ReleasesClaimed(s, s2)
  {
    if ActiveStage(s1.view).Some? && Escalates(ActiveStage(s1.view).value) {
      ClearOneStage(s1, s2, ActiveStage(s1.view).value);
    }
  }

  /** The last two cleanups: the distraction timeout again, then the
      celebration timeout. */
  lemma UnmountTail(s3: Session, r: Session)
    requires r == ClearCelebration(if s3.refs.distraction.Some? then s3.(rt := Cancel(s3.rt, s3.refs.distraction.value)) else s3)
    ensures forall h :: h in r.rt.pending <==>
              h in s3.rt.pending && s3.refs.distraction != Some(h) && s3.refs.celebration != Some(h)
  {
  }

  /** The remaining cleanups cancel every timer the refs still hold. */
  lemma UnmountFinish(s2: Session, s3: Session, r: Session)
    requires s3 == ClearStages(StopTimer(s2), StageOrder)
    requires r == ClearCelebration(if s3.refs.distraction.Some? then s3.(rt := Cancel(s3.rt, s3.refs.distraction.value)) else s3)
    ensures forall h :: h in r.rt.pending <==> h in s2.rt.pending && !Claimed(s2.refs, h)
  {
    var s0 := StopTimer(s2);
    EveryStageListed(s0.refs);
    ClearEveryStage(s0, s3, StageOrder);
    UnmountTail(s3, r);
    assert forall h :: h in s0.rt.pending <==> h in s2.rt.pending && s2.refs.countdown != Some(h);
    assert forall h :: InStageTimeouts(s0.refs, h) == InStageTimeouts(s2.refs, h);
  }

  /** Unmounting cancels exactly the timers the page's refs hold. */
  lemma UnmountReleases(s: Session)
    ensures forall h :: h in Unmount(s).rt.pending <==> h in s.rt.pending && !Claimed(s.refs, h)
  {
    var s1 := if s.refs.distraction.Some? then s.(rt := Cancel(s.rt, s.refs.distraction.value)) else s;
    var s2 := if ActiveStage(s1.view).Some? && Escalates(ActiveStage(s1.view).value)
              then ClearStageTimeouts(s1, ActiveStage(s1.view).value) else s1;
    var s3 := ClearStages(StopTimer(s2), StageOrder);
    var r := ClearCelebration(if s3.refs.distraction.Some? then s3.(rt := Cancel(s3.rt, s3.refs.distraction.value)) else s3);
    UnmountStart(s, s1, s2);
    UnmountFinish(s2, s3, r);
    assert Unmount(s) == r;
  }

  /** Every timer a valid page has pending is held by one of its refs. */
  lemma OwnedClaimed(rt: Runtime, refs: TimerRefs, v: View, h: Handle)
    requires h in rt.pending && Owned(rt, refs, v, h)
    ensures Claimed(refs, h)
  {
    match rt.pending[h].event
    case Escalate(st, _) =>
      assert InStageTimeouts(refs, h) by {
        match st
        case Accessibility =>
        case Visual =>
        case Validation =>
      }
    case _ =>
  }

  /** Unmounting a valid page cancels every pending timer. */
  lemma UnmountClearsTimers(s: Session)
    requires Valid(s)
    ensures Unmount(s).rt.pending == map[]
  {
    UnmountReleases(s);
    assert TimersValid(s.rt, s.refs, s.view);
    forall h | h in s.rt.pending ensures Claimed(s.refs, h) {
      OwnedClaimed(s.rt, s.refs, s.view, h);
    }
    assert Unmount(s).rt.pending.Keys == {};
  }
}

=== FILE: court_report.dfy ===
/** The session summary of the court-room page (app/court-room/page.tsx):
    `escapeHtml`, `formatSeconds`, the per-stage progress and the standalone
    HTML snapshot `buildOutputHtml`. The snapshot is a template literal, so it
    is written as the list of its pieces, fixed text and interpolated values in
    order, whose concatenation is the document. */
module CourtReport {
  import opened Wrappers
  import opened Text
  import HtmlEscape
  import opened CourtModel

  // ---------------------------------------------------------------------------
  // escapeHtml (app/court-room/page.tsx:153-159)

  /** The page's chain of five global replacements, ampersand first. It agrees
      with escaping one character at a time, so it leaves no raw markup. */
  function EscapeHtml(s: string): (r: string)
    ensures r == HtmlEscape.Escape(s, HtmlEscape.Short)
    ensures forall i :: 0 <= i < |r| ==> !HtmlEscape.IsMarkup(r[i])
  {
    HtmlEscape.ChainedEscapeIsEscape(s);
    HtmlEscape.ChainedEscape(s)
  }

  /** Escaping loses nothing: decoding the five entities gives the text back. */
  lemma EscapeHtmlRoundTrip(s: string)
    ensures HtmlEscape.Unescape(EscapeHtml(s), HtmlEscape.Short) == s
  {
    HtmlEscape.UnescapeEscape(s, HtmlEscape.Short);
  }

  // ---------------------------------------------------------------------------
  // formatSeconds (app/court-room/page.tsx:140-146)

  /** "mm:ss", each part padded to two digits; minutes are not capped. */
  function FormatSeconds(total: nat): string {
    PadStart(Decimal(total / 60), 2, '0') + ":" + PadStart(Decimal(total % 60), 2, '0')
  }

  /** A clock reading: at least two digits, a colon, exactly two digits. */
  predicate IsClock(r: string) {
    && |r| >= 5 && r[|r| - 3] == ':'
    && (forall i :: 0 <= i < |r| - 3 ==> IsDigit(r[i]))
    && IsDigit(r[|r| - 2]) && IsDigit(r[|r| - 1])
  }

  /** The number of seconds a clock reading stands for. */
  function ReadClock(r: string): nat
    requires IsClock(r)
  {
    DigitsValue(r[..|r| - 3]) * 60 + DigitsValue(r[|r| - 2..])
  }

  /** Printing the countdown and reading the clock gives the countdown back,
      with the seconds part below 60. */
  lemma FormatSecondsRoundTrip(total: nat)
    ensures IsClock(FormatSeconds(total))
    ensures ReadClock(FormatSeconds(total)) == total
    ensures DigitsValue(FormatSeconds(total)[|FormatSeconds(total)| - 2..]) < 60
  {
    var m, s := total / 60, total % 60;
    PaddedDigits(m);
    PaddedDigits(s);
    DecimalShort(s);
    ClockParts(PadStart(Decimal(m), 2, '0'), PadStart(Decimal(s), 2, '0'));
  }

  /** Minutes, a colon and two seconds digits form a clock reading whose parts
      are the minutes and the seconds. */
  lemma ClockParts(mm: string, ss: string)
    requires |mm| >= 2 && |ss| == 2
    requires forall i :: 0 <= i < |mm| ==> IsDigit(mm[i])
    requires forall i :: 0 <= i < |ss| ==> IsDigit(ss[i])
    ensures IsClock(mm + ":" + ss)
    ensures (mm + ":" + ss)[..|mm + ":" + ss| - 3] == mm
    ensures (mm + ":" + ss)[|mm + ":" + ss| - 2..] == ss
  {
    var r := mm + ":" + ss;
    assert r[..|r| - 3] == mm;
    assert r[|r| - 2..] == ss;
  }

  /** A count padded to two digits is a digit string of the same value. */
  lemma PaddedDigits(n: nat)
    ensures |PadStart(Decimal(n), 2, '0')| >= 2
    ensures forall i :: 0 <= i < |PadStart(Decimal(n), 2, '0')| ==> IsDigit(PadStart(Decimal(n), 2, '0')[i])
    ensures DigitsValue(PadStart(Decimal(n), 2, '0')) == n
  {
    var d := Decimal(n);
    var r := PadStart(d, 2, '0');
    DecimalRoundTrip(n);
    var z := r[..|r| - |d|];
    assert r == z + d;
    LeadingZeros(z, d);
  }

  /** Numbers below 100 print with at most two digits. */
  lemma DecimalShort(n: nat)
    requires n < 100
    ensures |Decimal(n)| <= 2
  {
  }

  // ---------------------------------------------------------------------------
  // Stage progress (app/court-room/page.tsx:377-383)

  datatype StageProgress = StageProgress(stage: Stage, title: string, completed: bool)

  /** The three stages in play order, each with its title and whether it is
      among the completed ones. */
  function Progress(completed: seq<Stage>): (p: seq<StageProgress>)
    ensures |p| == |StageOrder|
    ensures forall k :: 0 <= k < |p| ==>
              p[k].stage == StageOrder[k] && p[k].title == StageTitle(StageOrder[k])
              && (p[k].completed <==> StageOrder[k] in completed)
  {
    [ StageProgress(Accessibility, StageTitle(Accessibility), Accessibility in completed),
      StageProgress(Visual, StageTitle(Visual), Visual in completed),
      StageProgress(Validation, StageTitle(Validation), Validation in completed) ]
  }

  // ---------------------------------------------------------------------------
  // List items of buildOutputHtml (app/court-room/page.tsx:386-409)

  /** The status word of a stage's list item. */
  function Status(completed: bool): string {
    if completed then "Completed" else "In progress"
  }

  function StageItemPieces(p: StageProgress): seq<string> {
    ["<li><strong>", EscapeHtml(p.title), "</strong> - ", Status(p.completed), "</li>"]
  }

  function StageItem(p: StageProgress): string {
    Flatten(StageItemPieces(p))
  }

  /** The status word sits after the title; "Completed" and "In progress"
      differ in their first letter. */
  lemma StageItemStatus(p: StageProgress)
    ensures Offset(StageItemPieces(p), 3) < |StageItem(p)|
    ensures StageItem(p)[Offset(StageItemPieces(p), 3)] == if p.completed then 'C' else 'I'
  {
    PieceAt(StageItemPieces(p), 3);
  }

  const NoMessagesItem: string := "<li>No " + "messages " + "recorded.</li>"
  const ResolvedMarker: string := " (resolved)"

  /** The stage title a message is filed under, if any. */
  function Related(m: Message): string {
    if m.related.Some? then " <em>(" + EscapeHtml(StageTitle(m.related.value)) + ")</em>" else ""
  }

  /** One log entry. `stamp` renders a clock reading the way
      `new Date(t).toLocaleString()` does in the browser's locale. */
  function MessageItemPieces(m: Message, stamp: nat -> string): seq<string> {
    [ "<li><strong>", EscapeHtml(m.sender), "</strong>", Related(m), " [", stamp(m.timestamp), "] - ",
      EscapeHtml(m.body), if m.resolved then ResolvedMarker else "", "</li>" ]
  }

  function MessageItem(m: Message, stamp: nat -> string): string {
    Flatten(MessageItemPieces(m, stamp))
  }

  /** Every entry opens with `<li><strong>` and the escaped sender, from which
      the sender can be read back, and a resolved entry carries the marker just
      before its closing tag. */
  lemma MessageItemShape(m: Message, stamp: nat -> string)
    ensures OccursAt(MessageItem(m, stamp), "<li><strong>", 0)
    ensures OccursAt(MessageItem(m, stamp), EscapeHtml(m.sender), 12)
    ensures HtmlEscape.Unescape(EscapeHtml(m.sender), HtmlEscape.Short) == m.sender
    ensures m.resolved ==> OccursAt(MessageItem(m, stamp), ResolvedMarker, Offset(MessageItemPieces(m, stamp), 8))
  {
    var ps := MessageItemPieces(m, stamp);
    PieceAt(ps, 0);
    assert ps[..0] == [];
    PieceAt(ps, 1);
    assert Flatten(ps[..1]) == Flatten([]) + "<li><strong>";
    EscapeHtmlRoundTrip(m.sender);
    if m.resolved {
      PieceAt(ps, 8);
    }
  }

  /** The list items of the log, in log order. */
  function MessageList(ms: seq<Message>, stamp: nat -> string): (items: seq<string>)
    ensures |items| == |ms|
    ensures forall i :: 0 <= i < |ms| ==> items[i] == MessageItem(ms[i], stamp)
  {
    if ms == [] then [] else [MessageItem(ms[0], stamp)] + MessageList(ms[1..], stamp)
  }

  /** The content of the messages list: the placeholder for an empty log. */
  function MessageItems(ms: seq<Message>, stamp: nat -> string): seq<string> {
    if ms == [] then [NoMessagesItem] else MessageList(ms, stamp)
  }

  /** The messages list is the page's `join("")` of the items, or the
      placeholder. */
  lemma MessageItemsAreJoined(ms: seq<Message>, stamp: nat -> string)
    ensures Flatten(MessageItems(ms, stamp)) == if ms == [] then NoMessagesItem else Join(MessageList(ms, stamp), "")
  {
    FlattenIsJoin(MessageItems(ms, stamp));
  }

  // ---------------------------------------------------------------------------
  // buildOutputHtml (app/court-room/page.tsx:385-438)

  /** The fixed text of the snapshot between its interpolations. */
  datatype ReportText = ReportText(head: string, beforeStages: string, beforeMessages: string, tail: string)

  const Report: ReportText := ReportText(ReportHead, ReportBeforeStages, ReportBeforeMessages, ReportTail)

  /** The pieces of the snapshot: piece 2 is the countdown, pieces 4 to 6 are
      the stages and the messages list starts at piece 8. */
  function Pieces(t: ReportText, clock: string, stages: seq<string>, messages: seq<string>): seq<string> {
    [Doctype, t.head, clock, t.beforeStages] + stages + [t.beforeMessages] + messages + [t.tail, HtmlClose]
  }

  lemma {:induction false} PiecesAt(t: ReportText, clock: string, stages: seq<string>, messages: seq<string>)
    requires |stages| == 3
    ensures |Pieces(t, clock, stages, messages)| == 10 + |messages|
    ensures Pieces(t, clock, stages, messages)[2] == clock
    ensures forall k :: 0 <= k < 3 ==> Pieces(t, clock, stages, messages)[4 + k] == stages[k]
    ensures forall i :: 0 <= i < |messages| ==> Pieces(t, clock, stages, messages)[8 + i] == messages[i]
  {
  }

  /** The stages' list items, in the order given. */
  function StageList(ps: seq<StageProgress>): (items: seq<string>)
    ensures |items| == |ps|
    ensures forall k :: 0 <= k < |ps| ==> items[k] == StageItem(ps[k])
  {
    if ps == [] then [] else [StageItem(ps[0])] + StageList(ps[1..])
  }

  function ReportPieces(countdown: nat, completed: seq<Stage>, ms: seq<Message>, stamp: nat -> string): seq<string> {
    Pieces(Report, FormatSeconds(countdown), StageList(Progress(completed)), MessageItems(ms, stamp))
  }

  function BuildOutputHtml(countdown: nat, completed: seq<Stage>, ms: seq<Message>, stamp: nat -> string): string {
    Flatten(ReportPieces(countdown, completed, ms, stamp))
  }

  /** The snapshot is a complete HTML document. */
  lemma ReportIsDocument(countdown: nat, completed: seq<Stage>, ms: seq<Message>, stamp: nat -> string)
    ensures IsHtmlDocument(BuildOutputHtml(countdown, completed, ms, stamp))
  {
    FramedDocument(ReportPieces(countdown, completed, ms, stamp));
  }

  /** The countdown is printed in the meta line as a clock reading (which reads
      back as the countdown, by `FormatSecondsRoundTrip`). */
  lemma ReportShowsCountdown(countdown: nat, completed: seq<Stage>, ms: seq<Message>, stamp: nat -> string)
    ensures Listed(ReportPieces(countdown, completed, ms, stamp), 2, FormatSeconds(countdown))
    ensures IsClock(FormatSeconds(countdown))
  {
    PiecesAt(Report, FormatSeconds(countdown), StageList(Progress(completed)), MessageItems(ms, stamp));
    PieceListed(ReportPieces(countdown, completed, ms, stamp), 2, FormatSeconds(countdown));
    FormatSecondsRoundTrip(countdown);
  }

  /** The three stages are listed in play order, each with its status. */
  lemma ReportListsStages(countdown: nat, completed: seq<Stage>, ms: seq<Message>, stamp: nat -> string, k: nat)
    requires k < 3
    ensures Listed(ReportPieces(countdown, completed, ms, stamp), 4 + k, StageItem(Progress(completed)[k]))
  {
    var stages := StageList(Progress(completed));
    PiecesAt(Report, FormatSeconds(countdown), stages, MessageItems(ms, stamp));
    PieceListed(ReportPieces(countdown, completed, ms, stamp), 4 + k, stages[k]);
  }

  /** An unfinished stage's item differs from its finished item at position `m`,
      the first letter of the status word. */
  lemma StatusDiffers(p: StageProgress) returns (m: nat)
    requires !p.completed
    ensures m < |StageItem(p)| && m < |StageItem(p.(completed := true))|
    ensures StageItem(p.(completed := true))[m] != StageItem(p)[m]
  {
    var done := p.(completed := true);
    StageItemStatus(p);
    StageItemStatus(done);
    assert StageItemPieces(done)[..3] == StageItemPieces(p)[..3];
    m := Offset(StageItemPieces(p), 3);
  }

  /** A log entry's item differs from the placeholder at position 4. */
  lemma PlaceholderDiffers(m: Message, stamp: nat -> string)
    ensures 4 < |MessageItem(m, stamp)| && 4 < |NoMessagesItem|
    ensures MessageItem(m, stamp)[4] != NoMessagesItem[4]
  {
    MessageItemShape(m, stamp);
    assert MessageItem(m, stamp)[0..12] == "<li><strong>";
    assert NoMessagesItem[4] == 'N';
  }

  /** A stage is shown as "Completed" exactly when it has been completed. */
  lemma ReportStageStatus(countdown: nat, completed: seq<Stage>, ms: seq<Message>, stamp: nat -> string, k: nat)
    requires k < 3
    ensures AtPiece(ReportPieces(countdown, completed, ms, stamp), 4 + k,
                    StageItem(StageProgress(StageOrder[k], StageTitle(StageOrder[k]), true)))
            <==> StageOrder[k] in completed
  {
    var shown := Progress(completed)[k];
    var done := StageProgress(StageOrder[k], StageTitle(StageOrder[k]), true);
    if StageOrder[k] in completed {
      ReportListsStages(countdown, completed, ms, stamp, k);
    } else {
      var m := StatusDiffers(shown);
      PiecesAt(Report, FormatSeconds(countdown), StageList(Progress(completed)), MessageItems(ms, stamp));
      NotAtPiece(ReportPieces(countdown, completed, ms, stamp), 4 + k, StageItem(done), m);
    }
  }

  /** An empty log is shown as the placeholder item. */
  lemma ReportPlaceholderWhenEmpty(countdown: nat, completed: seq<Stage>, stamp: nat -> string)
    ensures Listed(ReportPieces(countdown, completed, [], stamp), 8, NoMessagesItem)
  {
    PiecesAt(Report, FormatSeconds(countdown), StageList(Progress(completed)), [NoMessagesItem]);
    PieceListed(ReportPieces(countdown, completed, [], stamp), 8, NoMessagesItem);
  }

  /** A non-empty log is shown without the placeholder. */
  lemma ReportNoPlaceholder(countdown: nat, completed: seq<Stage>, ms: seq<Message>, stamp: nat -> string)
    requires ms != []
    ensures !AtPiece(ReportPieces(countdown, completed, ms, stamp), 8, NoMessagesItem)
  {
    PiecesAt(Report, FormatSeconds(countdown), StageList(Progress(completed)), MessageList(ms, stamp));
    PlaceholderDiffers(ms[0], stamp);
    NotAtPiece(ReportPieces(countdown, completed, ms, stamp), 8, NoMessagesItem, 4);
  }

  /** The messages list holds the placeholder exactly when the log is empty. */
  lemma ReportNoMessagesIffEmpty(countdown: nat, completed: seq<Stage>, ms: seq<Message>, stamp: nat -> string)
    ensures AtPiece(ReportPieces(countdown, completed, ms, stamp), 8, NoMessagesItem) <==> ms == []
  {
    if ms == [] {
      ReportPlaceholderWhenEmpty(countdown, completed, stamp);
    } else {
      ReportNoPlaceholder(countdown, completed, ms, stamp);
    }
  }

  /** Every entry of the log is listed, in log order, as piece `8 + i`. */
  lemma ReportListsMessages(countdown: nat, completed: seq<Stage>, ms: seq<Message>, stamp: nat -> string, i: nat)
    requires i < |ms|
    ensures Listed(ReportPieces(countdown, completed, ms, stamp), 8 + i, MessageItem(ms[i], stamp))
  {
    var items := MessageItems(ms, stamp);
    PiecesAt(Report, FormatSeconds(countdown), StageList(Progress(completed)), items);
    PieceListed(ReportPieces(countdown, completed, ms, stamp), 8 + i, items[i]);
  }

  // ---------------------------------------------------------------------------
  // The fixed text of the snapshot, between its interpolations

  const ReportHead: string :=
    "\n"
    + "<html " + "lang=\"en\">\n"
    + "  <head>\n"
    + "    <meta " + "charset=\"utf-8\" " + "/>\n"
    + "    " + "<title>Court " + "Room " + "Session " + "Summary</title>\n"
    + "    <style>\n"
    + "      body " + "{ " + "font-family: " + "Arial, " + "sans-serif; " + "line-height: "
    + "1.6; " + "padding: " + "2rem; " + "background: " + "#f7f7f7; " + "color: "
    + "#1a202c; }\n"
    + "      h1 { " + "font-size: " + "1.75rem; " + "margin-bottom: " + "1rem; }\n"
    + "      h2 { " + "margin-top: " + "1.5rem; " + "font-size: " + "1.25rem; }\n"
    + "      ul { " + "margin-left: " + "1.25rem; }\n"
    + "      li { " + "margin-bottom: " + "0.5rem; }\n"
    + "      .meta " + "{ " + "font-style: " + "italic; " + "color: " + "#4a5568; }\n"
    + "    " + "</style>\n"
    + "  </head>\n"
    + "  <body>\n"
    + "    " + "<h1>Court " + "Room " + "Session " + "Summary</h1>\n"
    + "    <p " + "class=\"meta\">Timer " + "remaining: "

  const ReportBeforeStages: string :=
    "</p>\n"
    + "    " + "<section>\n"
    + "      " + "<h2>Stages</h2>\n"
    + "      <ul>"

  const ReportBeforeMessages: string :=
    "</ul>\n"
    + "    " + "</section>\n"
    + "    " + "<section>\n"
    + "      " + "<h2>Messages</h2>\n"
    + "      <ul>"

  const ReportTail: string := "</ul>\n" + "    " + "</section>\n" + "  </body>\n"
}

=== FILE: court_room.dfy ===
/** The Court Room page as an object. The browser's timers, the timer refs,
    the message counter and the state hooks are fields, and each handler
    updates them in place, step by step, in the order
    app/court-room/page.tsx performs those steps. Every method is proved to
    end in the state that the matching CourtSession function computes, so
    what is proved about those functions (court_invariants.dfy,
    court_properties.dfy) holds of the page object. */
module CourtRoom {
  import opened Wrappers
  import opened CourtModel
  import opened CourtTimers
  import opened CourtSession
  import CourtInvariants
  import CourtProperties

  class Page {
    var rt: Runtime        // the browser: clock, pending timers, random draws
    var refs: TimerRefs    // the refs holding timer ids
    var counter: nat       // messageCounterRef
    var view: View         // the state hooks
    const cfg: Config      // the values read once on mount

    /** The page as a session value. */
    function State(): Session
      reads this
    {
      Session(rt, refs, counter, view)
    }

    ghost predicate Valid()
      reads this
    {
      CourtInvariants.Valid(State()) && ConfigValid(cfg)
    }

    // -------------------------------------------------------------------------
    // The page's life (app/court-room/page.tsx:337-373, 736-774)

    /** The first render followed by the mount effects: the first distraction
        is scheduled, then the first stage's escalation is armed. */
    constructor (cfg: Config, start: nat)
      requires ConfigValid(cfg)
      ensures this.cfg == cfg && State() == Mount(cfg, start)
      ensures Valid()
    {
      var s := Initial(start);
      rt, refs, counter, view := s.rt, s.refs, s.counter, s.view;
      this.cfg := cfg;
      new;
      ScheduleNextDistraction();
      ScheduleEscalation(Accessibility);
      CourtInvariants.MountValid(cfg, start);
    }

    /** The effect cleanups run on unmount; a valid page is left with no
        pending timer. */
    method Unmount()
      modifies this
      ensures State() == CourtSession.Unmount(old(State()))
      ensures old(Valid()) ==> rt.pending == map[]
    {
      if refs.distraction.Some? {
        ClearTimer(refs.distraction.value);
      }
      var active := ActiveStage(view);
      if active.Some? && Escalates(active.value) {
        ClearStageTimeouts(active.value);
      }
      StopTimer();
      ClearStages(StageOrder);
      if refs.distraction.Some? {
        ClearTimer(refs.distraction.value);
      }
      ClearCelebration();
      if old(Valid()) {
        CourtProperties.UnmountClearsTimers(old(State()));
      }
    }

    /** `sts.forEach(clearStageTimeouts)`. */
    method ClearStages(sts: seq<Stage>)
      modifies this
      ensures State() == CourtSession.ClearStages(old(State()), sts)
    {
      for i := 0 to |sts|
        invariant State() == CourtSession.ClearStages(old(State()), sts[..i])
      {
        ClearStageTimeouts(sts[i]);
        assert sts[..i + 1][..i] == sts[..i];
      }
      assert sts[..|sts|] == sts;
    }

    /** One user action or one timer firing, followed by the effects React
        runs when the changes are committed. */
    method Dispatch(a: Action)
      requires Valid() && Enabled(State(), a)
      modifies this
      ensures State() == Apply(old(State()), cfg, a)
      ensures Valid()
    {
      var before := view;
      match a {
        case SubmitAlt(answer) => AltSubmit(answer);
        case SubmitColor(choice) => ColorSubmit(choice);
        case SubmitValidation => ValidationSubmit();
        case ToggleOption(which) => ToggleValidationOption(which);
        case StartCountdown(m, sec) => StartTimer(m, sec);
        case PauseCountdown => StopTimer();
        case ResetCountdown => ResetTimer();
        case MarkMessageHandled(id) => MarkHandled(id);
        case DismissSummons => ReturnToCoding();
        case Fire(h) => FireTimer(h);
        case Wait(t) => WaitUntil(t);
      }
      CommitEffects(before);
      CourtInvariants.ApplyValid(old(State()), cfg, a);
    }

    /** What React runs after a commit whose previous commit showed `before`. */
    method CommitEffects(before: View)
      requires ConfigValid(cfg)
      modifies this
      ensures State() == CourtSession.CommitEffects(cfg, before, old(State()))
    {
      var indexChanged := before.stageIndex != view.stageIndex;
      var celebrationChanged := before.celebration != view.celebration;
      var prev, next := ActiveStage(before), ActiveStage(view);
      if indexChanged && prev.Some? && Escalates(prev.value) {
        ClearStageTimeouts(prev.value);
      }
      if celebrationChanged {
        ClearCelebration();
      }
      if indexChanged && next.Some? && Escalates(next.value) {
        ScheduleEscalation(next.value);
      }
      if celebrationChanged && view.celebration {
        var h := SetTimer(6000, HideCelebration);
        refs := refs.(celebration := Some(h));
      }
    }

    /** The celebration effect's cleanup. */
    method ClearCelebration()
      modifies this
      ensures State() == CourtSession.ClearCelebration(old(State()))
    {
      if refs.celebration.Some? {
        ClearTimer(refs.celebration.value);
        refs := refs.(celebration := None);
      }
    }

    // -------------------------------------------------------------------------
    // The browser's timers

    /** `setTimeout(callback, delay)` or `setInterval(callback, delay)`. */
    method SetTimer(delay: nat, e: Event) returns (h: Handle)
      modifies this
      ensures h == old(rt.nextHandle)
      ensures rt == old(rt).(pending := old(rt).pending[h := Timer(old(rt).now + delay, e)], nextHandle := h + 1)
      ensures refs == old(refs) && counter == old(counter) && view == old(view)
    {
      h := rt.nextHandle;
      rt := rt.(pending := rt.pending[h := Timer(rt.now + delay, e)], nextHandle := h + 1);
    }

    /** `clearTimeout(h)` or `clearInterval(h)`. */
    method ClearTimer(h: Handle)
      modifies this
      ensures rt == Cancel(old(rt), h)
      ensures refs == old(refs) && counter == old(counter) && view == old(view)
    {
      rt := rt.(pending := rt.pending - {h});
    }

    /** The clock moves on to `t` with no timer due. */
    method WaitUntil(t: nat)
      modifies this
      ensures State() == CourtSession.WaitUntil(old(State()), t)
    {
      rt := rt.(now := t);
    }

    /** The browser takes pending timer `h` and runs its callback. */
    method FireTimer(h: Handle)
      requires ConfigValid(cfg) && h in rt.pending
      modifies this
      ensures State() == CourtSession.FireTimer(old(State()), cfg, h)
    {
      var t := rt.pending[h];
      if t.event == Tick {
        rt := rt.(now := t.at, pending := rt.pending[h := Timer(t.at + 1000, Tick)]);
      } else {
        rt := rt.(now := t.at, pending := rt.pending - {h});
      }
      assert State() == Elapse(old(State()), h);
      match t.event {
        case Escalate(st, level) => OnEscalate(st, level);
        case Distraction => OnDistraction();
        case Tick => OnTick();
        case HideCelebration => view := view.(celebration := false);
      }
    }

    // -------------------------------------------------------------------------
    // Messages (app/court-room/page.tsx:475-501, 968-974)

    /** `pushMessage`. */
    method PushMessage(t: Template, related: Option<Stage>)
      modifies this
      ensures State() == CourtSession.PushMessage(old(State()), t, related)
    {
      counter := counter + 1;
      var id := IdText(rt.now, counter);
      view := view.(messages := view.messages + [Message(id, t.sender, t.body, t.severity, rt.now, false, related)]);
    }

    /** `resolveStageMessages`. */
    method ResolveStageMessages(st: Stage)
      modifies this
      ensures State() == CourtSession.ResolveStageMessages(old(State()), st)
    {
      view := view.(messages := Resolve(view.messages, st));
    }

    /** "Mark handled" on the message with id `id`. */
    method MarkHandled(id: string)
      modifies this
      ensures State() == CourtSession.MarkHandled(old(State()), id)
    {
      view := view.(messages := ResolveById(view.messages, id));
    }

    // -------------------------------------------------------------------------
    // Escalation (app/court-room/page.tsx:503-560)

    /** `clearStageTimeouts`: each of the stage's timeouts is cleared in turn,
        then its list is emptied. */
    method ClearStageTimeouts(st: Stage)
      modifies this
      ensures State() == CourtSession.ClearStageTimeouts(old(State()), st)
    {
      var hs := TimeoutsOf(refs, st);
      for i := 0 to |hs|
        invariant rt == old(rt).(pending := old(rt).pending - set h | h in hs[..i])
        invariant refs == old(refs) && counter == old(counter) && view == old(view)
      {
        ClearTimer(hs[i]);
        assert hs[..i + 1] == hs[..i] + [hs[i]];
      }
      assert hs[..|hs|] == hs;
      refs := refs.(stageTimeouts := refs.stageTimeouts[st := []]);
    }

    /** `triggerCourtSummons`. */
    method TriggerCourtSummons(st: Stage)
      modifies this
      ensures State() == CourtSession.TriggerCourtSummons(old(State()), st)
    {
      view := view.(summoned := true, summonedStage := Some(st));
      PushMessage(SummonsMessage(st), Some(st));
    }

    /** `scheduleEscalation`. */
    method ScheduleEscalation(st: Stage)
      requires ConfigValid(cfg)
      modifies this
      ensures State() == CourtSession.ScheduleEscalation(old(State()), cfg, st)
    {
      if st in refs.scheduled {
        return;
      }
      ghost var before, h := rt, rt.nextHandle;
      refs := refs.(scheduled := refs.scheduled + {st});
      var initial := SetTimer(2000, Escalate(st, InitialNotice));
      var urgent := SetTimer(cfg.escalationDelay, Escalate(st, UrgentNotice));
      var legal := SetTimer(cfg.escalationDelay * 2, Escalate(st, LegalNotice));
      assert [initial, urgent, legal] == [h, h + 1, h + 2];
      assert rt == before.(pending := EscalationTimers(before.pending, before.now, h, cfg.escalationDelay, st), nextHandle := h + 3);
      refs := refs.(stageTimeouts := refs.stageTimeouts[st := [initial, urgent, legal]]);
    }

    /** An escalation timeout's callback. */
    method OnEscalate(st: Stage, level: Level)
      modifies this
      ensures State() == CourtSession.OnEscalate(old(State()), st, level)
    {
      PushMessage(EscalationMessage(st, level), Some(st));
      if level == LegalNotice {
        TriggerCourtSummons(st);
      }
    }

    // -------------------------------------------------------------------------
    // Distractions (app/court-room/page.tsx:562-574)

    /** `scheduleNextDistraction`. */
    method ScheduleNextDistraction()
      requires ConfigValid(cfg)
      modifies this
      ensures State() == CourtSession.ScheduleNextDistraction(old(State()), cfg)
    {
      var delay := DistractionDelay(cfg, rt.draws);
      rt := rt.(draws := rt.draws + 1);
      var h := SetTimer(delay, Distraction);
      refs := refs.(distraction := Some(h));
    }

    /** The distraction timeout's callback. */
    method OnDistraction()
      requires ConfigValid(cfg)
      modifies this
      ensures State() == CourtSession.OnDistraction(old(State()), cfg)
    {
      var k := DistractionIndex(cfg.random(rt.draws));
      rt := rt.(draws := rt.draws + 1);
      PushMessage(DistractionPool[k], None);
      ScheduleNextDistraction();
    }

    // -------------------------------------------------------------------------
    // Countdown (app/court-room/page.tsx:576-632)

    /** `stopTimer`. */
    method StopTimer()
      modifies this
      ensures State() == CourtSession.StopTimer(old(State()))
    {
      if refs.countdown.Some? {
        ClearTimer(refs.countdown.value);
        refs := refs.(countdown := None);
      }
      view := view.(timerRunning := false);
    }

    /** `handleStartTimer` with the two inputs already read as numbers. */
    method StartTimer(minutes: Option<real>, seconds: Option<real>)
      modifies this
      ensures State() == CourtSession.StartTimer(old(State()), minutes, seconds)
    {
      match ParseDuration(minutes, seconds) {
        case Rejected(message) =>
          view := view.(timerError := Some(message));
        case Accepted(total) =>
          view := view.(timerError := None, countdown := total, timerRunning := true);
          if refs.countdown.Some? {
            ClearTimer(refs.countdown.value);
          }
          var h := SetTimer(1000, Tick);
          refs := refs.(countdown := Some(h));
      }
    }

    /** `handleResetTimer`. */
    method ResetTimer()
      modifies this
      ensures State() == CourtSession.ResetTimer(old(State()))
    {
      StopTimer();
      view := view.(countdown := 0, timerError := None);
    }

    /** The countdown interval's callback. */
    method OnTick()
      modifies this
      ensures State() == CourtSession.OnTick(old(State()))
    {
      if view.countdown <= 1 {
        StopTimer();
        PushMessage(TimeUpMessage, None);
        view := view.(countdown := 0);
      } else {
        view := view.(countdown := view.countdown - 1);
      }
    }

    // -------------------------------------------------------------------------
    // Stage completion and the stage forms (app/court-room/page.tsx:634-734)

    /** `markStageComplete`, reading the active stage and the summoned stage
        as they were when the handler started. */
    method MarkStageComplete(st: Stage)
      modifies this
      ensures State() == CourtSession.MarkStageComplete(old(State()), st)
    {
      if st in view.completed {
        return;
      }
      var active, index, summonedStage := ActiveStage(view), view.stageIndex, view.summonedStage;
      view := view.(completed := view.completed + [st]);
      ghost var recorded := State();
      ResolveStageMessages(st);
      ClearStageTimeouts(st);
      assert State() == CourtSession.ClearStageTimeouts(CourtSession.ResolveStageMessages(recorded, st), st);
      if summonedStage == Some(st) {
        view := view.(summoned := false, summonedStage := None);
      }
      ghost var lifted := State();
      if active == Some(st) {
        if index + 1 >= |StageOrder| {
          view := view.(celebration := true);
        } else {
          view := view.(stageIndex := index + 1);
        }
      }
      assert State() == if active != Some(st) then lifted
                        else if index + 1 >= |StageOrder| then lifted.(view := lifted.view.(celebration := true))
                        else lifted.(view := lifted.view.(stageIndex := index + 1));
    }

    /** `handleAltSubmit` with the typed answer. */
    method AltSubmit(answer: string)
      modifies this
      ensures State() == CourtSession.AltSubmit(old(State()), answer)
    {
      match AltError(answer) {
        case Some(e) =>
          view := view.(altError := Some(e));
        case None =>
          view := view.(altError := None);
          PushMessage(AcceptedMessage(Accessibility), Some(Accessibility));
          MarkStageComplete(Accessibility);
      }
    }

    /** `handleColorSubmit` with the chosen option. */
    method ColorSubmit(choice: string)
      modifies this
      ensures State() == CourtSession.ColorSubmit(old(State()), choice)
    {
      match ColorError(choice) {
        case Some(e) =>
          view := view.(colorError := Some(e));
        case None =>
          view := view.(colorError := None);
          PushMessage(AcceptedMessage(Visual), Some(Visual));
          MarkStageComplete(Visual);
      }
    }

    /** `handleValidationSubmit`. */
    method ValidationSubmit()
      modifies this
      ensures State() == CourtSession.ValidationSubmit(old(State()))
    {
      match ValidationError(view.options) {
        case Some(e) =>
          view := view.(validationError := Some(e));
        case None =>
          view := view.(validationError := None);
          PushMessage(AcceptedMessage(Validation), Some(Validation));
          MarkStageComplete(Validation);
      }
    }

    /** `toggleValidationOption`. */
    method ToggleValidationOption(which: ValidationOption)
      modifies this
      ensures State() == CourtSession.ToggleValidationOption(old(State()), which)
    {
      view := view.(options := Toggle(view.options, which));
    }

    /** "Return to coding" on the summons. */
    method ReturnToCoding()
      modifies this
      ensures State() == CourtSession.ReturnToCoding(old(State()))
    {
      view := view.(summoned := false);
    }
  }
}

=== FILE: court_session.dfy ===
/** The Court Room session engine of app/court-room/page.tsx as functions on a
    session value: the page's state hooks, its refs and the browser's timers.
    Each handler is a function from the session before to the session after;
    `Apply` adds the effects React runs when the handler's changes are
    committed. The class in court_room.dfy performs the same steps in place. */
module CourtSession {
  import opened Wrappers
  import opened Text
  import opened CourtModel
  import opened CourtTimers

  // ---------------------------------------------------------------------------
  // State (app/court-room/page.tsx:337-373)

  /** The refs that hold timer ids, and the set of stages whose escalation was
      armed. `celebration` is the timeout the celebration effect clears in its
      cleanup (app/court-room/page.tsx:766-774). */
  datatype TimerRefs = TimerRefs(
    countdown: Option<Handle>,               // countdownRef
    distraction: Option<Handle>,             // distractionTimeoutRef
    stageTimeouts: map<Stage, seq<Handle>>,  // stageTimeoutsRef
    scheduled: set<Stage>,                   // escalationScheduledRef
    celebration: Option<Handle>)

  /** The page's state hooks. The form fields (alt text, colour choice,
      minutes and seconds) are passed to the handlers that read them. */
  datatype View = View(
    stageIndex: nat,
    completed: seq<Stage>,
    messages: seq<Message>,
    countdown: nat,
    timerRunning: bool,
    timerError: Option<string>,
    altError: Option<string>,
    colorError: Option<string>,
    options: ValidationOptions,
    validationError: Option<string>,
    summoned: bool,
    summonedStage: Option<Stage>,
    celebration: bool)

  /** A mounted page: the browser's timers, the timer refs, `messageCounterRef`
      and the state hooks. */
  datatype Session = Session(rt: Runtime, refs: TimerRefs, counter: nat, view: View)

  /** The values the page reads once on mount: the escalation delay, the
      distraction bounds, and the stream of `Math.random` values. */
  datatype Config = Config(escalationDelay: int, bounds: Bounds, random: nat -> real)

  ghost predicate ConfigValid(cfg: Config) {
    cfg.escalationDelay > 0 && cfg.bounds.min > 0 && cfg.bounds.max > 0
    && forall k: nat :: IsDraw(cfg.random(k))
  }

  /** The configuration a page reads from its environment variables. */
  function ConfigFrom(escalationMs: Option<int>, minMs: Option<int>, maxMs: Option<int>, random: nat -> real): (cfg: Config)
    ensures (forall k: nat :: IsDraw(random(k))) ==> ConfigValid(cfg)
    ensures cfg.escalationDelay == EscalationDelay(escalationMs) && cfg.bounds == DistractionBounds(minMs, maxMs)
  {
    Config(EscalationDelay(escalationMs), DistractionBounds(minMs, maxMs), random)
  }

  /** `stageOrder[currentStageIndex]`, which is undefined past the end. */
  function ActiveStage(v: View): Option<Stage> {
    if v.stageIndex < |StageOrder| then Some(StageOrder[v.stageIndex]) else None
  }

  /** `stageTimeoutsRef.current[stage]`; every stage starts with an empty list. */
  function TimeoutsOf(refs: TimerRefs, st: Stage): seq<Handle> {
    if st in refs.stageTimeouts then refs.stageTimeouts[st] else []
  }

  /** The id of the `n`-th message, pushed at time `time`. */
  function IdText(time: nat, n: nat): string {
    Decimal(time) + "-" + Decimal(n)
  }

  // ---------------------------------------------------------------------------
  // Messages (app/court-room/page.tsx:475-501, 968-974)

  /** `pushMessage`: appends one unresolved message stamped with the clock and
      numbered by the incremented counter. */
  function PushMessage(s: Session, t: Template, related: Option<Stage>): (r: Session)
    ensures |r.view.messages| == |s.view.messages| + 1
    ensures r.view.messages[..|s.view.messages|] == s.view.messages
    ensures var m := r.view.messages[|s.view.messages|];
            m.sender == t.sender && m.body == t.body && m.severity == t.severity
            && m.related == related && !m.resolved && m.timestamp == s.rt.now
            && m.id == IdText(s.rt.now, r.counter)
    ensures r.counter == s.counter + 1
    ensures r.rt == s.rt && r.refs == s.refs && r.view.(messages := s.view.messages) == s.view
  {
    var n := s.counter + 1;
    var m := Message(IdText(s.rt.now, n), t.sender, t.body, t.severity, s.rt.now, false, related);
    s.(counter := n, view := s.view.(messages := s.view.messages + [m]))
  }

  /** The messages with every one related to `st` marked resolved. */
  function Resolve(ms: seq<Message>, st: Stage): (r: seq<Message>)
    ensures |r| == |ms|
    ensures forall i :: 0 <= i < |ms| ==>
              r[i].resolved == (ms[i].resolved || ms[i].related == Some(st))
              && r[i].(resolved := ms[i].resolved) == ms[i]
  {
    seq(|ms|, i requires 0 <= i < |ms| => if ms[i].related == Some(st) then ms[i].(resolved := true) else ms[i])
  }

  /** `resolveStageMessages`. */
  function ResolveStageMessages(s: Session, st: Stage): (r: Session)
    ensures r.view.messages == Resolve(s.view.messages, st)
    ensures r.rt == s.rt && r.refs == s.refs && r.counter == s.counter
    ensures r.view.(messages := s.view.messages) == s.view
  {
    s.(view := s.view.(messages := Resolve(s.view.messages, st)))
  }

  /** "Mark handled": the entries with the given id become resolved. */
  function ResolveById(ms: seq<Message>, id: string): (r: seq<Message>)
    ensures |r| == |ms|
    ensures forall i :: 0 <= i < |ms| ==>
              r[i].resolved == (ms[i].resolved || ms[i].id == id)
              && r[i].(resolved := ms[i].resolved) == ms[i]
  {
    seq(|ms|, i requires 0 <= i < |ms| => if ms[i].id == id then ms[i].(resolved := true) else ms[i])
  }

  function MarkHandled(s: Session, id: string): (r: Session)
    ensures r.view.messages == ResolveById(s.view.messages, id)
    ensures r.rt == s.rt && r.refs == s.refs && r.counter == s.counter
    ensures r.view.(messages := s.view.messages) == s.view
  {
    s.(view := s.view.(messages := ResolveById(s.view.messages, id)))
  }

  // ---------------------------------------------------------------------------
  // Escalation (app/court-room/page.tsx:503-560)

  /** `clearStageTimeouts`: cancels the stage's timeouts and empties its list.
      The stage stays in the scheduled set. */
  function ClearStageTimeouts(s: Session, st: Stage): (r: Session)
    ensures forall h :: h in r.rt.pending <==> h in s.rt.pending && h !in TimeoutsOf(s.refs, st)
    ensures forall h :: h in r.rt.pending ==> r.rt.pending[h] == s.rt.pending[h]
    ensures TimeoutsOf(r.refs, st) == []
    ensures forall o :: o != st ==> TimeoutsOf(r.refs, o) == TimeoutsOf(s.refs, o)
    ensures r.refs.scheduled == s.refs.scheduled
    ensures r.rt.now == s.rt.now && r.rt.nextHandle == s.rt.nextHandle && r.rt.draws == s.rt.draws
    ensures r.refs.(stageTimeouts := s.refs.stageTimeouts) == s.refs
    ensures r.counter == s.counter && r.view == s.view
  {
    s.(rt := CancelAll(s.rt, TimeoutsOf(s.refs, st)),
       refs := s.refs.(stageTimeouts := s.refs.stageTimeouts[st := []]))
  }

  /** `triggerCourtSummons`: the summons modal opens for `st` and the clerk's
      legal message is appended. */
  function TriggerCourtSummons(s: Session, st: Stage): (r: Session)
    ensures r.view.summoned && r.view.summonedStage == Some(st)
    ensures |r.view.messages| == |s.view.messages| + 1
    ensures r.view.messages[..|s.view.messages|] == s.view.messages
    ensures var m := r.view.messages[|s.view.messages|];
            m.sender == SummonsMessage(st).sender && m.body == SummonsMessage(st).body
            && m.severity == Legal && m.related == Some(st)
    ensures r.rt == s.rt && r.refs == s.refs && r.counter == s.counter + 1
    ensures r.view.(messages := s.view.messages, summoned := s.view.summoned, summonedStage := s.view.summonedStage) == s.view
  {
    PushMessage(s.(view := s.view.(summoned := true, summonedStage := Some(st))), SummonsMessage(st), Some(st))
  }

  /** The three escalation timers a first `scheduleEscalation(st)` at time
      `now` registers, with ids `h`, `h + 1` and `h + 2`. */
  function EscalationTimers(pending: map<Handle, Timer>, now: nat, h: Handle, delay: nat, st: Stage): map<Handle, Timer> {
    pending[h := Timer(now + 2000, Escalate(st, InitialNotice))]
           [h + 1 := Timer(now + delay, Escalate(st, UrgentNotice))]
           [h + 2 := Timer(now + 2 * delay, Escalate(st, LegalNotice))]
  }

  /** `scheduleEscalation`: a stage is armed at most once. The first call
      registers its initial notice after 2000 ms, the urgent notice after the
      escalation delay and the legal notice after twice the delay, and records
      the three ids as the stage's timeouts. */
  function ScheduleEscalation(s: Session, cfg: Config, st: Stage): (r: Session)
    requires cfg.escalationDelay > 0
    ensures st in r.refs.scheduled && r.refs.scheduled == s.refs.scheduled + {st}
    ensures st in s.refs.scheduled ==> r == s
    ensures st !in s.refs.scheduled ==>
              var h := s.rt.nextHandle;
              r.rt.pending == EscalationTimers(s.rt.pending, s.rt.now, h, cfg.escalationDelay, st)
              && TimeoutsOf(r.refs, st) == [h, h + 1, h + 2]
              && r.rt.nextHandle == h + 3
    ensures forall o :: o != st ==> TimeoutsOf(r.refs, o) == TimeoutsOf(s.refs, o)
    ensures r.rt.now == s.rt.now && r.rt.draws == s.rt.draws
    ensures r.refs.(stageTimeouts := s.refs.stageTimeouts, scheduled := s.refs.scheduled) == s.refs
    ensures r.counter == s.counter && r.view == s.view
  {
    if st in s.refs.scheduled then s
    else
      var d := cfg.escalationDelay;
      var h := s.rt.nextHandle;
      var rt := s.rt.(pending := EscalationTimers(s.rt.pending, s.rt.now, h, d, st), nextHandle := h + 3);
      s.(rt := rt, refs := s.refs.(scheduled := s.refs.scheduled + {st},
                                   stageTimeouts := s.refs.stageTimeouts[st := [h, h + 1, h + 2]]))
  }

  // ---------------------------------------------------------------------------
  // Distractions (app/court-room/page.tsx:562-574)

  /** The delay of the next distraction, from the next random draw. */
  function DistractionDelay(cfg: Config, draws: nat): (d: nat)
    requires ConfigValid(cfg)
    ensures d > 0
    ensures cfg.bounds.min < cfg.bounds.max ==> cfg.bounds.min <= d < cfg.bounds.max
  {
    RandomBetweenPositive(cfg.bounds.min, cfg.bounds.max, cfg.random(draws));
    RandomBetweenRange(cfg.bounds.min, cfg.bounds.max, cfg.random(draws));
    RandomBetween(cfg.bounds.min, cfg.bounds.max, cfg.random(draws))
  }

  /** `scheduleNextDistraction`: one draw picks the delay, and the new timeout
      becomes the distraction ref. */
  function ScheduleNextDistraction(s: Session, cfg: Config): (r: Session)
    requires ConfigValid(cfg)
    ensures var h := s.rt.nextHandle;
            r.refs.distraction == Some(h) && r.rt.pending.Keys == s.rt.pending.Keys + {h}
            && r.rt.pending[h] == Timer(s.rt.now + DistractionDelay(cfg, s.rt.draws), Distraction)
            && (forall g :: g in s.rt.pending && g != h ==> r.rt.pending[g] == s.rt.pending[g])
    ensures r.rt.nextHandle == s.rt.nextHandle + 1 && r.rt.draws == s.rt.draws + 1 && r.rt.now == s.rt.now
    ensures r.refs.(distraction := s.refs.distraction) == s.refs && r.counter == s.counter && r.view == s.view
  {
    var delay := DistractionDelay(cfg, s.rt.draws);
    var h := s.rt.nextHandle;
    s.(rt := Register(s.rt.(draws := s.rt.draws + 1), delay, Distraction),
       refs := s.refs.(distraction := Some(h)))
  }

  // ---------------------------------------------------------------------------
  // Countdown (app/court-room/page.tsx:576-632)

  /** `stopTimer`: the interval, if any, is cleared and the timer stops. */
  function StopTimer(s: Session): (r: Session)
    ensures r.refs.countdown.None? && !r.view.timerRunning
    ensures r.rt.pending.Keys == s.rt.pending.Keys - (if s.refs.countdown.Some? then {s.refs.countdown.value} else {})
    ensures forall g :: g in r.rt.pending ==> r.rt.pending[g] == s.rt.pending[g]
    ensures r.rt.now == s.rt.now && r.rt.nextHandle == s.rt.nextHandle && r.rt.draws == s.rt.draws
    ensures r.refs.(countdown := s.refs.countdown) == s.refs && r.counter == s.counter
    ensures r.view.(timerRunning := s.view.timerRunning) == s.view
  {
    var rt := if s.refs.countdown.Some? then Cancel(s.rt, s.refs.countdown.value) else s.rt;
    s.(rt := rt, refs := s.refs.(countdown := None), view := s.view.(timerRunning := false))
  }

  /** `handleStartTimer`: a rejected duration only sets the timer error; an
      accepted one clears it, sets the countdown, and replaces any running
      interval by a fresh one ticking every second. */
  function StartTimer(s: Session, minutes: Option<real>, seconds: Option<real>): (r: Session)
    ensures ParseDuration(minutes, seconds).Rejected? ==>
              r == s.(view := s.view.(timerError := Some(ParseDuration(minutes, seconds).message)))
    ensures ParseDuration(minutes, seconds).Accepted? ==>
              var h := s.rt.nextHandle;
              r.view == s.view.(timerError := None, countdown := ParseDuration(minutes, seconds).seconds, timerRunning := true)
              && r.refs == s.refs.(countdown := Some(h))
              && r.rt.pending.Keys == s.rt.pending.Keys - (if s.refs.countdown.Some? then {s.refs.countdown.value} else {}) + {h}
              && r.rt.pending[h] == Timer(s.rt.now + 1000, Tick)
              && (forall g :: g in r.rt.pending && g != h ==> r.rt.pending[g] == s.rt.pending[g])
              && r.rt.nextHandle == h + 1 && r.rt.now == s.rt.now && r.rt.draws == s.rt.draws
              && r.counter == s.counter
  {
    match ParseDuration(minutes, seconds)
    case Rejected(message) => s.(view := s.view.(timerError := Some(message)))
    case Accepted(total) =>
      var rt := if s.refs.countdown.Some? then Cancel(s.rt, s.refs.countdown.value) else s.rt;
      s.(rt := Register(rt, 1000, Tick), refs := s.refs.(countdown := Some(rt.nextHandle)),
         view := s.view.(timerError := None, countdown := total, timerRunning := true))
  }

  /** `handlePauseTimer`: stops the interval and keeps the remaining time. */
  function PauseTimer(s: Session): (r: Session)
    ensures r.view.countdown == s.view.countdown && !r.view.timerRunning && r.refs.countdown.None?
  {
    StopTimer(s)
  }

  /** `handleResetTimer`: stops the interval, sets the countdown to zero and
      clears the timer error. */
  function ResetTimer(s: Session): (r: Session)
    ensures r.view.countdown == 0 && r.view.timerError.None? && !r.view.timerRunning && r.refs.countdown.None?
    ensures r.rt == StopTimer(s).rt && r.refs == StopTimer(s).refs && r.counter == s.counter
  {
    var t := StopTimer(s);
    t.(view := t.view.(countdown := 0, timerError := None))
  }

  // ---------------------------------------------------------------------------
  // Stage completion (app/court-room/page.tsx:634-665)

  /** `markStageComplete`: a no-op for a completed stage. Otherwise the stage
      is recorded once, its messages are resolved, its timeouts are cleared,
      the summons is lifted if it was for this stage, and, if it is the
      active stage, the page moves on or, after the last stage, celebrates. */
  function MarkStageComplete(s: Session, st: Stage): (r: Session)
    ensures st in s.view.completed ==> r == s
    ensures st !in s.view.completed ==>
              r.view.completed == s.view.completed + [st]
              && r.view.messages == Resolve(s.view.messages, st)
              && r.rt == ClearStageTimeouts(s, st).rt && r.refs == ClearStageTimeouts(s, st).refs
              && (r.view.summoned, r.view.summonedStage)
                 == (if s.view.summonedStage == Some(st) then (false, None) else (s.view.summoned, s.view.summonedStage))
              && r.view.stageIndex
                 == (if ActiveStage(s.view) == Some(st) && s.view.stageIndex + 1 < |StageOrder| then s.view.stageIndex + 1
                     else s.view.stageIndex)
              && r.view.celebration
                 == (s.view.celebration || (ActiveStage(s.view) == Some(st) && s.view.stageIndex + 1 >= |StageOrder|))
    ensures r.counter == s.counter
    ensures r.view.(completed := s.view.completed, messages := s.view.messages, summoned := s.view.summoned,
                    summonedStage := s.view.summonedStage, stageIndex := s.view.stageIndex,
                    celebration := s.view.celebration) == s.view
  {
    if st in s.view.completed then s
    else
      var s1 := s.(view := s.view.(completed := s.view.completed + [st]));
      var s2 := ClearStageTimeouts(ResolveStageMessages(s1, st), st);
      var s3 := if s.view.summonedStage == Some(st) then s2.(view := s2.view.(summoned := false, summonedStage := None)) else s2;
      if ActiveStage(s.view) == Some(st) then
        if s.view.stageIndex + 1 >= |StageOrder| then s3.(view := s3.view.(celebration := true))
        else s3.(view := s3.view.(stageIndex := s.view.stageIndex + 1))
      else s3
  }

  // ---------------------------------------------------------------------------
  // The three stage forms (app/court-room/page.tsx:667-734)

  /** `handleAltSubmit`. */
  function AltSubmit(s: Session, answer: string): (r: Session)
    ensures AltError(answer).Some? ==>
              r.view.altError == AltError(answer) && r.view.(altError := s.view.altError) == s.view
              && r.rt == s.rt && r.refs == s.refs && r.counter == s.counter
    ensures AltError(answer).None? ==> r.view.altError.None? && Accessibility in r.view.completed
    ensures AltError(answer).None? ==>
              r == MarkStageComplete(PushMessage(s.(view := s.view.(altError := None)),
                                                 AcceptedMessage(Accessibility), Some(Accessibility)), Accessibility)
  {
    match AltError(answer)
    case Some(e) => s.(view := s.view.(altError := Some(e)))
    case None =>
      var t := PushMessage(s.(view := s.view.(altError := None)), AcceptedMessage(Accessibility), Some(Accessibility));
      MarkStageComplete(t, Accessibility)
  }

  /** `handleColorSubmit`. */
  function ColorSubmit(s: Session, choice: string): (r: Session)
    ensures ColorError(choice).Some? ==>
              r.view.colorError == ColorError(choice) && r.view.(colorError := s.view.colorError) == s.view
              && r.rt == s.rt && r.refs == s.refs && r.counter == s.counter
    ensures ColorError(choice).None? ==> r.view.colorError.None? && Visual in r.view.completed
    ensures ColorError(choice).None? ==>
              r == MarkStageComplete(PushMessage(s.(view := s.view.(colorError := None)),
                                                 AcceptedMessage(Visual), Some(Visual)), Visual)
  {
    match ColorError(choice)
    case Some(e) => s.(view := s.view.(colorError := Some(e)))
    case None =>
      var t := PushMessage(s.(view := s.view.(colorError := None)), AcceptedMessage(Visual), Some(Visual));
      MarkStageComplete(t, Visual)
  }

  /** `handleValidationSubmit`, reading the options from the page state. */
  function ValidationSubmit(s: Session): (r: Session)
    ensures ValidationError(s.view.options).Some? ==>
              r.view.validationError == ValidationError(s.view.options) && r.view.(validationError := s.view.validationError) == s.view
              && r.rt == s.rt && r.refs == s.refs && r.counter == s.counter
    ensures ValidationError(s.view.options).None? ==> r.view.validationError.None? && Validation in r.view.completed
    ensures ValidationError(s.view.options).None? ==>
              r == MarkStageComplete(PushMessage(s.(view := s.view.(validationError := None)),
                                                 AcceptedMessage(Validation), Some(Validation)), Validation)
  {
    match ValidationError(s.view.options)
    case Some(e) => s.(view := s.view.(validationError := Some(e)))
    case None =>
      var t := PushMessage(s.(view := s.view.(validationError := None)), AcceptedMessage(Validation), Some(Validation));
      MarkStageComplete(t, Validation)
  }

  /** `toggleValidationOption`. */
  function ToggleValidationOption(s: Session, which: ValidationOption): (r: Session)
    ensures r.view.options == Toggle(s.view.options, which)
    ensures r.view.(options := s.view.options) == s.view && r.rt == s.rt && r.refs == s.refs && r.counter == s.counter
  {
    s.(view := s.view.(options := Toggle(s.view.options, which)))
  }

  /** "Return to coding": the modal closes; the summoned stage is kept. */
  function ReturnToCoding(s: Session): (r: Session)
    ensures !r.view.summoned && r.view.summonedStage == s.view.summonedStage
    ensures r.view.(summoned := s.view.summoned) == s.view && r.rt == s.rt && r.refs == s.refs && r.counter == s.counter
  {
    s.(view := s.view.(summoned := false))
  }

  // ---------------------------------------------------------------------------
  // Timer callbacks (app/court-room/page.tsx:535-555, 564-573, 603-621, 768-770)

  /** Time passes with no timer due: the clock reads `t`, and nothing else
      changes. */
  function WaitUntil(s: Session, t: nat): (r: Session)
    ensures r.rt.now == t && r.rt.(now := s.rt.now) == s.rt
    ensures r.refs == s.refs && r.counter == s.counter && r.view == s.view
  {
    s.(rt := s.rt.(now := t))
  }

  /** The browser takes pending timer `h`: the clock moves to its due time,
      a timeout leaves the table and an interval is re-armed a second later. */
  function Elapse(s: Session, h: Handle): (r: Session)
    requires h in s.rt.pending
    ensures r.rt.now == s.rt.pending[h].at && r.rt.nextHandle == s.rt.nextHandle && r.rt.draws == s.rt.draws
    ensures s.rt.pending[h].event == Tick ==>
              r.rt.pending == s.rt.pending[h := Timer(s.rt.pending[h].at + 1000, Tick)]
    ensures s.rt.pending[h].event != Tick ==> r.rt.pending == s.rt.pending - {h}
    ensures r.refs == s.refs && r.counter == s.counter && r.view == s.view
  {
    var t := s.rt.pending[h];
    if t.event == Tick then s.(rt := s.rt.(now := t.at, pending := s.rt.pending[h := Timer(t.at + 1000, Tick)]))
    else s.(rt := s.rt.(now := t.at, pending := s.rt.pending - {h}))
  }

  /** An escalation timeout's callback: the stage's notice, and with the
      legal notice the summons. */
  function OnEscalate(s: Session, st: Stage, level: Level): (r: Session)
    ensures r.view.summonedStage == (if level == LegalNotice then Some(st) else s.view.summonedStage)
    ensures r.rt == s.rt && r.refs == s.refs
    ensures r.view.(messages := s.view.messages, summoned := s.view.summoned, summonedStage := s.view.summonedStage) == s.view
  {
    var s1 := PushMessage(s, EscalationMessage(st, level), Some(st));
    if level == LegalNotice then TriggerCourtSummons(s1, st) else s1
  }

  /** The distraction timeout's callback: a draw picks the message, and the
      next distraction is scheduled. */
  function OnDistraction(s: Session, cfg: Config): (r: Session)
    requires ConfigValid(cfg)
    ensures |r.view.messages| == |s.view.messages| + 1 && r.view.messages[..|s.view.messages|] == s.view.messages
    ensures var m, t := r.view.messages[|s.view.messages|], DistractionPool[DistractionIndex(cfg.random(s.rt.draws))];
            m.sender == t.sender && m.body == t.body && m.severity == t.severity
            && m.related.None? && !m.resolved && m.timestamp == s.rt.now
    ensures var h := s.rt.nextHandle;
            r.refs.distraction == Some(h) && r.rt.pending.Keys == s.rt.pending.Keys + {h}
            && r.rt.pending[h] == Timer(s.rt.now + DistractionDelay(cfg, s.rt.draws + 1), Distraction)
            && (forall g :: g in s.rt.pending && g != h ==> r.rt.pending[g] == s.rt.pending[g])
    ensures r.rt.draws == s.rt.draws + 2 && r.rt.now == s.rt.now && r.rt.nextHandle == s.rt.nextHandle + 1
    ensures r.view.(messages := s.view.messages) == s.view && r.counter == s.counter + 1
    ensures r.refs.(distraction := s.refs.distraction) == s.refs
  {
    var k := DistractionIndex(cfg.random(s.rt.draws));
    var s1 := s.(rt := s.rt.(draws := s.rt.draws + 1));
    ScheduleNextDistraction(PushMessage(s1, DistractionPool[k], None), cfg)
  }

  /** The countdown interval's callback: the last second stops the timer and
      posts the time-up notice; any other second counts down. */
  function OnTick(s: Session): (r: Session)
    ensures r.view.countdown == if s.view.countdown <= 1 then 0 else s.view.countdown - 1
    ensures s.view.countdown <= 1 ==> !r.view.timerRunning && r.refs.countdown.None?
    ensures s.view.countdown > 1 ==> r == s.(view := s.view.(countdown := s.view.countdown - 1))
    ensures r.view.(messages := s.view.messages, countdown := s.view.countdown, timerRunning := s.view.timerRunning) == s.view
  {
    if s.view.countdown <= 1 then
      var s1 := PushMessage(StopTimer(s), TimeUpMessage, None);
      s1.(view := s1.view.(countdown := 0))
    else s.(view := s.view.(countdown := s.view.countdown - 1))
  }

  /** The browser runs pending timer `h`. */
  function FireTimer(s: Session, cfg: Config, h: Handle): (r: Session)
    requires ConfigValid(cfg) && h in s.rt.pending
  {
    var s1 := Elapse(s, h);
    match s.rt.pending[h].event
    case Escalate(st, level) => OnEscalate(s1, st, level)
    case Distraction => OnDistraction(s1, cfg)
    case Tick => OnTick(s1)
    case HideCelebration => s1.(view := s1.view.(celebration := false))
  }

  // ---------------------------------------------------------------------------
  // Effects (app/court-room/page.tsx:736-774)

  /** The celebration effect's cleanup: its timeout, if any, is cleared and
      nothing else changes. */
  function ClearCelebration(s: Session): (r: Session)
    ensures r.refs.celebration.None?
    ensures s.refs.celebration.Some? ==> r.rt == Cancel(s.rt, s.refs.celebration.value)
    ensures s.refs.celebration.None? ==> r == s
    ensures r.refs.(celebration := s.refs.celebration) == s.refs && r.counter == s.counter && r.view == s.view
  {
    if s.refs.celebration.Some? then s.(rt := Cancel(s.rt, s.refs.celebration.value), refs := s.refs.(celebration := None))
    else s
  }

  /** The stage whose timeouts the commit's cleanup clears: the previously
      active one, when the stage index changed and that stage escalates. */
  function ClearedStage(before: View, s: Session): Option<Stage> {
    if before.stageIndex != s.view.stageIndex && ActiveStage(before).Some? && Escalates(ActiveStage(before).value)
    then ActiveStage(before) else None
  }

  /** The timeouts the cleanups of a commit clear: the cleared stage's, and
      the celebration's when the flag changed. */
  function ClearedByCommit(before: View, s: Session): set<Handle> {
    (if ClearedStage(before, s).Some? then set h | h in TimeoutsOf(s.refs, ClearedStage(before, s).value) else {})
    + (if before.celebration != s.view.celebration && s.refs.celebration.Some? then {s.refs.celebration.value} else {})
  }

  /** The commit re-runs the escalation effect for a stage that escalates and
      was not armed before. */
  predicate ArmsStage(before: View, s: Session) {
    && before.stageIndex != s.view.stageIndex
    && ActiveStage(s.view).Some? && Escalates(ActiveStage(s.view).value)
    && ActiveStage(s.view).value !in s.refs.scheduled
  }

  /** The commit re-runs the celebration effect with the flag raised. */
  predicate StartsCelebration(before: View, s: Session) {
    before.celebration != s.view.celebration && s.view.celebration
  }

  /** The cleanups a commit runs: exactly the timeouts of `ClearedByCommit`
      are cancelled, the cleared stage's list is emptied and a changed flag
      drops the celebration ref. */
  function CommitCleanups(before: View, s: Session): (r: Session)
    ensures forall h :: h in r.rt.pending <==> h in s.rt.pending && h !in ClearedByCommit(before, s)
    ensures forall h :: h in r.rt.pending ==> r.rt.pending[h] == s.rt.pending[h]
    ensures r.rt.now == s.rt.now && r.rt.nextHandle == s.rt.nextHandle && r.rt.draws == s.rt.draws
    ensures ClearedStage(before, s).Some? ==> TimeoutsOf(r.refs, ClearedStage(before, s).value) == []
    ensures forall o :: ClearedStage(before, s) != Some(o) ==> TimeoutsOf(r.refs, o) == TimeoutsOf(s.refs, o)
    ensures r.refs.celebration == if before.celebration != s.view.celebration then None else s.refs.celebration
    ensures r.refs.(stageTimeouts := s.refs.stageTimeouts, celebration := s.refs.celebration) == s.refs
    ensures r.counter == s.counter && r.view == s.view
  {
    var cleared := ClearedStage(before, s);
    var s1 := if cleared.Some? then ClearStageTimeouts(s, cleared.value) else s;
    if before.celebration != s.view.celebration then ClearCelebration(s1) else s1
  }

  /** The escalation effect run again after a change of stage index: a newly
      active escalating stage is armed with its three notices. Timers already
      pending below the next id are kept. */
  function RunEscalationEffect(cfg: Config, before: View, s: Session): (r: Session)
    requires cfg.escalationDelay > 0
    ensures forall h :: h in s.rt.pending && h < s.rt.nextHandle ==> h in r.rt.pending && r.rt.pending[h] == s.rt.pending[h]
    ensures forall h :: h in r.rt.pending && h < s.rt.nextHandle ==> h in s.rt.pending
    ensures r.rt.nextHandle == s.rt.nextHandle + if ArmsStage(before, s) then 3 else 0
    ensures r.refs.scheduled == s.refs.scheduled + if ArmsStage(before, s) then {ActiveStage(s.view).value} else {}
    ensures ArmsStage(before, s) ==>
              var st, h, d := ActiveStage(s.view).value, s.rt.nextHandle, cfg.escalationDelay;
              && TimeoutsOf(r.refs, st) == [h, h + 1, h + 2]
              && h in r.rt.pending && r.rt.pending[h] == Timer(s.rt.now + 2000, Escalate(st, InitialNotice))
              && h + 1 in r.rt.pending && r.rt.pending[h + 1] == Timer(s.rt.now + d, Escalate(st, UrgentNotice))
              && h + 2 in r.rt.pending && r.rt.pending[h + 2] == Timer(s.rt.now + 2 * d, Escalate(st, LegalNotice))
    ensures forall o :: !(ArmsStage(before, s) && ActiveStage(s.view) == Some(o)) ==> TimeoutsOf(r.refs, o) == TimeoutsOf(s.refs, o)
    ensures r.rt.now == s.rt.now && r.rt.draws == s.rt.draws
    ensures r.refs.(stageTimeouts := s.refs.stageTimeouts, scheduled := s.refs.scheduled) == s.refs
    ensures r.counter == s.counter && r.view == s.view
  {
    var next := ActiveStage(s.view);
    if before.stageIndex != s.view.stageIndex && next.Some? && Escalates(next.value)
    then ScheduleEscalation(s, cfg, next.value) else s
  }

  /** The celebration effect run again after the flag changed: a raised flag
      starts a 6000 ms timeout that becomes the celebration ref. */
  function RunCelebrationEffect(before: View, s: Session): (r: Session)
    ensures StartsCelebration(before, s) ==>
              var h := s.rt.nextHandle;
              && r.refs.celebration == Some(h) && r.rt.nextHandle == h + 1
              && h in r.rt.pending && r.rt.pending[h] == Timer(s.rt.now + 6000, HideCelebration)
              && forall g :: g in s.rt.pending && g != h ==> g in r.rt.pending && r.rt.pending[g] == s.rt.pending[g]
    ensures !StartsCelebration(before, s) ==> r == s
    ensures r.rt.pending.Keys <= s.rt.pending.Keys + {s.rt.nextHandle}
    ensures r.rt.now == s.rt.now && r.rt.draws == s.rt.draws
    ensures r.refs.(celebration := s.refs.celebration) == s.refs && r.counter == s.counter && r.view == s.view
  {
    if StartsCelebration(before, s) then
      s.(rt := Register(s.rt, 6000, HideCelebration), refs := s.refs.(celebration := Some(s.rt.nextHandle)))
    else s
  }

  /** What React runs after committing `s`, whose previous commit was
      `before`: first the cleanups of the effects whose dependencies changed
      (the escalation effect on the stage index, the celebration effect on the
      flag), then those effects again. With neither dependency changed
      nothing happens. */
  function CommitEffects(cfg: Config, before: View, s: Session): (r: Session)
    requires cfg.escalationDelay > 0
    ensures r.view == s.view && r.counter == s.counter
    ensures r.rt.now == s.rt.now && r.rt.draws == s.rt.draws
    ensures r.refs.countdown == s.refs.countdown && r.refs.distraction == s.refs.distraction
    ensures before.stageIndex == s.view.stageIndex && before.celebration == s.view.celebration ==> r == s
  {
    RunCelebrationEffect(before, RunEscalationEffect(cfg, before, CommitCleanups(before, s)))
  }

  /** After a commit the timeouts its cleanups cleared are gone, and every
      other timer registered before it is still pending, unchanged. */
  lemma CommitCancelsCleared(cfg: Config, before: View, s: Session)
    requires cfg.escalationDelay > 0
    ensures var r := CommitEffects(cfg, before, s);
            && (forall h :: h in ClearedByCommit(before, s) && h < s.rt.nextHandle ==> h !in r.rt.pending)
            && (forall h :: h in s.rt.pending && h < s.rt.nextHandle && h !in ClearedByCommit(before, s) ==>
                  h in r.rt.pending && r.rt.pending[h] == s.rt.pending[h])
  {
    var s1 := CommitCleanups(before, s);
    var s2 := RunEscalationEffect(cfg, before, s1);
    assert ArmsStage(before, s1) == ArmsStage(before, s);
    assert StartsCelebration(before, s2) == StartsCelebration(before, s);
  }

  /** A commit that makes a not yet armed escalating stage active leaves its
      three notices pending under the first free ids, recorded as its
      timeouts. */
  lemma CommitArmsNewStage(cfg: Config, before: View, s: Session)
    requires cfg.escalationDelay > 0 && ArmsStage(before, s)
    ensures var r, st, h, d := CommitEffects(cfg, before, s), ActiveStage(s.view).value, s.rt.nextHandle, cfg.escalationDelay;
            && st in r.refs.scheduled
            && TimeoutsOf(r.refs, st) == [h, h + 1, h + 2]
            && h in r.rt.pending && r.rt.pending[h] == Timer(s.rt.now + 2000, Escalate(st, InitialNotice))
            && h + 1 in r.rt.pending && r.rt.pending[h + 1] == Timer(s.rt.now + d, Escalate(st, UrgentNotice))
            && h + 2 in r.rt.pending && r.rt.pending[h + 2] == Timer(s.rt.now + 2 * d, Escalate(st, LegalNotice))
  {
    var s1 := CommitCleanups(before, s);
    assert ArmsStage(before, s1);
    var s2 := RunEscalationEffect(cfg, before, s1);
    var r := RunCelebrationEffect(before, s2);
    var st, h := ActiveStage(s.view).value, s.rt.nextHandle;
    assert s2.rt.nextHandle == h + 3;
    assert r.refs.stageTimeouts == s2.refs.stageTimeouts && r.refs.scheduled == s2.refs.scheduled;
    assert TimeoutsOf(r.refs, st) == TimeoutsOf(s2.refs, st);
    assert forall g :: g in s2.rt.pending && g < h + 3 ==> g in r.rt.pending && r.rt.pending[g] == s2.rt.pending[g];
  }

  /** A commit that raises the celebration flag leaves a `HideCelebration`
      timeout due 6000 ms later pending as the celebration ref, after
      clearing the previous one. */
  lemma CommitStartsCelebration(cfg: Config, before: View, s: Session)
    requires cfg.escalationDelay > 0 && StartsCelebration(before, s)
    ensures var r := CommitEffects(cfg, before, s);
            && r.refs.celebration.Some? && r.refs.celebration.value in r.rt.pending
            && r.rt.pending[r.refs.celebration.value] == Timer(s.rt.now + 6000, HideCelebration)
            && (s.refs.celebration.Some? && s.refs.celebration.value < s.rt.nextHandle ==>
                  s.refs.celebration.value !in r.rt.pending)
  {
    var s1 := CommitCleanups(before, s);
    var s2 := RunEscalationEffect(cfg, before, s1);
    assert StartsCelebration(before, s2);
  }

  // ---------------------------------------------------------------------------
  // The page's life (app/court-room/page.tsx:337-373, 736-764)

  /** The page as first rendered at time `start`, before its effects run. */
  function Initial(start: nat): (s: Session)
    ensures s.rt.pending == map[] && s.view.messages == [] && s.view.completed == []
  {
    Session(Runtime(start, map[], 1, 0),
            TimerRefs(None, None, map[Accessibility := [], Visual := [], Validation := []], {}, None),
            0,
            View(0, [], [], 0, false, None, None, None, ValidationOptions(false, false, false), None, false, None, false))
  }

  /** Mounting runs the effects in order: the first distraction is scheduled,
      then the escalation of the first stage. */
  function Mount(cfg: Config, start: nat): (s: Session)
    requires ConfigValid(cfg)
    ensures s.rt.now == start && s.view.stageIndex == 0 && s.view.completed == [] && s.view.messages == []
    ensures s.refs.scheduled == {Accessibility} && s.refs.distraction == Some(1)
    ensures s.rt.pending.Keys == {1, 2, 3, 4}
  {
    ScheduleEscalation(ScheduleNextDistraction(Initial(start), cfg), cfg, Accessibility)
  }

  /** Unmounting runs every effect's cleanup, in order: the distraction
      timeout, the active stage's timeouts, the timer and all stages'
      timeouts and the distraction again, and the celebration timeout. */
  function Unmount(s: Session): (r: Session)
    ensures r.view.completed == s.view.completed && r.refs.scheduled == s.refs.scheduled
  {
    var s1 := if s.refs.distraction.Some? then s.(rt := Cancel(s.rt, s.refs.distraction.value)) else s;
    var s2 := if ActiveStage(s1.view).Some? && Escalates(ActiveStage(s1.view).value)
              then ClearStageTimeouts(s1, ActiveStage(s1.view).value) else s1;
    var s3 := ClearStages(StopTimer(s2), StageOrder);
    var s4 := if s3.refs.distraction.Some? then s3.(rt := Cancel(s3.rt, s3.refs.distraction.value)) else s3;
    ClearCelebration(s4)
  }

  /** `sts.forEach(clearStageTimeouts)`; `ClearStagesCancels` states what it
      cancels. */
  function ClearStages(s: Session, sts: seq<Stage>): (r: Session)
    ensures r.rt.now == s.rt.now && r.rt.nextHandle == s.rt.nextHandle && r.rt.draws == s.rt.draws
    ensures r.refs.(stageTimeouts := s.refs.stageTimeouts) == s.refs && r.counter == s.counter && r.view == s.view
    decreases |sts|
  {
    if sts == [] then s else ClearStageTimeouts(ClearStages(s, sts[..|sts| - 1]), sts[|sts| - 1])
  }

  /** Id `h` is in the timeout list of one of the stages `sts`. */
  predicate ListedFor(refs: TimerRefs, sts: seq<Stage>, h: Handle) {
    exists st :: st in sts && h in TimeoutsOf(refs, st)
  }

  /** Clearing the stages `sts` cancels exactly the timeouts listed for them
      and empties their lists; every other list is kept. */
  lemma {:induction false} ClearStagesCancels(s: Session, sts: seq<Stage>)
    ensures var r := ClearStages(s, sts);
            (forall h :: h in r.rt.pending <==> h in s.rt.pending && !ListedFor(s.refs, sts, h))
            && (forall h :: h in r.rt.pending ==> r.rt.pending[h] == s.rt.pending[h])
            && (forall st :: TimeoutsOf(r.refs, st) == if st in sts then [] else TimeoutsOf(s.refs, st))
    decreases |sts|
  {
    if sts != [] {
      var init, last := sts[..|sts| - 1], sts[|sts| - 1];
      assert sts == init + [last];
      var p := ClearStages(s, init);
      ClearStagesCancels(s, init);
      var r := ClearStageTimeouts(p, last);
      assert ClearStages(s, sts) == r;
      forall st ensures TimeoutsOf(r.refs, st) == if st in sts then [] else TimeoutsOf(s.refs, st) {
        assert st in sts <==> st in init || st == last;
      }
      assert TimeoutsOf(p.refs, last) == if last in init then [] else TimeoutsOf(s.refs, last);
      forall h ensures ListedFor(s.refs, sts, h) <==> ListedFor(s.refs, init, h) || h in TimeoutsOf(p.refs, last) {
        if ListedFor(s.refs, sts, h) && !ListedFor(s.refs, init, h) {
          var st :| st in sts && h in TimeoutsOf(s.refs, st);
          assert st == last;
        }
        if h in TimeoutsOf(p.refs, last) {
          assert last in sts;
        }
      }
    }
  }

  // ---------------------------------------------------------------------------
  // Everything that can happen to a mounted page

  datatype Action =
    | SubmitAlt(answer: string)
    | SubmitColor(choice: string)
    | SubmitValidation
    | ToggleOption(which: ValidationOption)
    | StartCountdown(minutes: Option<real>, seconds: Option<real>)
    | PauseCountdown
    | ResetCountdown
    | MarkMessageHandled(id: string)
    | DismissSummons
    | Fire(h: Handle)
    | Wait(until: nat)

  /** What the page offers at a given moment: each stage's form is shown only
      while that stage is active, "Pause" is disabled when the timer is stopped
      at zero, "Mark handled" appears on unresolved messages, "Return to
      coding" on the open summons, the browser runs the next timer, and the
      clock may move on to any time up to the next timer's due time. */
  ghost predicate Enabled(s: Session, a: Action) {
    match a
    case SubmitAlt(_) => ActiveStage(s.view) == Some(Accessibility)
    case SubmitColor(_) => ActiveStage(s.view) == Some(Visual)
    case SubmitValidation => ActiveStage(s.view) == Some(Validation)
    case ToggleOption(_) => ActiveStage(s.view) == Some(Validation)
    case StartCountdown(_, _) => true
    case PauseCountdown => s.view.timerRunning || s.view.countdown != 0
    case ResetCountdown => true
    case MarkMessageHandled(id) => exists i :: 0 <= i < |s.view.messages| && s.view.messages[i].id == id && !s.view.messages[i].resolved
    case DismissSummons => s.view.summoned && s.view.summonedStage.Some?
    case Fire(h) => IsNext(s.rt.pending, h)
    case Wait(t) => s.rt.now <= t && forall h :: h in s.rt.pending ==> t <= s.rt.pending[h].at
  }

  /** The handler for `a`, without its effects. */
  function Handler(s: Session, cfg: Config, a: Action): (r: Session)
    requires ConfigValid(cfg) && (a.Fire? ==> a.h in s.rt.pending)
  {
    match a
    case SubmitAlt(answer) => AltSubmit(s, answer)
    case SubmitColor(choice) => ColorSubmit(s, choice)
    case SubmitValidation => ValidationSubmit(s)
    case ToggleOption(which) => ToggleValidationOption(s, which)
    case StartCountdown(m, sec) => StartTimer(s, m, sec)
    case PauseCountdown => PauseTimer(s)
    case ResetCountdown => ResetTimer(s)
    case MarkMessageHandled(id) => MarkHandled(s, id)
    case DismissSummons => ReturnToCoding(s)
    case Fire(h) => FireTimer(s, cfg, h)
    case Wait(t) => WaitUntil(s, t)
  }

  /** One step of a mounted page: the handler, then the effects of its commit. */
  function Apply(s: Session, cfg: Config, a: Action): (r: Session)
    requires ConfigValid(cfg) && (a.Fire? ==> a.h in s.rt.pending)
    ensures r.view == Handler(s, cfg, a).view
  {
    CommitEffects(cfg, s.view, Handler(s, cfg, a))
  }
}

=== FILE: court_timers.dfy ===
/** The browser side of the Court Room page's timers: the clock (`Date.now`),
    the table of pending `setTimeout`/`setInterval` timers with their ids, and
    how far the page has read into the stream of `Math.random` values. */
module CourtTimers {
  import opened CourtModel

  /** A timer id as returned by `setTimeout` and `setInterval`. Ids are handed
      out in increasing order from 1 and never reused, so a set id is never
      falsy. */
  type Handle = nat

  /** What a timer's callback does when it fires. */
  datatype Event =
    | Escalate(stage: Stage, level: Level)   // one of a stage's three escalation timeouts
    | Distraction                            // the distraction timeout
    | Tick                                   // the countdown interval
    | HideCelebration                        // the celebration timeout

  /** A pending timer: when it is due and what it does. */
  datatype Timer = Timer(at: nat, event: Event)

  /** The clock in milliseconds, the pending timers, the next id, and the number
      of `Math.random` draws made so far. */
  datatype Runtime = Runtime(now: nat, pending: map<Handle, Timer>, nextHandle: Handle, draws: nat)

  /** Every pending id was handed out already. */
  predicate Fresh(rt: Runtime) {
    forall h :: h in rt.pending ==> h < rt.nextHandle
  }

  /** No pending timer is overdue. */
  predicate NoneOverdue(rt: Runtime) {
    forall h :: h in rt.pending ==> rt.pending[h].at >= rt.now
  }

  /** `setTimeout(callback, delay)` or `setInterval(callback, delay)`: the
      timer gets the next id and is due `delay` milliseconds from now. */
  function Register(rt: Runtime, delay: nat, e: Event): (r: Runtime)
    ensures r.pending.Keys == rt.pending.Keys + {rt.nextHandle}
    ensures r.pending[rt.nextHandle] == Timer(rt.now + delay, e)
    ensures forall h :: h in rt.pending && h != rt.nextHandle ==> r.pending[h] == rt.pending[h]
    ensures r.nextHandle == rt.nextHandle + 1 && r.now == rt.now && r.draws == rt.draws
    ensures Fresh(rt) ==> Fresh(r) && rt.nextHandle !in rt.pending
  {
    rt.(pending := rt.pending[rt.nextHandle := Timer(rt.now + delay, e)], nextHandle := rt.nextHandle + 1)
  }

  /** `clearTimeout(h)` or `clearInterval(h)`; nothing happens when `h` is no
      longer pending. */
  function Cancel(rt: Runtime, h: Handle): (r: Runtime)
    ensures r.pending.Keys == rt.pending.Keys - {h}
    ensures forall g :: g in r.pending ==> r.pending[g] == rt.pending[g]
    ensures r.now == rt.now && r.nextHandle == rt.nextHandle && r.draws == rt.draws
  {
    rt.(pending := rt.pending - {h})
  }

  /** `hs.forEach(clearTimeout)`. */
  function CancelAll(rt: Runtime, hs: seq<Handle>): (r: Runtime)
    ensures forall g :: g in r.pending <==> g in rt.pending && g !in hs
    ensures forall g :: g in r.pending ==> r.pending[g] == rt.pending[g]
    ensures r.now == rt.now && r.nextHandle == rt.nextHandle && r.draws == rt.draws
  {
    rt.(pending := rt.pending - set h | h in hs)
  }

  /** Timer `h` is the one the browser runs next: the earliest due, and among
      timers due together the one registered first. */
  predicate IsNext(pending: map<Handle, Timer>, h: Handle) {
    h in pending && forall g :: g in pending ==> Precedes(pending, h, g)
  }

  predicate Precedes(pending: map<Handle, Timer>, h: Handle, g: Handle)
    requires h in pending && g in pending
  {
    pending[h].at < pending[g].at || (pending[h].at == pending[g].at && h <= g)
  }

  /** Whenever a timer is pending, exactly one timer is next. */
  lemma {:induction false} NextExists(pending: map<Handle, Timer>)
    requires pending != map[]
    ensures exists h :: IsNext(pending, h)
    decreases |pending.Keys|
  {
    var k :| k in pending;
    var rest := pending - {k};
    if rest == map[] {
      forall g | g in pending ensures Precedes(pending, k, g) {
        assert g !in rest;
      }
      assert IsNext(pending, k);
    } else {
      assert |rest.Keys| < |pending.Keys| by {
        assert rest.Keys == pending.Keys - {k};
      }
      NextExists(rest);
      var e :| IsNext(rest, e);
      if Precedes(pending, k, e) {
        forall g | g in pending ensures Precedes(pending, k, g) {
          if g != k {
            assert Precedes(rest, e, g);
          }
        }
        assert IsNext(pending, k);
      } else {
        forall g | g in pending ensures Precedes(pending, e, g) {
          if g != k {
            assert Precedes(rest, e, g);
          }
        }
        assert IsNext(pending, e);
      }
    }
  }

  lemma NextUnique(pending: map<Handle, Timer>, h: Handle, g: Handle)
    requires IsNext(pending, h) && IsNext(pending, g)
    ensures h == g
  {
    assert Precedes(pending, h, g) && Precedes(pending, g, h);
  }

  /** Firing the next timer never moves the clock back, since no timer is
      overdue. */
  lemma NextNotOverdue(rt: Runtime, h: Handle)
    requires NoneOverdue(rt) && IsNext(rt.pending, h)
    ensures rt.pending[h].at >= rt.now
    ensures forall g :: g in rt.pending ==> rt.pending[g].at >= rt.pending[h].at
  {
    forall g | g in rt.pending ensures rt.pending[g].at >= rt.pending[h].at {
      assert Precedes(rt.pending, h, g);
    }
  }
}

=== FILE: html_escape.dfy ===
/** HTML escaping of the five characters `&`, `<`, `>`, `"` and `'`.

    Two escapers in the repository follow this scheme and differ only in the
    entity chosen for the apostrophe: the court-room page writes `&#39;`
    (app/court-room/page.tsx, `escapeHtml`) and the tab generator writes
    `&#039;` (lib/generateHTML.ts, `escapeHtml`). */
module HtmlEscape {
  import opened Text

  /** Which spelling of the apostrophe entity an escaper uses. */
  datatype Apostrophe = Short | Padded

  function AposEntity(a: Apostrophe): string {
    match a
    case Short => "&#39;"
    case Padded => "&#039;"
  }

  predicate IsSpecial(c: char) {
    c == '&' || c == '<' || c == '>' || c == '"' || c == '\''
  }

  /** A character that may not appear raw in escaped text (everything special but `&`). */
  predicate IsMarkup(c: char) {
    c == '<' || c == '>' || c == '"' || c == '\''
  }

  function Entity(c: char, a: Apostrophe): string
    requires IsSpecial(c)
  {
    if c == '&' then "&amp;"
    else if c == '<' then "&lt;"
    else if c == '>' then "&gt;"
    else if c == '"' then "&quot;"
    else AposEntity(a)
  }

  function EscapeChar(c: char, a: Apostrophe): string {
    if IsSpecial(c) then Entity(c, a) else [c]
  }

  /** True when `s` begins with one of the five entities. */
  predicate StartsWithEntity(s: string, a: Apostrophe) {
    HasPrefix(s, "&amp;") || HasPrefix(s, "&lt;") || HasPrefix(s, "&gt;")
    || HasPrefix(s, "&quot;") || HasPrefix(s, AposEntity(a))
  }

  predicate HasPrefix(s: string, p: string) {
    |p| <= |s| && s[..|p|] == p
  }

  /** Escaping, one character at a time; the output holds no raw `<`, `>`, `"` or `'`. */
  function Escape(s: string, a: Apostrophe): (r: string)
    ensures |r| >= |s|
    ensures forall i :: 0 <= i < |r| ==> !IsMarkup(r[i])
  {
    if s == [] then [] else EscapeChar(s[0], a) + Escape(s[1..], a)
  }

  /** Decoding the five entities, the inverse of `Escape`. */
  function Unescape(r: string, a: Apostrophe): string {
    if r == [] then []
    else if r[0] != '&' then [r[0]] + Unescape(r[1..], a)
    else if HasPrefix(r, "&amp;") then "&" + Unescape(r[5..], a)
    else if HasPrefix(r, "&lt;") then "<" + Unescape(r[4..], a)
    else if HasPrefix(r, "&gt;") then ">" + Unescape(r[4..], a)
    else if HasPrefix(r, "&quot;") then "\"" + Unescape(r[6..], a)
    else if HasPrefix(r, AposEntity(a)) then "'" + Unescape(r[|AposEntity(a)|..], a)
    else [r[0]] + Unescape(r[1..], a)
  }

  lemma {:induction false} EscapeConcat(s: string, t: string, a: Apostrophe)
    ensures Escape(s + t, a) == Escape(s, a) + Escape(t, a)
  {
    if s == [] {
      assert s + t == t;
    } else {
      var c, r := s[0], s[1..];
      EscapeConcat(r, t, a);
      SplitFirst(s, t);
      EscapeCons(c, r + t, a);
      EscapeCons(c, r, a);
      AppendAssoc(EscapeChar(c, a), Escape(r, a), Escape(t, a));
    }
  }

  /** Escaping a text that starts with `c` starts with the escape of `c`. */
  lemma EscapeCons(c: char, u: string, a: Apostrophe)
    ensures Escape([c] + u, a) == EscapeChar(c, a) + Escape(u, a)
  {
    assert ([c] + u)[1..] == u;
  }

  /** Decoding what escaping produced returns the original text. */
  lemma {:induction false} UnescapeEscape(s: string, a: Apostrophe)
    ensures Unescape(Escape(s, a), a) == s
  {
    if s != [] {
      UnescapeEscape(s[1..], a);
      UnescapeEscapedChar(s[0], Escape(s[1..], a), a);
    }
  }

  /** Decoding the escape of one character followed by any text decodes that
      character and continues with the text. */
  lemma UnescapeEscapedChar(c: char, rest: string, a: Apostrophe)
    ensures Unescape(EscapeChar(c, a) + rest, a) == [c] + Unescape(rest, a)
  {
    var r := EscapeChar(c, a) + rest;
    if !IsSpecial(c) {
      assert r[0] == c && r[1..] == rest;
    } else if c == '&' {
      assert HasPrefix(r, "&amp;") && r[5..] == rest;
    } else if c == '<' {
      assert !HasPrefix(r, "&amp;") by { assert r[1] == 'l'; }
      assert HasPrefix(r, "&lt;") && r[4..] == rest;
    } else if c == '>' {
      assert !HasPrefix(r, "&amp;") by { assert r[1] == 'g'; }
      assert !HasPrefix(r, "&lt;") by { assert r[1] == 'g'; }
      assert HasPrefix(r, "&gt;") && r[4..] == rest;
    } else if c == '"' {
      assert !HasPrefix(r, "&amp;") by { assert r[1] == 'q'; }
      assert !HasPrefix(r, "&lt;") by { assert r[1] == 'q'; }
      assert !HasPrefix(r, "&gt;") by { assert r[1] == 'q'; }
      assert HasPrefix(r, "&quot;") && r[6..] == rest;
    } else {
      var e := AposEntity(a);
      assert r[..|e|] == e && r[|e|..] == rest;
      assert !HasPrefix(r, "&amp;") by { assert r[1] == '#'; }
      assert !HasPrefix(r, "&lt;") by { assert r[1] == '#'; }
      assert !HasPrefix(r, "&gt;") by { assert r[1] == '#'; }
      assert !HasPrefix(r, "&quot;") by { assert r[1] == '#'; }
    }
  }

  /** Escaping is injective: different texts never escape to the same output. */
  lemma EscapeInjective(s: string, t: string, a: Apostrophe)
    requires Escape(s, a) == Escape(t, a)
    ensures s == t
  {
    UnescapeEscape(s, a);
    UnescapeEscape(t, a);
  }

  /** Every `&` of an escaped text begins one of the five entities. */
  lemma {:induction false} AmpersandsBeginEntities(s: string, a: Apostrophe)
    ensures forall i :: 0 <= i < |Escape(s, a)| && Escape(s, a)[i] == '&' ==>
              StartsWithEntity(Escape(s, a)[i..], a)
  {
    if s != [] {
      AmpersandsBeginEntities(s[1..], a);
      var head, rest := EscapeChar(s[0], a), Escape(s[1..], a);
      var r := head + rest;
      assert Escape(s, a) == r;
      forall i | 0 <= i < |r| && r[i] == '&' ensures StartsWithEntity(r[i..], a) {
        if i < |head| {
          if IsSpecial(s[0]) {
            EntityHasOneAmpersand(s[0], a);
            assert head[i] == r[i];
            assert r[..|head|] == head;
          }
        } else {
          assert r[i..] == rest[i - |head|..];
        }
      }
    }
  }

  lemma EntityHasOneAmpersand(c: char, a: Apostrophe)
    requires IsSpecial(c)
    ensures forall i :: 0 < i < |Entity(c, a)| ==> Entity(c, a)[i] != '&'
  {
  }

  /** Text without special characters is copied unchanged. */
  lemma {:induction false} EscapePlain(s: string, a: Apostrophe)
    requires forall i :: 0 <= i < |s| ==> !IsSpecial(s[i])
    ensures Escape(s, a) == s
  {
    if s != [] {
      EscapePlain(s[1..], a);
    }
  }

  // ---------------------------------------------------------------------------
  // The court-room page escapes with five chained `replace(/c/g, entity)` calls,
  // ampersand first. The chain agrees with the one-pass escaper.

  /** `s.replace(/c/g, rep)`. */
  function ReplaceAll(s: string, c: char, rep: string): string {
    if s == [] then []
    else (if s[0] == c then rep else [s[0]]) + ReplaceAll(s[1..], c, rep)
  }

  lemma {:induction false} ReplaceAllConcat(s: string, t: string, c: char, rep: string)
    ensures ReplaceAll(s + t, c, rep) == ReplaceAll(s, c, rep) + ReplaceAll(t, c, rep)
  {
    if s == [] {
      assert s + t == t;
    } else {
      var x, r := s[0], s[1..];
      ReplaceAllConcat(r, t, c, rep);
      SplitFirst(s, t);
      ReplaceAllCons(x, r + t, c, rep);
      ReplaceAllCons(x, r, c, rep);
      AppendAssoc(ReplaceAll([x], c, rep), ReplaceAll(r, c, rep), ReplaceAll(t, c, rep));
    }
  }

  lemma ReplaceAllCons(x: char, u: string, c: char, rep: string)
    ensures ReplaceAll([x] + u, c, rep) == ReplaceAll([x], c, rep) + ReplaceAll(u, c, rep)
  {
    assert ([x] + u)[1..] == u;
    ReplaceAllSingle(x, c, rep);
  }

  /** The replace chain of app/court-room/page.tsx. */
  function ChainedEscape(s: string): string {
    ChainFrom(s, 0)
  }

  lemma {:induction false} ChainFromConcat(s: string, t: string, k: nat)
    ensures ChainFrom(s + t, k) == ChainFrom(s, k) + ChainFrom(t, k)
    decreases 5 - k
  {
    if k < 5 {
      var c, e := ChainChars[k], ChainEntities[k];
      ReplaceAllConcat(s, t, c, e);
      ChainFromConcat(ReplaceAll(s, c, e), ReplaceAll(t, c, e), k + 1);
    }
  }

  /** Replacing `&` first makes the chain equal to one-pass escaping: no later
      replacement meets an entity written by an earlier one. */
  lemma {:induction false} ChainedEscapeIsEscape(s: string)
    ensures ChainedEscape(s) == Escape(s, Short)
  {
    if s != [] {
      ChainedEscapeIsEscape(s[1..]);
      assert s == [s[0]] + s[1..];
      ChainFromConcat([s[0]], s[1..], 0);
      ChainedEscapeChar(s[0]);
      assert Escape(s, Short) == EscapeChar(s[0], Short) + Escape(s[1..], Short);
    }
  }

  lemma ChainedEscapeChar(c: char)
    ensures ChainedEscape([c]) == EscapeChar(c, Short)
  {
    if !IsSpecial(c) {
      ChainSkip([c], 0, 5);
    } else {
      var m := if c == '&' then 0 else if c == '<' then 1 else if c == '>' then 2
               else if c == '"' then 3 else 4;
      assert ChainChars[m] == c;
      ChainSkip([c], 0, m);
      ReplaceAllSingle(c, c, ChainEntities[m]);
      ChainSkip(ChainEntities[m], m + 1, 5);
    }
  }

  /** The characters the chain replaces, in the order of the chain, and their entities. */
  const ChainChars: string := "&<>\"'"
  const ChainEntities: seq<string> := ["&amp;", "&lt;", "&gt;", "&quot;", "&#39;"]

  /** The replacements from stage `k` of the chain on. */
  function ChainFrom(s: string, k: nat): string
    decreases 5 - k
  {
    if k >= 5 then s
    else ChainFrom(ReplaceAll(s, ChainChars[k], ChainEntities[k]), k + 1)
  }

  /** Stages whose character does not occur in the text leave it alone. */
  lemma {:induction false} ChainSkip(s: string, k: nat, m: nat)
    requires k <= m <= 5
    requires forall j :: k <= j < m ==> ChainChars[j] !in s
    ensures ChainFrom(s, k) == ChainFrom(s, m)
    decreases m - k
  {
    if k < m {
      ReplaceAllMissing(s, ChainChars[k], ChainEntities[k]);
      ChainSkip(s, k + 1, m);
    }
  }

  /** An input character other than the replaced one keeps its place: it
      sits between the replaced text before it and the replaced text after
      it. */
  lemma ReplaceAllKeepsOthers(s: string, c: char, rep: string, i: nat)
    requires i < |s| && s[i] != c
    ensures ReplaceAll(s, c, rep) == ReplaceAll(s[..i], c, rep) + [s[i]] + ReplaceAll(s[i + 1..], c, rep)
  {
    assert s == s[..i] + ([s[i]] + s[i + 1..]);
    ReplaceAllConcat(s[..i], [s[i]] + s[i + 1..], c, rep);
    ReplaceAllCons(s[i], s[i + 1..], c, rep);
  }

  /** A character of the output comes from the replacement text, standing
      for a replaced character, or is a character of the input that was not
      replaced. */
  lemma {:induction false} ReplaceAllChars(s: string, c: char, rep: string, x: char)
    ensures x in ReplaceAll(s, c, rep) ==> (x in rep && c in s) || (x in s && x != c)
  {
    if s != [] {
      ReplaceAllChars(s[1..], c, rep, x);
      assert s == [s[0]] + s[1..];
    }
  }

  lemma ReplaceAllSingle(c: char, x: char, rep: string)
    ensures ReplaceAll([c], x, rep) == if c == x then rep else [c]
  {
    assert [c][1..] == [];
  }

  /** Replacing a character that does not occur changes nothing. */
  lemma {:induction false} ReplaceAllMissing(s: string, c: char, rep: string)
    requires c !in s
    ensures ReplaceAll(s, c, rep) == s
  {
    if s != [] {
      assert s[0] != c;
      ReplaceAllMissing(s[1..], c, rep);
      assert s == [s[0]] + s[1..];
    }
  }
}

=== FILE: json.dfy ===
/** `JSON.stringify` of a string and of an array of strings, as the tab
    generator uses it to embed the list of tab ids in its script. */
module Json {
  import opened Text
  import opened Wrappers

  /** A lower-case hexadecimal digit. */
  function HexDigit(d: nat): (c: char)
    requires d < 16
    ensures IsHexDigit(c)
  {
    if d < 10 then ('0' as int + d) as char else ('a' as int + d - 10) as char
  }

  predicate IsHexDigit(c: char) {
    ('0' <= c <= '9') || ('a' <= c <= 'f')
  }

  function HexValue(c: char): (d: nat)
    requires IsHexDigit(c)
    ensures d < 16
  {
    if '0' <= c <= '9' then (c as int - '0' as int) as nat else (c as int - 'a' as int + 10) as nat
  }

  /** The one-letter escapes of JSON, for the characters that have one. */
  predicate HasShortEscape(c: char) {
    c == '"' || c == '\\' || c == '\U{0008}' || c == '\U{000C}' || c == '\n' || c == '\r' || c == '\t'
  }

  function ShortEscapeLetter(c: char): char
    requires HasShortEscape(c)
  {
    if c == '"' then '"' else if c == '\\' then '\\' else if c == '\U{0008}' then 'b'
    else if c == '\U{000C}' then 'f' else if c == '\n' then 'n' else if c == '\r' then 'r' else 't'
  }

  /** The letter after a backslash that decodes to a single character. */
  predicate IsShortEscapeLetter(l: char) {
    l == '"' || l == '\\' || l == 'b' || l == 'f' || l == 'n' || l == 'r' || l == 't'
  }

  function ShortEscapeChar(l: char): char
    requires IsShortEscapeLetter(l)
  {
    if l == '"' then '"' else if l == '\\' then '\\' else if l == 'b' then '\U{0008}'
    else if l == 'f' then '\U{000C}' else if l == 'n' then '\n' else if l == 'r' then '\r' else '\t'
  }

  predicate IsControl(c: char) { c < '\U{0020}' }

  function EscapeChar(c: char): string {
    if HasShortEscape(c) then ['\\', ShortEscapeLetter(c)]
    else if IsControl(c) then "\\u00" + [HexDigit(c as int / 16), HexDigit(c as int % 16)]
    else [c]
  }

  /** The body of a JSON string literal: quotes, backslashes and control
      characters escaped, everything else copied. */
  function Escape(s: string): (r: string)
    ensures |r| >= |s|
    ensures forall i :: 0 <= i < |r| ==> !IsControl(r[i])
  {
    if s == [] then [] else EscapeChar(s[0]) + Escape(s[1..])
  }

  /** `JSON.stringify(s)` for a string `s`. */
  function Quote(s: string): string {
    "\"" + Escape(s) + "\""
  }

  /** Each string of `ss` as a literal. */
  function Quotes(ss: seq<string>): (r: seq<string>)
    ensures |r| == |ss| && forall i :: 0 <= i < |ss| ==> r[i] == Quote(ss[i])
  {
    seq(|ss|, i requires 0 <= i < |ss| => Quote(ss[i]))
  }

  /** `JSON.stringify(ss)` for an array of strings. */
  function StringArray(ss: seq<string>): string {
    "[" + Join(Quotes(ss), ",") + "]"
  }

  /** Decoding the escapes a JSON parser understands in what `Escape` writes. */
  function Unescape(r: string): string {
    if r == [] then []
    else if r[0] != '\\' || |r| < 2 then [r[0]] + Unescape(r[1..])
    else if IsShortEscapeLetter(r[1]) then [ShortEscapeChar(r[1])] + Unescape(r[2..])
    else if |r| >= 6 && r[1..4] == "u00" && IsHexDigit(r[4]) && IsHexDigit(r[5]) then
      [(HexValue(r[4]) * 16 + HexValue(r[5])) as char] + Unescape(r[6..])
    else [r[0]] + Unescape(r[1..])
  }

  /** Parsing the literal back gives the original string. */
  lemma {:induction false} UnescapeEscape(s: string)
    ensures Unescape(Escape(s)) == s
  {
    if s != [] {
      UnescapeEscape(s[1..]);
      assert Escape(s) == EscapeChar(s[0]) + Escape(s[1..]);
      UnescapeChar(s[0], Escape(s[1..]));
    }
  }

  /** Decoding consumes exactly the escape of one character. */
  lemma UnescapeChar(c: char, rest: string)
    ensures Unescape(EscapeChar(c) + rest) == [c] + Unescape(rest)
  {
    var r := EscapeChar(c) + rest;
    if HasShortEscape(c) {
      assert r[0] == '\\' && r[1] == ShortEscapeLetter(c) && r[2..] == rest;
    } else if IsControl(c) {
      UnescapeControl(c, rest);
    } else {
      assert r[0] == c && r[1..] == rest;
    }
  }

  lemma UnescapeControl(c: char, rest: string)
    requires IsControl(c) && !HasShortEscape(c)
    ensures Unescape(EscapeChar(c) + rest) == [c] + Unescape(rest)
  {
    var hi, lo := c as int / 16, c as int % 16;
    var r := EscapeChar(c) + rest;
    assert r == ['\\', 'u', '0', '0', HexDigit(hi), HexDigit(lo)] + rest;
    assert r[1..4] == "u00";
    assert r[6..] == rest;
    HexRoundTrip(hi);
    HexRoundTrip(lo);
    assert (HexValue(r[4]) * 16 + HexValue(r[5])) as char == c;
  }

  lemma HexRoundTrip(d: nat)
    requires d < 16
    ensures HexValue(HexDigit(d)) == d
  {
  }

  /** Different strings give different literals. */
  lemma QuoteInjective(s: string, t: string)
    requires Quote(s) == Quote(t)
    ensures s == t
  {
    assert Escape(s) == Quote(s)[1..|Quote(s)| - 1];
    assert Escape(t) == Quote(t)[1..|Quote(t)| - 1];
    UnescapeEscape(s);
    UnescapeEscape(t);
  }

  // ---------------------------------------------------------------------------
  // Reading literals back, as a JSON or JavaScript parser does

  function Shift(k: Option<nat>, n: nat): Option<nat> {
    match k
    case None => None
    case Some(j) => Some(j + n)
  }

  /** Where the body of a string literal ends: the first `"` that is not the
      second character of an escape. A backslash always takes the character
      after it; the four digits of a `\u` escape are never quotes. */
  function ClosingQuote(r: string): (k: Option<nat>)
    ensures k.Some? ==> k.value < |r| && r[k.value] == '"'
  {
    if r == [] then None
    else if r[0] == '"' then Some(0)
    else
      var n := if r[0] == '\\' && |r| >= 2 then 2 else 1;
      var k := ClosingQuote(r[n..]);
      Shift(k, n)
  }

  /** Scanning an escaped body skips all of it: the escape contains no quote
      of its own, so the literal ends exactly where the body does. */
  lemma {:induction false} ScanEscaped(s: string, rest: string)
    ensures ClosingQuote(Escape(s) + rest) == Shift(ClosingQuote(rest), |Escape(s)|)
  {
    if s != [] {
      var e, tail := EscapeChar(s[0]), Escape(s[1..]);
      assert Escape(s) + rest == e + (tail + rest);
      assert Escape(s) == e + tail;
      ScanEscaped(s[1..], rest);
      ScanChar(s[0], tail + rest);
      ShiftShift(ClosingQuote(rest), |tail|, |e|);
    } else {
      assert Escape(s) + rest == rest;
      ShiftShift(ClosingQuote(rest), 0, 0);
    }
  }

  lemma ShiftShift(k: Option<nat>, a: nat, b: nat)
    ensures Shift(Shift(k, a), b) == Shift(k, a + b)
    ensures Shift(k, 0) == k
  {
  }

  /** A character that is neither a quote nor a backslash is skipped alone. */
  lemma ScanPlain(c: char, rest: string)
    requires c != '"' && c != '\\'
    ensures ClosingQuote([c] + rest) == Shift(ClosingQuote(rest), 1)
  {
    assert ([c] + rest)[1..] == rest;
  }

  lemma ScanChar(c: char, rest: string)
    ensures ClosingQuote(EscapeChar(c) + rest) == Shift(ClosingQuote(rest), |EscapeChar(c)|)
  {
    if HasShortEscape(c) {
      var r := EscapeChar(c) + rest;
      assert r[2..] == rest;
    } else if IsControl(c) {
      ScanControl(c, rest);
    } else {
      ScanPlain(c, rest);
    }
  }

  lemma ScanControl(c: char, rest: string)
    requires IsControl(c) && !HasShortEscape(c)
    ensures ClosingQuote(EscapeChar(c) + rest) == Shift(ClosingQuote(rest), 6)
  {
    var hi, lo := HexDigit(c as int / 16), HexDigit(c as int % 16);
    assert EscapeChar(c) == "\\u00" + [hi, lo];
    ScanUnicodeEscape(hi, lo, rest);
  }

  /** A `\u00XY` escape is skipped whole. */
  lemma ScanUnicodeEscape(hi: char, lo: char, rest: string)
    requires IsHexDigit(hi) && IsHexDigit(lo)
    ensures ClosingQuote("\\u00" + [hi, lo] + rest) == Shift(ClosingQuote(rest), 6)
  {
    var digits := ['0', '0', hi, lo];
    var r := "\\u00" + [hi, lo] + rest;
    assert r[0] == '\\' && r[2..] == digits + rest;
    ScanPlainRun(digits, rest);
    ShiftShift(ClosingQuote(rest), 4, 2);
  }

  /** Characters that are neither quotes nor backslashes are skipped one by one. */
  lemma {:induction false} ScanPlainRun(t: string, rest: string)
    requires forall i :: 0 <= i < |t| ==> t[i] != '"' && t[i] != '\\'
    ensures ClosingQuote(t + rest) == Shift(ClosingQuote(rest), |t|)
  {
    if t == [] {
      assert t + rest == rest;
      ShiftShift(ClosingQuote(rest), 0, 0);
    } else {
      assert t + rest == [t[0]] + (t[1..] + rest);
      ScanPlainRun(t[1..], rest);
      ScanPlain(t[0], t[1..] + rest);
      ShiftShift(ClosingQuote(rest), |t| - 1, 1);
    }
  }

  /** An escaped body holds no quote that would end the literal early: alone
      it never ends, and followed by the closing quote it ends exactly there. */
  lemma EscapedBodyEndsAtQuote(s: string)
    ensures ClosingQuote(Escape(s)) == None
    ensures ClosingQuote(Escape(s) + "\"") == Some(|Escape(s)|)
  {
    assert Escape(s) + [] == Escape(s);
    ScanEscaped(s, []);
    ScanEscaped(s, "\"");
  }

  /** The literal `Quote(s)` followed by anything: its body ends at its
      closing quote, and that body reads back as `s`. */
  lemma QuoteEnds(s: string, rest: string)
    ensures ClosingQuote((Quote(s) + rest)[1..]) == Some(|Escape(s)|)
    ensures Unescape((Quote(s) + rest)[1..|Escape(s)| + 1]) == s
    ensures (Quote(s) + rest)[|Escape(s)| + 2..] == rest
  {
    var e := Escape(s);
    assert (Quote(s) + rest)[1..] == e + ("\"" + rest);
    ScanEscaped(s, "\"" + rest);
    assert (Quote(s) + rest)[1..|e| + 1] == e;
    UnescapeEscape(s);
  }

  /** Reads a JSON array of strings: `[`, then nothing or one or more string
      literals separated by commas, then `]`. */
  function ReadStringArray(r: string): Option<seq<string>> {
    if |r| >= 2 && r[0] == '[' && r[|r| - 1] == ']' then
      var body := r[1..|r| - 1];
      if body == [] then Some([]) else ReadItems(body)
    else None
  }

  /** One or more string literals separated by commas, filling all of `r`. */
  function ReadItems(r: string): Option<seq<string>>
    decreases |r|
  {
    if r == [] || r[0] != '"' then None
    else match ClosingQuote(r[1..])
      case None => None
      case Some(k) =>
        var item, rest := Unescape(r[1..k + 1]), r[k + 2..];
        if rest == [] then Some([item])
        else if rest[0] != ',' then None
        else match ReadItems(rest[1..])
          case None => None
          case Some(items) => Some([item] + items)
  }

  /** A single literal reads back as its string. */
  lemma ReadOne(x: string)
    ensures ReadItems(Quote(x)) == Some([x])
  {
    QuoteEnds(x, []);
    assert Quote(x) + [] == Quote(x);
  }

  /** A literal, a comma and more literals read back as the string followed by
      what the rest reads as. */
  lemma ReadCons(x: string, more: string)
    ensures ReadItems(Quote(x) + ("," + more)) ==
            match ReadItems(more) case None => None case Some(items) => Some([x] + items)
  {
    QuoteEnds(x, "," + more);
    assert ("," + more)[1..] == more;
  }

  /** Reading the joined literals gives back the strings. */
  lemma {:induction false} ReadItemsJoin(ss: seq<string>)
    requires |ss| > 0
    ensures ReadItems(Join(Quotes(ss), ",")) == Some(ss)
  {
    var q := Quotes(ss);
    if |ss| == 1 {
      assert Join(q, ",") == Quote(ss[0]);
      ReadOne(ss[0]);
      assert ss == [ss[0]];
    } else {
      var more := Join(Quotes(ss[1..]), ",");
      assert q[1..] == Quotes(ss[1..]);
      assert Join(q, ",") == Quote(ss[0]) + ("," + more);
      ReadCons(ss[0], more);
      ReadItemsJoin(ss[1..]);
      assert ss == [ss[0]] + ss[1..];
    }
  }

  /** Parsing what `JSON.stringify` writes for an array of strings gives back
      the array: the same strings, in the same order. */
  lemma ReadStringArrayRoundTrip(ss: seq<string>)
    ensures ReadStringArray(StringArray(ss)) == Some(ss)
  {
    var r := StringArray(ss);
    assert r[1..|r| - 1] == Join(Quotes(ss), ",");
    if ss != [] {
      ReadItemsJoin(ss);
    }
  }
}

=== FILE: tabs_builder.dfy ===
/** The tab list editor of components/TabsBuilder.tsx: the component's state
    (the list of tabs, the selected tab's id and the generated code), the
    handlers that change it, the lookup of the selected tab, and the
    component's own HTML generator, which differs from lib/generateHTML.ts in
    what it escapes. */
module TabsBuilder {
  import opened Wrappers
  import opened Text
  import HtmlEscape
  import opened TabsHtml

  // ---------------------------------------------------------------------------
  // Lists of tabs

  const MaxTabs: nat := 15
  const MaxTabsAlert: string := "Maximum 15 tabs allowed"
  const MinTabsAlert: string := "Must have at least one tab"

  const InitialContent: string := "Step 2:\n1. Install VSCode\n2. Install Chrome\n3. Install Node\n4. etc"

  /** The tabs the editor starts with. */
  const InitialTabs: seq<Tab> :=
    [Tab("1", "Step 1", InitialContent), Tab("2", "Step 2", ""), Tab("3", "Step 3", "")]

  /** Some tab of the list has this id. */
  predicate Names(tabs: seq<Tab>, id: string) {
    exists i :: 0 <= i < |tabs| && tabs[i].id == id
  }

  /** No two tabs share an id. */
  predicate DistinctIds(tabs: seq<Tab>) {
    forall i, j :: 0 <= i < j < |tabs| ==> tabs[i].id != tabs[j].id
  }

  /** The number of tabs with this id. */
  function CountId(tabs: seq<Tab>, id: string): nat {
    if tabs == [] then 0 else (if tabs[0].id == id then 1 else 0) + CountId(tabs[1..], id)
  }

  /** The tab `addTab` appends: its id is the clock reading in decimal and its
      header numbers it after the tabs already there. */
  function NewTab(tabs: seq<Tab>, now: nat): Tab {
    Tab(Decimal(now), "Tab " + Decimal(|tabs| + 1), "")
  }

  /** The list after `addTab` at clock reading `now` (milliseconds). */
  function AfterAdd(tabs: seq<Tab>, now: nat): (r: seq<Tab>)
    ensures |tabs| >= MaxTabs ==> r == tabs
    ensures |tabs| < MaxTabs ==> |r| == |tabs| + 1 && r[..|tabs|] == tabs
  {
    if |tabs| >= MaxTabs then tabs else tabs + [NewTab(tabs, now)]
  }

  /** Below the limit the appended tab carries the clock reading as its id,
      the new length as the number in its header, and no content. */
  lemma AddedTab(tabs: seq<Tab>, now: nat)
    requires |tabs| < MaxTabs
    ensures var t := AfterAdd(tabs, now)[|tabs|];
            DigitsValue(t.id) == now && t.header[..4] == "Tab "
            && DigitsValue(t.header[4..]) == |tabs| + 1 && t.content == ""
  {
    var t := NewTab(tabs, now);
    assert AfterAdd(tabs, now)[|tabs|] == t;
    DecimalRoundTrip(now);
    DecimalRoundTrip(|tabs| + 1);
    assert t.header[4..] == Decimal(|tabs| + 1);
  }

  /** The list after `addTab` at each clock reading in turn. */
  function AddEach(tabs: seq<Tab>, nows: seq<nat>): seq<Tab>
    decreases |nows|
  {
    if nows == [] then tabs else AddEach(AfterAdd(tabs, nows[0]), nows[1..])
  }

  /** However often `addTab` runs, a list within the limit grows to at most
      15 tabs: each press adds one tab until the limit is reached. */
  lemma {:induction false} AddsStopAtLimit(tabs: seq<Tab>, nows: seq<nat>)
    requires |tabs| <= MaxTabs
    decreases |nows|
    ensures |AddEach(tabs, nows)| == if |tabs| + |nows| <= MaxTabs then |tabs| + |nows| else MaxTabs
  {
    if nows != [] {
      AddsStopAtLimit(AfterAdd(tabs, nows[0]), nows[1..]);
    }
  }

  /** `tabs.filter(tab => tab.id !== id)`. */
  function Without(tabs: seq<Tab>, id: string): (r: seq<Tab>)
    ensures |r| + CountId(tabs, id) == |tabs|
    ensures forall t :: t in r ==> t in tabs && t.id != id
    ensures forall t :: t in tabs && t.id != id ==> t in r
    ensures CountId(tabs, id) == 0 ==> r == tabs
  {
    if tabs == [] then []
    else (if tabs[0].id == id then [] else [tabs[0]]) + Without(tabs[1..], id)
  }

  /** Filtering keeps the order of the tabs it keeps: it works on each part
      of a list separately. */
  lemma {:induction false} WithoutConcat(a: seq<Tab>, b: seq<Tab>, id: string)
    ensures Without(a + b, id) == Without(a, id) + Without(b, id)
  {
    if a == [] {
      assert a + b == b;
    } else {
      SplitFirst(a, b);
      WithoutConcat(a[1..], b, id);
      WithoutCons(a[0], a[1..] + b, id);
      WithoutCons(a[0], a[1..], id);
      AppendAssoc(Without([a[0]], id), Without(a[1..], id), Without(b, id));
    }
  }

  lemma WithoutCons(t: Tab, u: seq<Tab>, id: string)
    ensures Without([t] + u, id) == Without([t], id) + Without(u, id)
  {
    assert ([t] + u)[1..] == u;
    assert [t][1..] == [];
  }

  lemma NamesCons(tabs: seq<Tab>, id: string)
    requires tabs != []
    ensures Names(tabs, id) <==> tabs[0].id == id || Names(tabs[1..], id)
  {
    if Names(tabs, id) && tabs[0].id != id {
      var i :| 0 <= i < |tabs| && tabs[i].id == id;
      assert tabs[1..][i - 1] == tabs[i];
    }
    if Names(tabs[1..], id) {
      var i :| 0 <= i < |tabs[1..]| && tabs[1..][i].id == id;
      assert tabs[i + 1] == tabs[1..][i];
    }
  }

  lemma NamesAppend(tabs: seq<Tab>, t: Tab, id: string)
    ensures Names(tabs + [t], id) <==> Names(tabs, id) || t.id == id
  {
    if Names(tabs, id) {
      var i :| 0 <= i < |tabs| && tabs[i].id == id;
      assert (tabs + [t])[i] == tabs[i];
    }
    if Names(tabs + [t], id) && t.id != id {
      var i :| 0 <= i < |tabs + [t]| && (tabs + [t])[i].id == id;
      assert (tabs + [t])[i] == tabs[i];
    }
    assert (tabs + [t])[|tabs|] == t;
  }

  /** The tail of a list without duplicates has none and does not have the
      head's id. */
  lemma DistinctRest(tabs: seq<Tab>)
    requires tabs != [] && DistinctIds(tabs)
    ensures DistinctIds(tabs[1..]) && !Names(tabs[1..], tabs[0].id)
  {
    var rest := tabs[1..];
    forall i, j | 0 <= i < j < |rest| ensures rest[i].id != rest[j].id {
      assert rest[i] == tabs[i + 1] && rest[j] == tabs[j + 1];
    }
    forall k | 0 <= k < |rest| ensures rest[k].id != tabs[0].id {
      assert rest[k] == tabs[k + 1];
    }
  }

  lemma DistinctPrepend(t: Tab, rest: seq<Tab>)
    requires DistinctIds(rest) && !Names(rest, t.id)
    ensures DistinctIds([t] + rest)
  {
    var r := [t] + rest;
    forall i, j | 0 <= i < j < |r| ensures r[i].id != r[j].id {
      assert r[j] == rest[j - 1];
      if i > 0 {
        assert r[i] == rest[i - 1];
      }
    }
  }

  lemma DistinctAppend(tabs: seq<Tab>, t: Tab)
    requires DistinctIds(tabs) && !Names(tabs, t.id)
    ensures DistinctIds(tabs + [t])
  {
    var r := tabs + [t];
    forall i, j | 0 <= i < j < |r| ensures r[i].id != r[j].id {
      assert r[i] == tabs[i];
      if j < |tabs| {
        assert r[j] == tabs[j];
      }
    }
  }

  /** A filtered list names only ids the list names. */
  lemma NamesWithout(tabs: seq<Tab>, id: string, x: string)
    ensures Names(Without(tabs, id), x) ==> Names(tabs, x)
  {
    var w := Without(tabs, id);
    if Names(w, x) {
      var k :| 0 <= k < |w| && w[k].id == x;
      assert w[k] in w;
      var j :| 0 <= j < |tabs| && tabs[j] == w[k];
    }
  }

  /** Without duplicates an id occurs once if some tab has it and not at all
      otherwise. */
  lemma {:induction false} CountDistinct(tabs: seq<Tab>, id: string)
    requires DistinctIds(tabs)
    ensures CountId(tabs, id) == if Names(tabs, id) then 1 else 0
  {
    if tabs != [] {
      DistinctRest(tabs);
      CountDistinct(tabs[1..], id);
      NamesCons(tabs, id);
    }
  }

  /** Filtering a list without duplicates leaves one without duplicates. */
  lemma {:induction false} WithoutDistinct(tabs: seq<Tab>, id: string)
    requires DistinctIds(tabs)
    ensures DistinctIds(Without(tabs, id))
  {
    if tabs != [] {
      var rest := tabs[1..];
      DistinctRest(tabs);
      WithoutDistinct(rest, id);
      if tabs[0].id != id {
        NamesWithout(rest, id, tabs[0].id);
        DistinctPrepend(tabs[0], Without(rest, id));
      }
    }
  }

  /** The list after `removeTab(id)`: unchanged when only one tab is left,
      otherwise every tab with that id is removed. */
  function AfterRemove(tabs: seq<Tab>, id: string): seq<Tab> {
    if |tabs| <= 1 then tabs else Without(tabs, id)
  }

  /** The selection after `removeTab(id)`: when the selected tab was removed
      and some tab is left, the first remaining tab. */
  function SelectionAfterRemove(tabs: seq<Tab>, selected: string, id: string): (r: string)
    ensures selected != id ==> r == selected
  {
    if |tabs| <= 1 then selected
    else
      var rest := Without(tabs, id);
      if selected == id && |rest| > 0 then rest[0].id else selected
  }

  /** With distinct ids, removing never empties the list, and removing a
      present id from two or more tabs drops exactly one tab. */
  lemma RemoveKeepsOne(tabs: seq<Tab>, id: string)
    requires DistinctIds(tabs) && |tabs| >= 1
    ensures |AfterRemove(tabs, id)| >= 1
    ensures |tabs| >= 2 && Names(tabs, id) ==> |AfterRemove(tabs, id)| == |tabs| - 1
    ensures !Names(tabs, id) ==> AfterRemove(tabs, id) == tabs
  {
    CountDistinct(tabs, id);
  }

  /** With distinct ids, a selection naming a tab still names one after a
      removal. */
  lemma RemoveRepairsSelection(tabs: seq<Tab>, selected: string, id: string)
    requires DistinctIds(tabs) && Names(tabs, selected)
    ensures Names(AfterRemove(tabs, id), SelectionAfterRemove(tabs, selected, id))
  {
    if |tabs| > 1 {
      var rest := Without(tabs, id);
      CountDistinct(tabs, id);
      if selected == id {
        assert rest[0].id == SelectionAfterRemove(tabs, selected, id);
      } else {
        var i :| 0 <= i < |tabs| && tabs[i].id == selected;
        assert tabs[i] in rest;
        var k :| 0 <= k < |rest| && rest[k] == tabs[i];
      }
    }
  }

  /** Ids taken from the clock can collide. Two tabs sharing an id are both
      removed, and the list is left empty despite the one-tab minimum. */
  lemma SharedIdEmptiesList()
    ensures AfterRemove([Tab("7", "Tab 1", ""), Tab("7", "Tab 2", "")], "7") == []
  {
    var tabs := [Tab("7", "Tab 1", ""), Tab("7", "Tab 2", "")];
    assert tabs[1..][1..] == [];
  }

  /** `tabs.map(tab => tab.id === id ? { ...tab, header } : tab)`. */
  function WithHeader(tabs: seq<Tab>, id: string, header: string): (r: seq<Tab>)
    ensures |r| == |tabs|
    ensures forall i :: 0 <= i < |tabs| ==>
              r[i].id == tabs[i].id && r[i].content == tabs[i].content
              && r[i].header == (if tabs[i].id == id then header else tabs[i].header)
  {
    seq(|tabs|, i requires 0 <= i < |tabs| => if tabs[i].id == id then tabs[i].(header := header) else tabs[i])
  }

  /** `tabs.map(tab => tab.id === id ? { ...tab, content } : tab)`. */
  function WithContent(tabs: seq<Tab>, id: string, content: string): (r: seq<Tab>)
    ensures |r| == |tabs|
    ensures forall i :: 0 <= i < |tabs| ==>
              r[i].id == tabs[i].id && r[i].header == tabs[i].header
              && r[i].content == (if tabs[i].id == id then content else tabs[i].content)
  {
    seq(|tabs|, i requires 0 <= i < |tabs| => if tabs[i].id == id then tabs[i].(content := content) else tabs[i])
  }

  /** Setting the same header twice is the same as setting it once. */
  lemma HeaderUpdateIdempotent(tabs: seq<Tab>, id: string, header: string)
    ensures WithHeader(WithHeader(tabs, id, header), id, header) == WithHeader(tabs, id, header)
  {
    var once := WithHeader(tabs, id, header);
    var twice := WithHeader(once, id, header);
    forall i | 0 <= i < |tabs| ensures twice[i] == once[i] {
    }
  }

  /** Header and content edits touch different fields and commute. */
  lemma UpdatesCommute(tabs: seq<Tab>, a: string, header: string, b: string, content: string)
    ensures WithContent(WithHeader(tabs, a, header), b, content)
            == WithHeader(WithContent(tabs, b, content), a, header)
  {
    var x := WithContent(WithHeader(tabs, a, header), b, content);
    var y := WithHeader(WithContent(tabs, b, content), a, header);
    forall i | 0 <= i < |tabs| ensures x[i] == y[i] {
    }
  }

  /** Updates keep the ids, so they keep them distinct and keep every id
      naming a tab. */
  lemma UpdatesKeepIds(tabs: seq<Tab>, id: string, header: string, content: string, name: string)
    ensures DistinctIds(WithHeader(tabs, id, header)) == DistinctIds(tabs)
    ensures DistinctIds(WithContent(tabs, id, content)) == DistinctIds(tabs)
    ensures Names(WithHeader(tabs, id, header), name) == Names(tabs, name)
    ensures Names(WithContent(tabs, id, content), name) == Names(tabs, name)
  {
    var h, c := WithHeader(tabs, id, header), WithContent(tabs, id, content);
    if Names(tabs, name) {
      var i :| 0 <= i < |tabs| && tabs[i].id == name;
      assert h[i].id == name && c[i].id == name;
    }
    if Names(h, name) {
      var i :| 0 <= i < |h| && h[i].id == name;
      assert tabs[i].id == name;
    }
    if Names(c, name) {
      var i :| 0 <= i < |c| && c[i].id == name;
      assert tabs[i].id == name;
    }
  }

  /** `tabs.find(tab => tab.id === id)`. */
  function Find(tabs: seq<Tab>, id: string): (r: Option<Tab>)
    ensures r.Some? <==> Names(tabs, id)
    ensures r.Some? ==> r.value.id == id && r.value in tabs
  {
    if tabs == [] then None
    else if tabs[0].id == id then Some(tabs[0])
    else
      NamesCons(tabs, id);
      Find(tabs[1..], id)
  }

  /** The lookup finds the first tab with the id. */
  lemma {:induction false} FindIsFirst(tabs: seq<Tab>, id: string, k: nat)
    requires k < |tabs| && tabs[k].id == id
    requires forall j :: 0 <= j < k ==> tabs[j].id != id
    ensures Find(tabs, id) == Some(tabs[k])
  {
    if k > 0 {
      FindIsFirst(tabs[1..], id, k - 1);
    }
  }

  /** After a header edit the lookup of that id finds the same tab with the
      new header. */
  lemma {:induction false} FindAfterHeaderEdit(tabs: seq<Tab>, id: string, header: string)
    ensures Find(WithHeader(tabs, id, header), id)
            == if Names(tabs, id) then Some(Find(tabs, id).value.(header := header)) else None
  {
    if tabs != [] {
      var h := WithHeader(tabs, id, header);
      assert h[1..] == WithHeader(tabs[1..], id, header);
      FindAfterHeaderEdit(tabs[1..], id, header);
    }
  }

  /** After a content edit the lookup of that id finds the same tab with the
      new content. */
  lemma {:induction false} FindAfterContentEdit(tabs: seq<Tab>, id: string, content: string)
    ensures Find(WithContent(tabs, id, content), id)
            == if Names(tabs, id) then Some(Find(tabs, id).value.(content := content)) else None
  {
    if tabs != [] {
      var c := WithContent(tabs, id, content);
      assert c[1..] == WithContent(tabs[1..], id, content);
      FindAfterContentEdit(tabs[1..], id, content);
    }
  }

  // ---------------------------------------------------------------------------
  // The component's state and handlers (components/TabsBuilder.tsx:12-80)

  /** The state of one `TabsBuilder` component. */
  class Editor {
    var tabs: seq<Tab>
    var selectedTabId: string
    var outputCode: string

    /** Between one and 15 tabs, no two with the same id, and the selection
        naming one of them. */
    predicate Consistent()
      reads this
    {
      1 <= |tabs| <= MaxTabs && DistinctIds(tabs) && Names(tabs, selectedTabId)
    }

    /** The tab whose content the editor shows: `selectedTab`. */
    function SelectedTab(): (r: Option<Tab>)
      reads this
      ensures Consistent() ==> r.Some? && r.value.id == selectedTabId
    {
      Find(tabs, selectedTabId)
    }

    constructor()
      ensures tabs == InitialTabs && selectedTabId == "1" && outputCode == ""
      ensures Consistent()
    {
      tabs := InitialTabs;
      selectedTabId := "1";
      outputCode := "";
      assert InitialTabs[0].id == "1";
    }

    /** `addTab`, with the clock reading `now` that becomes the new tab's id;
        an id the list does not have yet keeps the state consistent. */
    method AddTab(now: nat) returns (alert: Option<string>)
      modifies this
      ensures tabs == AfterAdd(old(tabs), now)
      ensures selectedTabId == old(selectedTabId) && outputCode == old(outputCode)
      ensures alert == if |old(tabs)| >= MaxTabs then Some(MaxTabsAlert) else None
      ensures old(Consistent()) && !Names(old(tabs), Decimal(now)) ==> Consistent()
    {
      if |tabs| >= MaxTabs {
        return Some(MaxTabsAlert);
      }
      ghost var before := tabs;
      tabs := tabs + [NewTab(tabs, now)];
      alert := None;
      if old(Consistent()) && !Names(before, Decimal(now)) {
        DistinctAppend(before, NewTab(before, now));
        NamesAppend(before, NewTab(before, now), selectedTabId);
      }
    }

    /** `removeTab(id)`. */
    method RemoveTab(id: string) returns (alert: Option<string>)
      modifies this
      ensures tabs == AfterRemove(old(tabs), id)
      ensures selectedTabId == SelectionAfterRemove(old(tabs), old(selectedTabId), id)
      ensures outputCode == old(outputCode)
      ensures alert == if |old(tabs)| <= 1 then Some(MinTabsAlert) else None
      ensures old(Consistent()) ==> Consistent()
    {
      if |tabs| <= 1 {
        return Some(MinTabsAlert);
      }
      ghost var before, selected := tabs, selectedTabId;
      var newTabs := Without(tabs, id);
      tabs := newTabs;
      if selectedTabId == id && |newTabs| > 0 {
        selectedTabId := newTabs[0].id;
      }
      alert := None;
      if old(Consistent()) {
        RemoveKeepsOne(before, id);
        RemoveRepairsSelection(before, selected, id);
        WithoutDistinct(before, id);
      }
    }

    /** `updateTabHeader(id, header)`. */
    method UpdateTabHeader(id: string, header: string)
      modifies this
      ensures tabs == WithHeader(old(tabs), id, header)
      ensures selectedTabId == old(selectedTabId) && outputCode == old(outputCode)
      ensures old(Consistent()) ==> Consistent()
    {
      UpdatesKeepIds(tabs, id, header, "", selectedTabId);
      tabs := WithHeader(tabs, id, header);
    }

    /** `updateTabContent(id, content)`. */
    method UpdateTabContent(id: string, content: string)
      modifies this
      ensures tabs == WithContent(old(tabs), id, content)
      ensures selectedTabId == old(selectedTabId) && outputCode == old(outputCode)
      ensures old(Consistent()) ==> Consistent()
    {
      UpdatesKeepIds(tabs, id, "", content, selectedTabId);
      tabs := WithContent(tabs, id, content);
    }

    /** Clicking a tab's header field selects it. */
    method SelectTab(id: string)
      modifies this
      ensures selectedTabId == id
      ensures tabs == old(tabs) && outputCode == old(outputCode)
      ensures old(Consistent()) && Names(tabs, id) ==> Consistent()
    {
      selectedTabId := id;
    }

    /** `generateOutput`: the output shows the local generator's page for
        the current tabs. */
    method GenerateOutput()
      modifies this
      ensures outputCode == LocalTabsHtml(tabs)
      ensures tabs == old(tabs) && selectedTabId == old(selectedTabId)
    {
      outputCode := LocalTabsHtml(tabs);
    }
  }

  // ---------------------------------------------------------------------------
  // The component's own generator (components/TabsBuilder.tsx:157-208)

  /** `s.replace(/</g, '&lt;').replace(/>/g, '&gt;')`: only angle brackets
      are escaped. */
  function EscapeAngles(s: string): (r: string)
    ensures '<' !in r && '>' !in r
  {
    var once := HtmlEscape.ReplaceAll(s, '<', "&lt;");
    HtmlEscape.ReplaceAllChars(s, '<', "&lt;", '<');
    HtmlEscape.ReplaceAllChars(once, '>', "&gt;", '<');
    HtmlEscape.ReplaceAllChars(once, '>', "&gt;", '>');
    HtmlEscape.ReplaceAll(once, '>', "&gt;")
  }

  /** Text without angle brackets is copied unchanged, ampersands and quotes
      included. */
  lemma EscapeAnglesKeepsRest(s: string)
    requires '<' !in s && '>' !in s
    ensures EscapeAngles(s) == s
  {
    HtmlEscape.ReplaceAllMissing(s, '<', "&lt;");
    HtmlEscape.ReplaceAllMissing(s, '>', "&gt;");
  }

  /** Unlike the escaping of lib/generateHTML.ts this one loses information:
      a bracket and the text of its entity give the same output. */
  lemma EscapeAnglesNotInjective()
    ensures EscapeAngles("<") == EscapeAngles("&lt;") && "<" != "&lt;"
  {
    HtmlEscape.ReplaceAllSingle('<', '<', "&lt;");
    HtmlEscape.ReplaceAllMissing("&lt;", '<', "&lt;");
    HtmlEscape.ReplaceAllMissing("&lt;", '>', "&gt;");
  }

  /** The fixed text of the component's template, cut where values are
      inserted, and the style values of the first and the other tabs; as in
      `Template`, `head` follows the doctype and `tail` precedes `</html>`. */
  datatype Layout = Layout(
    head: string, headersToContents: string, contentsToScript: string,
    afterCurrentTab: string, tail: string,
    buttonOpen: string, buttonAfterOnclickId: string, buttonAfterId: string,
    buttonAfterBackground: string, buttonAfterBorder: string, buttonAfterWeight: string,
    buttonAfterColour: string, buttonClose: string,
    selected: ButtonStyle, unselected: ButtonStyle,
    divOpen: string, divAfterId: string, divAfterDisplay: string, divClose: string,
    shown: string, hidden: string,
    hideOpen: string, hideAfterContent: string, hideAfterBackground: string,
    hideAfterBorder: string, hideAfterWeight: string, hideClose: string, hideSeparator: string)

  const Local: Layout := Layout(
    LocalHead, LocalHeadersToContents, LocalContentsToScript, LocalScriptAfterCurrentTab, LocalScriptTail,
    LocalButtonOpen, LocalButtonAfterOnclickId, LocalButtonAfterId, LocalButtonAfterBackground,
    LocalButtonAfterBorder, LocalButtonAfterWeight, LocalButtonAfterColour, LocalButtonClose,
    ButtonStyle("white", "2px solid #2196F3", "bold", "#2196F3"),
    ButtonStyle("transparent", "none", "normal", "#666"),
    LocalDivOpen, LocalDivAfterId, LocalDivAfterDisplay, LocalDivClose,
    "block", "none",
    HideOpen, HideAfterContent, HideAfterBackground, HideAfterBorder, HideAfterWeight, HideClose,
    "\n            ")

  // A button block has 16 pieces, the raw header being piece 14; a panel
  // block has 8 pieces, the `display` value being piece 4 and the content
  // piece 6; a block of the script's hiding statements has 12 pieces.

  function LocalButtonBlock(l: Layout, tab: Tab, i: nat): (r: seq<string>)
    ensures |r| == 16 && r[14] == tab.header
  {
    var st := if i == 0 then l.selected else l.unselected;
    [Separator(i), l.buttonOpen, tab.id, l.buttonAfterOnclickId, tab.id, l.buttonAfterId,
     st.background, l.buttonAfterBackground, st.borderBottom, l.buttonAfterBorder,
     st.fontWeight, l.buttonAfterWeight, st.color, l.buttonAfterColour,
     tab.header, l.buttonClose]
  }

  function LocalPanelBlock(l: Layout, tab: Tab, i: nat): (r: seq<string>)
    ensures |r| == 8 && r[6] == EscapeAngles(tab.content)
    ensures r[4] == if i == 0 then l.shown else l.hidden
  {
    [Separator(i), l.divOpen, tab.id, l.divAfterId, if i == 0 then l.shown else l.hidden,
     l.divAfterDisplay, EscapeAngles(tab.content), l.divClose]
  }

  function HideBlock(l: Layout, tab: Tab, i: nat): (r: seq<string>)
    ensures |r| == 12
  {
    [if i == 0 then "" else l.hideSeparator, l.hideOpen, tab.id, l.hideAfterContent, tab.id,
     l.hideAfterBackground, tab.id, l.hideAfterBorder, tab.id, l.hideAfterWeight, tab.id, l.hideClose]
  }

  function LocalButtonPieces(l: Layout, tabs: seq<Tab>): (r: seq<string>)
    ensures |r| == |tabs| * 16
  {
    if |tabs| == 0 then []
    else LocalButtonPieces(l, tabs[..|tabs| - 1]) + LocalButtonBlock(l, tabs[|tabs| - 1], |tabs| - 1)
  }

  function LocalPanelPieces(l: Layout, tabs: seq<Tab>): (r: seq<string>)
    ensures |r| == |tabs| * 8
  {
    if |tabs| == 0 then []
    else LocalPanelPieces(l, tabs[..|tabs| - 1]) + LocalPanelBlock(l, tabs[|tabs| - 1], |tabs| - 1)
  }

  function HidePieces(l: Layout, tabs: seq<Tab>): (r: seq<string>)
    ensures |r| == |tabs| * 12
  {
    if |tabs| == 0 then []
    else HidePieces(l, tabs[..|tabs| - 1]) + HideBlock(l, tabs[|tabs| - 1], |tabs| - 1)
  }

  lemma {:induction false} LocalButtonPiecesAt(l: Layout, tabs: seq<Tab>, i: nat, c: nat)
    requires i < |tabs| && c < 16
    ensures LocalButtonPieces(l, tabs)[i * 16 + c] == LocalButtonBlock(l, tabs[i], i)[c]
  {
    var n := |tabs|;
    var front, last := LocalButtonPieces(l, tabs[..n - 1]), LocalButtonBlock(l, tabs[n - 1], n - 1);
    assert LocalButtonPieces(l, tabs) == front + last;
    if i < n - 1 {
      assert i * 16 + c < |front|;
      LocalButtonPiecesAt(l, tabs[..n - 1], i, c);
      assert tabs[..n - 1][i] == tabs[i];
    } else {
      assert i * 16 + c == |front| + c;
    }
  }

  lemma {:induction false} LocalPanelPiecesAt(l: Layout, tabs: seq<Tab>, i: nat, c: nat)
    requires i < |tabs| && c < 8
    ensures LocalPanelPieces(l, tabs)[i * 8 + c] == LocalPanelBlock(l, tabs[i], i)[c]
  {
    var n := |tabs|;
    var front, last := LocalPanelPieces(l, tabs[..n - 1]), LocalPanelBlock(l, tabs[n - 1], n - 1);
    assert LocalPanelPieces(l, tabs) == front + last;
    if i < n - 1 {
      assert i * 8 + c < |front|;
      LocalPanelPiecesAt(l, tabs[..n - 1], i, c);
      assert tabs[..n - 1][i] == tabs[i];
    } else {
      assert i * 8 + c == |front| + c;
    }
  }

  /** All pieces of the component's page, in order. */
  function LocalPieces(l: Layout, tabs: seq<Tab>): seq<string> {
    [Doctype, l.head] + LocalButtonPieces(l, tabs) + [l.headersToContents] + LocalPanelPieces(l, tabs)
    + [l.contentsToScript, FirstId(tabs), l.afterCurrentTab] + HidePieces(l, tabs) + [l.tail, HtmlClose]
  }

  function LocalDocument(l: Layout, tabs: seq<Tab>): string {
    Flatten(LocalPieces(l, tabs))
  }

  /** The component's `generateTabsHTML(tabs)`. Unlike the library's
      generator it has no fallback page for an empty list. */
  function LocalTabsHtml(tabs: seq<Tab>): string {
    LocalDocument(Local, tabs)
  }

  /** Index in `LocalPieces` of the first piece of tab `i`'s panel, for `n` tabs. */
  function LocalPanelIndex(n: nat, i: nat): nat {
    3 + n * 16 + i * 8
  }

  /** Index in `LocalPieces` of the `currentTab` value, for `n` tabs. */
  function CurrentTabIndex(n: nat): nat {
    4 + n * 24
  }

  /** Index in `LocalPieces` of tab `i`'s header. */
  function LocalHeaderIndex(i: nat): nat {
    2 + i * 16 + 14
  }

  lemma LocalHeaderPiece(l: Layout, tabs: seq<Tab>, i: nat)
    requires i < |tabs|
    ensures LocalHeaderIndex(i) < |LocalPieces(l, tabs)| && LocalPieces(l, tabs)[LocalHeaderIndex(i)] == tabs[i].header
  {
    LocalButtonPiecesAt(l, tabs, i, 14);
  }

  lemma LocalPanelPieceAt(l: Layout, tabs: seq<Tab>, i: nat, c: nat)
    requires i < |tabs| && c < 8
    ensures LocalPanelIndex(|tabs|, i) + c < |LocalPieces(l, tabs)|
    ensures LocalPieces(l, tabs)[LocalPanelIndex(|tabs|, i) + c] == LocalPanelBlock(l, tabs[i], i)[c]
  {
    LocalPanelPiecesAt(l, tabs, i, c);
  }

  /** Every header appears in the page as it is, markup included. */
  lemma LocalHeaderInDocument(l: Layout, tabs: seq<Tab>, i: nat)
    requires i < |tabs|
    ensures OccursAt(LocalDocument(l, tabs), tabs[i].header, Offset(LocalPieces(l, tabs), LocalHeaderIndex(i)))
  {
    LocalHeaderPiece(l, tabs, i);
    PieceOccurs(LocalPieces(l, tabs), LocalHeaderIndex(i), tabs[i].header);
  }

  /** Every content appears in its panel with only its angle brackets escaped. */
  lemma LocalContentInDocument(l: Layout, tabs: seq<Tab>, i: nat)
    requires i < |tabs|
    ensures OccursAt(LocalDocument(l, tabs), EscapeAngles(tabs[i].content),
                     Offset(LocalPieces(l, tabs), LocalPanelIndex(|tabs|, i) + 6))
  {
    LocalPanelPieceAt(l, tabs, i, 6);
    PieceOccurs(LocalPieces(l, tabs), LocalPanelIndex(|tabs|, i) + 6, EscapeAngles(tabs[i].content));
  }

  /** Panel `i` carries the shown `display` value if it is the first panel and
      the hidden one otherwise. */
  lemma LocalDisplayInDocument(l: Layout, tabs: seq<Tab>, i: nat)
    requires i < |tabs|
    ensures OccursAt(LocalDocument(l, tabs), if i == 0 then l.shown else l.hidden,
                     Offset(LocalPieces(l, tabs), LocalPanelIndex(|tabs|, i) + 4))
  {
    LocalPanelPieceAt(l, tabs, i, 4);
    PieceOccurs(LocalPieces(l, tabs), LocalPanelIndex(|tabs|, i) + 4, if i == 0 then l.shown else l.hidden);
  }

  /** Panel `i` carries the shown `display` value exactly when it is the first
      panel, as long as the two values start differently. */
  lemma LocalOnlyFirstShown(l: Layout, tabs: seq<Tab>, i: nat)
    requires i < |tabs|
    requires l.shown != [] && l.hidden != [] && l.shown[0] != l.hidden[0]
    ensures OccursAt(LocalDocument(l, tabs), l.shown, Offset(LocalPieces(l, tabs), LocalPanelIndex(|tabs|, i) + 4))
            <==> i == 0
  {
    LocalDisplayInDocument(l, tabs, i);
    if i != 0 {
      OccursExclusive(LocalDocument(l, tabs), l.shown, l.hidden, Offset(LocalPieces(l, tabs), LocalPanelIndex(|tabs|, i) + 4), 0);
    }
  }

  /** In the component's page exactly the first panel is displayed. */
  lemma LocalOnlyFirstPanelDisplayed(tabs: seq<Tab>, i: nat)
    requires i < |tabs|
    ensures OccursAt(LocalTabsHtml(tabs), "block", Offset(LocalPieces(Local, tabs), LocalPanelIndex(|tabs|, i) + 4))
            <==> i == 0
  {
    LocalOnlyFirstShown(Local, tabs, i);
  }

  /** The script's `currentTab` starts as the first tab's id, or as the empty
      string for an empty list. */
  lemma CurrentTabIsFirst(l: Layout, tabs: seq<Tab>)
    ensures OccursAt(LocalDocument(l, tabs), if tabs == [] then "" else tabs[0].id,
                     Offset(LocalPieces(l, tabs), CurrentTabIndex(|tabs|)))
  {
    var ps := LocalPieces(l, tabs);
    assert ps[CurrentTabIndex(|tabs|)] == FirstId(tabs);
    PieceOccurs(ps, CurrentTabIndex(|tabs|), FirstId(tabs));
  }

  /** The component's page is a complete HTML document, for every list. */
  lemma LocalIsDocument(tabs: seq<Tab>)
    ensures IsHtmlDocument(LocalTabsHtml(tabs))
  {
    FramedDocument(LocalPieces(Local, tabs));
  }

  // ---------------------------------------------------------------------------
  // The fixed text of the component's template, split at the places where
  // values are inserted. Line breaks and indentation are part of the text.

  const LocalHead: string :=
    "\n"
    + "<html " + "lang=\"en\">\n"
    + "<head>\n"
    + "    <meta " + "charset=\"UTF-8\">\n"
    + "    <meta " + "name=\"viewport\" " + "content=\"width=device-width, "
    + "initial-scale=1.0\">\n"
    + "    " + "<title>Generated " + "Tabs</title>\n"
    + "</head>\n"
    + "<body " + "style=\"font-family: " + "Arial, " + "sans-serif; " + "margin: " + "20px; "
    + "background-color: " + "#f5f5f5;\">\n"
    + "    <div " + "style=\"max-width: " + "800px; " + "margin: 0 " + "auto; "
    + "background-color: " + "white; " + "border-radius: " + "8px; " + "box-shadow: "
    + "0 2px 4px " + "rgba(0,0,0,0.1);\">\n"
    + "        " + "<!-- Tab " + "Headers -->\n"
    + "        " + "<div " + "style=\"display: " + "flex; " + "border-bottom: " + "2px solid "
    + "#e0e0e0; " + "background-color: " + "#fafafa; " + "border-radius: " + "8px 8px 0 "
    + "0; " + "overflow-x: " + "auto;\">\n"

  const LocalHeadersToContents: string :=
    "\n"
    + "        " + "</div>\n"
    + "        \n"
    + "        " + "<!-- Tab " + "Contents " + "-->\n"

  const LocalContentsToScript: string :=
    "\n"
    + "    </div>\n"
    + "\n"
    + "    " + "<script>\n"
    + "        var " + "currentTab " + "= '"

  const LocalScriptAfterCurrentTab: string :=
    "';\n"
    + "        \n"
    + "        " + "function " + "showTab(tabId) " + "{\n"
    + "            " + "// Hide all " + "tabs\n"
    + "            "

  const LocalScriptTail: string :=
    "\n"
    + "            \n"
    + "            " + "// Show " + "selected " + "tab\n"
    + "            " + "document.getElementById('tab-content-' " + "+ "
    + "tabId).style.display " + "= 'block';\n"
    + "            " + "document.getElementById('tab-btn-' " + "+ "
    + "tabId).style.backgroundColor " + "= 'white';\n"
    + "            " + "document.getElementById('tab-btn-' " + "+ "
    + "tabId).style.borderBottom " + "= '2px " + "solid " + "#2196F3';\n"
    + "            " + "document.getElementById('tab-btn-' " + "+ " + "tabId).style.fontWeight "
    + "= 'bold';\n"
    + "            " + "document.getElementById('tab-btn-' " + "+ " + "tabId).style.color "
    + "= " + "'#2196F3';\n"
    + "            \n"
    + "            " + "currentTab " + "= tabId;\n"
    + "        }\n"
    + "    " + "</script>\n"
    + "</body>\n"

  const LocalButtonOpen: string :=
    "            " + "<button \n"
    + "                " + "onclick=\"showTab('"

  const LocalButtonAfterOnclickId: string := "')\" \n" + "                " + "id=\"tab-btn-"

  const LocalButtonAfterId: string :=
    "\"\n"
    + "                " + "style=\"padding: " + "12px 24px; " + "background-color: "

  const LocalButtonAfterBackground: string := "; border: " + "none; " + "border-bottom: "

  const LocalButtonAfterBorder: string := "; cursor: pointer; font-weight: "

  const LocalButtonAfterWeight: string := "; color: "

  const LocalButtonAfterColour: string :=
    "; " + "transition: " + "all 0.3s " + "ease; " + "flex-shrink: " + "0;\"\n"
    + "                " + "onmouseover=\"this.style.backgroundColor='#f0f0f0'\" \n"
    + "                " + "onmouseout=\"if(this.id " + "!== " + "'tab-btn-' " + "+ "
    + "currentTab) " + "this.style.backgroundColor='transparent'\"\n"
    + "            " + ">"

  const LocalButtonClose: string := "</button>"

  const LocalDivOpen: string := "        " + "<div \n" + "            " + "id=\"tab-content-"

  const LocalDivAfterId: string :=
    "\" \n"
    + "            " + "style=\"padding: " + "20px; " + "display: "

  const LocalDivAfterDisplay: string :=
    "; " + "min-height: " + "200px; " + "white-space: " + "pre-wrap;\"\n"
    + "        >"

  const LocalDivClose: string := "</div>"

  const HideOpen: string := "document.getElementById('tab-content-"

  const HideAfterContent: string :=
    "').style.display " + "= 'none';\n"
    + "            " + "document.getElementById('tab-btn-"

  const HideAfterBackground: string :=
    "').style.backgroundColor " + "= " + "'transparent';\n"
    + "            " + "document.getElementById('tab-btn-"

  const HideAfterBorder: string :=
    "').style.borderBottom " + "= 'none';\n"
    + "            " + "document.getElementById('tab-btn-"

  const HideAfterWeight: string :=
    "').style.fontWeight " + "= 'normal';\n"
    + "            " + "document.getElementById('tab-btn-"

  const HideClose: string := "').style.color " + "= '#666';"
}

=== FILE: tabs_html.dfy ===
/** The tab page generator of lib/generateHTML.ts: it turns a list of tabs into a
    standalone HTML document (buttons, content panels, an inline script that
    switches tabs), falls back to a fixed page for an empty or missing list, and
    offers a shape validator and a header sanitiser. Everything here is a pure
    string function. */
module TabsHtml {
  import opened Wrappers
  import opened Text
  import HtmlEscape
  import Json

  /** A tab as the generator receives it. */
  datatype Tab = Tab(id: string, header: string, content: string)

  const NoTabsMessage: string := "No Tabs to Display"

  // ---------------------------------------------------------------------------
  // escapeHtml (lib/generateHTML.ts:127-136)

  /** One-pass escaping of the five special characters; the apostrophe becomes `&#039;`. */
  function EscapeHtml(text: string): (r: string)
    ensures forall i :: 0 <= i < |r| ==> !HtmlEscape.IsMarkup(r[i])
  {
    HtmlEscape.Escape(text, HtmlEscape.Padded)
  }

  /** The four guarantees of the escaper: no raw `<`, `>`, `"` or `'`; every `&`
      opens one of the five entities; plain text is copied unchanged; decoding
      the entities gives the input back. */
  lemma EscapeHtmlGuarantees(text: string)
    ensures forall i :: 0 <= i < |EscapeHtml(text)| ==> !HtmlEscape.IsMarkup(EscapeHtml(text)[i])
    ensures forall i :: 0 <= i < |EscapeHtml(text)| && EscapeHtml(text)[i] == '&' ==>
              HtmlEscape.StartsWithEntity(EscapeHtml(text)[i..], HtmlEscape.Padded)
    ensures (forall i :: 0 <= i < |text| ==> !HtmlEscape.IsSpecial(text[i])) ==> EscapeHtml(text) == text
    ensures HtmlEscape.Unescape(EscapeHtml(text), HtmlEscape.Padded) == text
  {
    HtmlEscape.AmpersandsBeginEntities(text, HtmlEscape.Padded);
    HtmlEscape.UnescapeEscape(text, HtmlEscape.Padded);
    if forall i :: 0 <= i < |text| ==> !HtmlEscape.IsSpecial(text[i]) {
      HtmlEscape.EscapePlain(text, HtmlEscape.Padded);
    }
  }

  // ---------------------------------------------------------------------------
  // generateTabsHTML and generateEmptyHTML (lib/generateHTML.ts:7-125)
  //
  // A template literal is modelled as the list of its pieces (fixed text and
  // interpolated values) that `Flatten` concatenates. A `map(...).join(sep)`
  // inside it contributes one block of pieces per tab, the block of every tab
  // but the first starting with the separator.

  /** The fixed page shown when there is nothing to render. */
  function EmptyHtml(): string {
    Flatten(EmptyPieces)
  }

  const EmptyPieces: seq<string> := [Doctype, EmptyBeforeMessage, NoTabsMessage, EmptyAfterMessage, HtmlClose]

  /** `generateTabsHTML(tabs)`; `None` stands for a missing (null or undefined) list. */
  function GenerateTabsHtml(tabs: Option<seq<Tab>>): string {
    if tabs.None? || |tabs.value| == 0 then EmptyHtml() else Document(Page, tabs.value)
  }

  /** The style values of a tab button that differ between the selected button
      and the others. */
  datatype ButtonStyle = ButtonStyle(background: string, borderBottom: string, fontWeight: string, color: string)

  /** The style values of a content panel that differ between the visible panel
      and the others. */
  datatype PanelStyle = PanelStyle(display: string, animation: string)

  /** The fixed text of the page template, cut at every place where a value is
      inserted, and the style values that depend on whether a tab is the first
      one. `head` is the text after the doctype and `tail` the text before the
      closing `</html>`. `Page` is the template of lib/generateHTML.ts. */
  datatype Template = Template(
    head: string, headersToContents: string, contentsToScript: string,
    afterCurrentTab: string, afterIdList: string, tail: string,
    buttonOpen: string, buttonAfterOnclickId: string, buttonAfterId: string,
    buttonAfterBackground: string, buttonAfterBorder: string, buttonAfterWeight: string,
    buttonAfterColour: string, buttonClose: string,
    selected: ButtonStyle, unselected: ButtonStyle,
    divOpen: string, divAfterId: string, divAfterDisplay: string, divAfterAnimation: string,
    divClose: string,
    shown: PanelStyle, hidden: PanelStyle)

  const Page: Template := Template(
    DocumentHead, HeadersToContents, ContentsToScript, ScriptAfterCurrentTab, ScriptAfterIdList, ScriptTail,
    ButtonOpen, ButtonAfterOnclickId, ButtonAfterId, ButtonAfterBackground, ButtonAfterBorder,
    ButtonAfterWeight, ButtonAfterColour, ButtonClose,
    ButtonStyle("white", "3px solid #4f46e5", "600", "#4f46e5"),
    ButtonStyle("transparent", "none", "400", "#6b7280"),
    DivOpen, DivAfterId, DivAfterDisplay, DivAfterAnimation, DivClose,
    PanelStyle("block", "fadeIn 0.3s ease-in"), PanelStyle("none", "none"))

  /** The separator `join('\n')` puts before the block of tab `i`. */
  function Separator(i: nat): string {
    if i == 0 then "" else "\n"
  }

  // A button block has 16 pieces, the escaped header being piece 14; a panel
  // block has 10 pieces, the `display` value being piece 4 and the escaped
  // content piece 8.

  /** The pieces of tab `i`'s button; the first tab's button is styled as selected. */
  function ButtonBlock(t: Template, tab: Tab, i: nat): (r: seq<string>)
    ensures |r| == 16 && r[14] == EscapeHtml(tab.header)
  {
    var st := if i == 0 then t.selected else t.unselected;
    [Separator(i), t.buttonOpen, tab.id, t.buttonAfterOnclickId, tab.id, t.buttonAfterId,
     st.background, t.buttonAfterBackground, st.borderBottom, t.buttonAfterBorder,
     st.fontWeight, t.buttonAfterWeight, st.color, t.buttonAfterColour,
     EscapeHtml(tab.header), t.buttonClose]
  }

  /** The pieces of tab `i`'s content panel; only the first panel uses the shown style. */
  function PanelBlock(t: Template, tab: Tab, i: nat): (r: seq<string>)
    ensures |r| == 10 && r[8] == EscapeHtml(tab.content)
    ensures r[4] == (if i == 0 then t.shown else t.hidden).display
  {
    var ps := if i == 0 then t.shown else t.hidden;
    [Separator(i), t.divOpen, tab.id, t.divAfterId, ps.display,
     t.divAfterDisplay, ps.animation, t.divAfterAnimation, EscapeHtml(tab.content), t.divClose]
  }

  /** The buttons, block after block. */
  function ButtonPieces(t: Template, tabs: seq<Tab>): (r: seq<string>)
    ensures |r| == |tabs| * 16
  {
    if |tabs| == 0 then []
    else ButtonPieces(t, tabs[..|tabs| - 1]) + ButtonBlock(t, tabs[|tabs| - 1], |tabs| - 1)
  }

  /** The content panels, block after block. */
  function PanelPieces(t: Template, tabs: seq<Tab>): (r: seq<string>)
    ensures |r| == |tabs| * 10
  {
    if |tabs| == 0 then []
    else PanelPieces(t, tabs[..|tabs| - 1]) + PanelBlock(t, tabs[|tabs| - 1], |tabs| - 1)
  }

  lemma {:induction false} ButtonPiecesAt(t: Template, tabs: seq<Tab>, i: nat, c: nat)
    requires i < |tabs| && c < 16
    ensures ButtonPieces(t, tabs)[i * 16 + c] == ButtonBlock(t, tabs[i], i)[c]
  {
    var n := |tabs|;
    var front, last := ButtonPieces(t, tabs[..n - 1]), ButtonBlock(t, tabs[n - 1], n - 1);
    assert ButtonPieces(t, tabs) == front + last;
    if i < n - 1 {
      assert i * 16 + c < |front|;
      ButtonPiecesAt(t, tabs[..n - 1], i, c);
      assert tabs[..n - 1][i] == tabs[i];
    } else {
      assert i * 16 + c == |front| + c;
    }
  }

  lemma {:induction false} PanelPiecesAt(t: Template, tabs: seq<Tab>, i: nat, c: nat)
    requires i < |tabs| && c < 10
    ensures PanelPieces(t, tabs)[i * 10 + c] == PanelBlock(t, tabs[i], i)[c]
  {
    var n := |tabs|;
    var front, last := PanelPieces(t, tabs[..n - 1]), PanelBlock(t, tabs[n - 1], n - 1);
    assert PanelPieces(t, tabs) == front + last;
    if i < n - 1 {
      assert i * 10 + c < |front|;
      PanelPiecesAt(t, tabs[..n - 1], i, c);
      assert tabs[..n - 1][i] == tabs[i];
    } else {
      assert i * 10 + c == |front| + c;
    }
  }

  /** `tabs[0]?.id || ''`. */
  function FirstId(tabs: seq<Tab>): string {
    if |tabs| == 0 then "" else tabs[0].id
  }

  /** The inline script after the panels. */
  function ScriptPieces(t: Template, tabs: seq<Tab>): seq<string> {
    [t.contentsToScript, FirstId(tabs), t.afterCurrentTab, JsonIds(tabs), t.afterIdList, JsonIds(tabs), t.tail,
     HtmlClose]
  }

  /** All pieces of the document, in order. */
  function Pieces(t: Template, tabs: seq<Tab>): seq<string> {
    [Doctype, t.head] + ButtonPieces(t, tabs) + [t.headersToContents] + PanelPieces(t, tabs) + ScriptPieces(t, tabs)
  }

  /** The document for a non-empty tab list. */
  function Document(t: Template, tabs: seq<Tab>): string {
    Flatten(Pieces(t, tabs))
  }

  /** Index in `Pieces` of tab `i`'s escaped header. */
  function HeaderIndex(i: nat): nat {
    2 + i * 16 + 14
  }

  /** Index in `Pieces` of the first piece of tab `i`'s panel, for `n` tabs. */
  function PanelIndex(n: nat, i: nat): nat {
    3 + n * 16 + i * 10
  }

  lemma ButtonPieceAt(t: Template, tabs: seq<Tab>, i: nat, c: nat)
    requires i < |tabs| && c < 16
    ensures i * 16 + c < |tabs| * 16
    ensures Pieces(t, tabs)[2 + i * 16 + c] == ButtonBlock(t, tabs[i], i)[c]
  {
    ButtonPiecesAt(t, tabs, i, c);
  }

  lemma PanelPieceAt(t: Template, tabs: seq<Tab>, i: nat, c: nat)
    requires i < |tabs| && c < 10
    ensures i * 10 + c < |tabs| * 10
    ensures Pieces(t, tabs)[PanelIndex(|tabs|, i) + c] == PanelBlock(t, tabs[i], i)[c]
  {
    PanelPiecesAt(t, tabs, i, c);
  }

  lemma HeaderPiece(t: Template, tabs: seq<Tab>, i: nat)
    requires i < |tabs|
    ensures HeaderIndex(i) < |Pieces(t, tabs)| && Pieces(t, tabs)[HeaderIndex(i)] == EscapeHtml(tabs[i].header)
  {
    ButtonPieceAt(t, tabs, i, 14);
  }

  lemma DisplayPiece(t: Template, tabs: seq<Tab>, i: nat)
    requires i < |tabs|
    ensures PanelIndex(|tabs|, i) + 4 < |Pieces(t, tabs)|
    ensures Pieces(t, tabs)[PanelIndex(|tabs|, i) + 4] == (if i == 0 then t.shown else t.hidden).display
  {
    PanelPieceAt(t, tabs, i, 4);
  }

  lemma ContentPiece(t: Template, tabs: seq<Tab>, i: nat)
    requires i < |tabs|
    ensures PanelIndex(|tabs|, i) + 8 < |Pieces(t, tabs)|
    ensures Pieces(t, tabs)[PanelIndex(|tabs|, i) + 8] == EscapeHtml(tabs[i].content)
  {
    PanelPieceAt(t, tabs, i, 8);
  }

  /** Every header appears escaped in the document. */
  lemma HeaderInDocument(t: Template, tabs: seq<Tab>, i: nat)
    requires i < |tabs|
    ensures OccursAt(Document(t, tabs), EscapeHtml(tabs[i].header), Offset(Pieces(t, tabs), HeaderIndex(i)))
  {
    HeaderPiece(t, tabs, i);
    PieceOccurs(Pieces(t, tabs), HeaderIndex(i), EscapeHtml(tabs[i].header));
  }

  /** The headers appear in list order: each ends before the next begins. */
  lemma HeadersInOrder(t: Template, tabs: seq<Tab>, i: nat)
    requires i + 1 < |tabs|
    ensures Offset(Pieces(t, tabs), HeaderIndex(i)) + |EscapeHtml(tabs[i].header)|
            <= Offset(Pieces(t, tabs), HeaderIndex(i + 1))
  {
    HeaderPiece(t, tabs, i);
    HeaderPiece(t, tabs, i + 1);
    PieceEndsBefore(Pieces(t, tabs), HeaderIndex(i), HeaderIndex(i + 1), EscapeHtml(tabs[i].header));
  }

  /** Every panel carries the shown style's `display` value if it is the
      first panel and the hidden style's value otherwise. */
  lemma DisplayInDocument(t: Template, tabs: seq<Tab>, i: nat)
    requires i < |tabs|
    ensures OccursAt(Document(t, tabs), (if i == 0 then t.shown else t.hidden).display,
                     Offset(Pieces(t, tabs), PanelIndex(|tabs|, i) + 4))
  {
    DisplayPiece(t, tabs, i);
    PieceOccurs(Pieces(t, tabs), PanelIndex(|tabs|, i) + 4, (if i == 0 then t.shown else t.hidden).display);
  }

  /** Every content appears escaped in its panel. */
  lemma ContentInDocument(t: Template, tabs: seq<Tab>, i: nat)
    requires i < |tabs|
    ensures OccursAt(Document(t, tabs), EscapeHtml(tabs[i].content),
                     Offset(Pieces(t, tabs), PanelIndex(|tabs|, i) + 8))
  {
    ContentPiece(t, tabs, i);
    PieceOccurs(Pieces(t, tabs), PanelIndex(|tabs|, i) + 8, EscapeHtml(tabs[i].content));
  }

  /** Every header ends before any content begins. */
  lemma HeadersBeforeContents(t: Template, tabs: seq<Tab>, j: nat, i: nat)
    requires j < |tabs| && i < |tabs|
    ensures Offset(Pieces(t, tabs), HeaderIndex(j)) + |EscapeHtml(tabs[j].header)|
            <= Offset(Pieces(t, tabs), PanelIndex(|tabs|, i) + 8)
  {
    ContentPiece(t, tabs, i);
    HeaderPiece(t, tabs, j);
    PieceEndsBefore(Pieces(t, tabs), HeaderIndex(j), PanelIndex(|tabs|, i) + 8, EscapeHtml(tabs[j].header));
  }

  /** The contents appear in list order: each ends before the next begins. */
  lemma ContentsInOrder(t: Template, tabs: seq<Tab>, i: nat)
    requires i + 1 < |tabs|
    ensures Offset(Pieces(t, tabs), PanelIndex(|tabs|, i) + 8) + |EscapeHtml(tabs[i].content)|
            <= Offset(Pieces(t, tabs), PanelIndex(|tabs|, i + 1) + 8)
  {
    var n := |tabs|;
    ContentPiece(t, tabs, i);
    ContentPiece(t, tabs, i + 1);
    PieceEndsBefore(Pieces(t, tabs), PanelIndex(n, i) + 8, PanelIndex(n, i + 1) + 8, EscapeHtml(tabs[i].content));
  }

  /** Every template gives complete documents. */
  lemma DocumentFrame(t: Template, tabs: seq<Tab>)
    ensures IsHtmlDocument(Document(t, tabs))
  {
    FramedDocument(Pieces(t, tabs));
  }

  /** Every generated page is a complete HTML document. */
  lemma GeneratedIsDocument(tabs: Option<seq<Tab>>)
    ensures IsHtmlDocument(GenerateTabsHtml(tabs))
  {
    if tabs.None? || |tabs.value| == 0 {
      EmptyInputFallback(tabs);
      EmptyHtmlShape();
    } else {
      DocumentFrame(Page, tabs.value);
    }
  }

  /** The fallback page is a complete document carrying the "No Tabs to
      Display" message. */
  lemma EmptyHtmlShape()
    ensures IsHtmlDocument(EmptyHtml())
    ensures OccursAt(EmptyHtml(), NoTabsMessage, Offset(EmptyPieces, 2))
  {
    FramedDocument(EmptyPieces);
    PieceOccurs(EmptyPieces, 2, NoTabsMessage);
  }

  /** An empty or missing list gives exactly the fallback page. */
  lemma EmptyInputFallback(tabs: Option<seq<Tab>>)
    requires tabs.None? || tabs.value == []
    ensures GenerateTabsHtml(tabs) == EmptyHtml()
  {
  }

  /** Panel `i` shows the shown style's `display` value exactly when it is the
      first panel, as long as the two values start differently. */
  lemma OnlyFirstShown(t: Template, tabs: seq<Tab>, i: nat)
    requires i < |tabs|
    requires t.shown.display != [] && t.hidden.display != [] && t.shown.display[0] != t.hidden.display[0]
    ensures OccursAt(Document(t, tabs), t.shown.display, Offset(Pieces(t, tabs), PanelIndex(|tabs|, i) + 4))
            <==> i == 0
  {
    DisplayInDocument(t, tabs, i);
    if i != 0 {
      OccursExclusive(Document(t, tabs), t.shown.display, t.hidden.display, Offset(Pieces(t, tabs), PanelIndex(|tabs|, i) + 4), 0);
    }
  }

  /** In the page generated for a non-empty list exactly the first panel is
      displayed: the `display` value of panel `i` is `block` if and only if `i`
      is 0. */
  lemma OnlyFirstPanelDisplayed(tabs: seq<Tab>, i: nat)
    requires i < |tabs|
    ensures OccursAt(Document(Page, tabs), "block", Offset(Pieces(Page, tabs), PanelIndex(|tabs|, i) + 4))
            <==> i == 0
  {
    OnlyFirstShown(Page, tabs, i);
  }

  /** `JSON.stringify(tabs.map(t => t.id))`. */
  function JsonIds(tabs: seq<Tab>): string {
    Json.StringArray(Ids(tabs))
  }

  function Ids(tabs: seq<Tab>): (r: seq<string>)
    ensures |r| == |tabs| && forall i :: 0 <= i < |tabs| ==> r[i] == tabs[i].id
  {
    seq(|tabs|, i requires 0 <= i < |tabs| => tabs[i].id)
  }

  /** The script embeds the id list twice, for the initial display and for the
      arrow keys; both copies sit in the document. */
  lemma IdListsInDocument(t: Template, tabs: seq<Tab>)
    ensures |Pieces(t, tabs)| >= 5
    ensures var p := Pieces(t, tabs);
            OccursAt(Document(t, tabs), JsonIds(tabs), Offset(p, |p| - 5))
            && OccursAt(Document(t, tabs), JsonIds(tabs), Offset(p, |p| - 3))
  {
    IdListPieces(t, tabs);
    var p := Pieces(t, tabs);
    PieceOccurs(p, |p| - 5, JsonIds(tabs));
    PieceOccurs(p, |p| - 3, JsonIds(tabs));
  }

  /** Reading the embedded id list back gives every tab's id, in list order. */
  lemma IdListReadsBack(tabs: seq<Tab>)
    ensures var ids := Json.ReadStringArray(JsonIds(tabs));
            ids.Some? && |ids.value| == |tabs| && forall i :: 0 <= i < |tabs| ==> ids.value[i] == tabs[i].id
  {
    Json.ReadStringArrayRoundTrip(Ids(tabs));
  }

  lemma IdListPieces(t: Template, tabs: seq<Tab>)
    ensures var p := Pieces(t, tabs);
            |p| >= 5 && p[|p| - 5] == JsonIds(tabs) && p[|p| - 3] == JsonIds(tabs)
  {
    var front := [Doctype, t.head] + ButtonPieces(t, tabs) + [t.headersToContents] + PanelPieces(t, tabs);
    var script := ScriptPieces(t, tabs);
    assert Pieces(t, tabs) == front + script;
    assert Pieces(t, tabs)[|front| + 3] == script[3];
  }

  // ---------------------------------------------------------------------------
  // The arrow-key handler of the emitted script (lib/generateHTML.ts:90-104)

  datatype ArrowKey = ArrowLeft | ArrowRight

  /** `allTabs.indexOf(currentTab)`: the first position holding `id`, or -1. */
  function IndexOf(ids: seq<string>, id: string): (r: int)
    ensures -1 <= r < |ids|
    ensures r == -1 <==> id !in ids
    ensures r >= 0 ==> ids[r] == id && forall j :: 0 <= j < r ==> ids[j] != id
  {
    if |ids| == 0 then -1
    else if ids[0] == id then 0
    else var k := IndexOf(ids[1..], id); if k == -1 then -1 else k + 1
  }

  /** The position the handler moves to from `current` in a list of `n` tabs;
      `current` is -1 when the current tab is not in the list. */
  function ArrowTarget(key: ArrowKey, current: int, n: nat): (r: nat)
    requires n >= 1 && -1 <= current < n
    ensures r < n
  {
    match key
    case ArrowLeft => if current > 0 then current - 1 else n - 1
    case ArrowRight => if current < n - 1 then current + 1 else 0
  }

  /** The arrow keys walk the tabs as a ring: one step right is `+1` modulo the
      number of tabs and one step left is `-1` modulo it. */
  lemma ArrowIsRotation(current: nat, n: nat)
    requires current < n
    ensures ArrowTarget(ArrowRight, current, n) == (current + 1) % n
    ensures ArrowTarget(ArrowLeft, current, n) == (current - 1 + n) % n
  {
    if current + 1 < n {
      ModUnique(current + 1, n, 0, current + 1);
    } else {
      ModUnique(current + 1, n, 1, 0);
    }
    if current > 0 {
      ModUnique(current - 1 + n, n, 1, current - 1);
    } else {
      ModUnique(current - 1 + n, n, 0, n - 1);
    }
  }

  /** Left undoes Right and Right undoes Left. */
  lemma ArrowInverse(current: nat, n: nat)
    requires current < n
    ensures ArrowTarget(ArrowLeft, ArrowTarget(ArrowRight, current, n), n) == current
    ensures ArrowTarget(ArrowRight, ArrowTarget(ArrowLeft, current, n), n) == current
  {
  }

  /** Pressing the same key `k` times. */
  function Presses(key: ArrowKey, current: nat, n: nat, k: nat): (r: nat)
    requires current < n
    ensures r < n
    decreases k
  {
    if k == 0 then current else Presses(key, ArrowTarget(key, current, n), n, k - 1)
  }

  /** `n` presses of ArrowRight visit every tab and come back to the start. */
  lemma {:induction false} RightPressesRotate(current: nat, n: nat, k: nat)
    requires current < n
    ensures Presses(ArrowRight, current, n, k) == (current + k) % n
    decreases k
  {
    if k > 0 {
      var next := ArrowTarget(ArrowRight, current, n);
      ArrowIsRotation(current, n);
      RightPressesRotate(next, n, k - 1);
      ModAddOne(current, k - 1, n);
    }
  }

  lemma ModAddOne(c: nat, k: nat, n: nat)
    requires n >= 1
    requires c < n
    ensures ((c + 1) % n + k) % n == (c + k + 1) % n
  {
    if c + 1 < n {
      ModUnique(c + 1, n, 0, c + 1);
    } else {
      ModUnique(c + 1, n, 1, 0);
      ModShift(k, n);
    }
  }

  lemma ModShift(k: nat, n: nat)
    requires n >= 1
    ensures (n + k) % n == k % n
  {
    ModUnique(n + k, n, k / n + 1, k % n);
  }

  /** Euclidean division has one remainder: `x == q * n + r` with `0 <= r < n`
      makes `r` the remainder of `x` modulo `n`. */
  lemma ModUnique(x: int, n: int, q: int, r: int)
    requires n >= 1 && 0 <= r < n && x == q * n + r
    ensures x % n == r
  {
    var q', r' := x / n, x % n;
    assert (q - q') * n == r' - r;
    if q > q' {
      MulAtLeast(q - q', n);
    } else if q < q' {
      MulAtLeast(q' - q, n);
    }
  }

  lemma {:induction false} MulAtLeast(a: int, n: int)
    requires a >= 1 && n >= 1
    ensures a * n >= n
    decreases a
  {
    if a > 1 {
      MulAtLeast(a - 1, n);
      assert a * n == (a - 1) * n + n;
    }
  }

  /** The handler with a current tab that is not in the list: ArrowRight goes
      to the first tab and ArrowLeft to the last. */
  lemma ArrowFromMissing(n: nat)
    requires n >= 1
    ensures ArrowTarget(ArrowRight, -1, n) == 0
    ensures ArrowTarget(ArrowLeft, -1, n) == n - 1
  {
  }

  // ---------------------------------------------------------------------------
  // validateTabsData (lib/generateHTML.ts:139-148)

  /** A property as read off an untyped value: a string or anything else
      (absent, a number, an object, ...). */
  datatype Prop = Str(s: string) | NotString

  /** An element of the array: a falsy value (null, undefined, 0, "", false,
      NaN) or a truthy value, whose `id`, `header` and `content` are read. */
  datatype Element = Falsy | Truthy(id: Prop, header: Prop, content: Prop)

  /** The untyped argument: not an array, or an array of elements. */
  datatype Input = NotArray | Array(elements: seq<Element>)

  predicate IsTabShaped(e: Element) {
    e.Truthy? && e.id.Str? && e.header.Str? && e.content.Str?
  }

  /** `validateTabsData(tabs)`. */
  predicate ValidateTabsData(input: Input) {
    input.Array? && forall i :: 0 <= i < |input.elements| ==> IsTabShaped(input.elements[i])
  }

  /** The tab an element describes, when it describes one. */
  function AsTab(e: Element): (r: Option<Tab>)
    ensures r.Some? <==> IsTabShaped(e)
  {
    if IsTabShaped(e) then Some(Tab(e.id.s, e.header.s, e.content.s)) else None
  }

  function AsTabs(es: seq<Element>): (r: Option<seq<Tab>>)
    ensures r.Some? ==> |r.value| == |es|
  {
    if es == [] then Some([])
    else match (AsTab(es[0]), AsTabs(es[1..]))
      case (Some(t), Some(ts)) => Some([t] + ts)
      case _ => None
  }

  function FromTab(t: Tab): Element {
    Truthy(Str(t.id), Str(t.header), Str(t.content))
  }

  function FromTabs(tabs: seq<Tab>): Input {
    Array(seq(|tabs|, i requires 0 <= i < |tabs| => FromTab(tabs[i])))
  }

  /** The validator accepts exactly the inputs that read as a list of tabs. */
  lemma {:induction false} ValidateIffTabs(es: seq<Element>)
    ensures ValidateTabsData(Array(es)) <==> AsTabs(es).Some?
  {
    if es != [] {
      ValidateIffTabs(es[1..]);
      assert ValidateTabsData(Array(es)) <==> IsTabShaped(es[0]) && ValidateTabsData(Array(es[1..])) by {
        if IsTabShaped(es[0]) && ValidateTabsData(Array(es[1..])) {
          forall i | 0 <= i < |es| ensures IsTabShaped(es[i]) {
            if i > 0 { assert es[i] == es[1..][i - 1]; }
          }
        }
      }
    }
  }

  /** A well-formed list of tabs is accepted and read back unchanged. */
  lemma {:induction false} TabsRoundTrip(tabs: seq<Tab>)
    ensures ValidateTabsData(FromTabs(tabs))
    ensures AsTabs(FromTabs(tabs).elements) == Some(tabs)
  {
    var es := FromTabs(tabs).elements;
    if tabs != [] {
      TabsRoundTrip(tabs[1..]);
      assert es[1..] == FromTabs(tabs[1..]).elements;
      assert [tabs[0]] + tabs[1..] == tabs;
    }
  }

  /** An element without `content` makes the whole input invalid, whatever
      the other elements are. */
  lemma MissingContentRejected(es: seq<Element>, i: nat, id: string, header: string)
    requires i < |es| && es[i] == Truthy(Str(id), Str(header), NotString)
    ensures !ValidateTabsData(Array(es))
  {
    assert !IsTabShaped(es[i]);
  }

  // ---------------------------------------------------------------------------
  // sanitizeTabHeader (lib/generateHTML.ts:154-156)

  predicate IsStripped(c: char) { c == '<' || c == '>' || c == '"' }

  /** `s.replace(/[<>"]/g, '')`. */
  function RemoveStripped(s: string): (r: string)
    ensures |r| <= |s|
    ensures forall c :: c in r <==> c in s && !IsStripped(c)
    ensures (forall i :: 0 <= i < |s| ==> !IsStripped(s[i])) ==> r == s
  {
    if s == [] then []
    else
      var r := (if IsStripped(s[0]) then [] else [s[0]]) + RemoveStripped(s[1..]);
      assert forall c :: c in s <==> c == s[0] || c in s[1..] by {
        assert s == [s[0]] + s[1..];
      }
      r
  }

  /** Only whitespace survives the removal exactly when the header holds
      nothing but stripped characters and whitespace. */
  lemma RemoveStrippedBlank(header: string)
    ensures (forall i :: 0 <= i < |RemoveStripped(header)| ==> IsJsWhitespace(RemoveStripped(header)[i]))
      <==> forall i :: 0 <= i < |header| ==> IsStripped(header[i]) || IsJsWhitespace(header[i])
  {
    var kept := RemoveStripped(header);
    if i :| 0 <= i < |header| && !IsStripped(header[i]) && !IsJsWhitespace(header[i]) {
      assert header[i] in header;
      assert header[i] in kept;
      var k :| 0 <= k < |kept| && kept[k] == header[i];
      assert !IsJsWhitespace(kept[k]);
    }
  }

  const MaxHeaderLength: nat := 50

  /** `sanitizeTabHeader(header)`: the header without `<`, `>` and `"`, trimmed,
      and cut to its first 50 UTF-16 code units. The cut keeps the whole
      trimmed text when it fits and at least 49 code units otherwise; the
      result is empty exactly when the header holds nothing but stripped
      characters and whitespace. */
  function SanitizeTabHeader(header: string): (r: string)
    ensures Utf16Length(r) <= MaxHeaderLength
    ensures forall i :: 0 <= i < |r| ==> !IsStripped(r[i])
    ensures r == [] || !IsJsWhitespace(r[0])
    ensures forall c :: c in r ==> c in header
    ensures r <= Trim(RemoveStripped(header))
    ensures Utf16Length(Trim(RemoveStripped(header))) <= MaxHeaderLength ==> r == Trim(RemoveStripped(header))
    ensures r != Trim(RemoveStripped(header)) ==> Utf16Length(r) >= MaxHeaderLength - 1
    ensures r == [] <==> forall i :: 0 <= i < |header| ==> IsStripped(header[i]) || IsJsWhitespace(header[i])
  {
    var kept := RemoveStripped(header);
    var t := Trim(kept);
    var r := Utf16Prefix(t, MaxHeaderLength);
    assert forall i :: 0 <= i < |r| ==> r[i] == t[i];
    TrimKeeps(kept);
    TrimEmpty(kept);
    RemoveStrippedBlank(header);
    r
  }

  /** A header that is already clean (no `<`, `>` or `"`, no surrounding
      whitespace, at most 50 UTF-16 code units) passes through unchanged. */
  lemma SanitizeFixesCleanHeaders(header: string)
    requires forall i :: 0 <= i < |header| ==> !IsStripped(header[i])
    requires header == [] || (!IsJsWhitespace(header[0]) && !IsJsWhitespace(header[|header| - 1]))
    requires Utf16Length(header) <= MaxHeaderLength
    ensures SanitizeTabHeader(header) == header
  {
    assert RemoveStripped(header) == header;
    TrimOfTrimmed(header);
    assert Utf16Prefix(header, MaxHeaderLength) == header;
  }

  /** Sanitising is not idempotent: when the cut at 50 code units ends in
      whitespace, a second pass trims it away. */
  lemma SanitizeNotIdempotent(header: string)
    requires |header| > MaxHeaderLength && IsJsWhitespace(header[MaxHeaderLength - 1])
    requires forall i :: 0 <= i < |header| ==> !IsStripped(header[i]) && header[i] < '\U{10000}'
    requires !IsJsWhitespace(header[0]) && !IsJsWhitespace(header[|header| - 1])
    ensures SanitizeTabHeader(SanitizeTabHeader(header)) != SanitizeTabHeader(header)
  {
    TrimOfTrimmed(header);
    var once := SanitizeTabHeader(header);
    assert once == Utf16Prefix(header, MaxHeaderLength);
    Utf16PrefixOfBmp(header, MaxHeaderLength);
    assert |once| == MaxHeaderLength && IsJsWhitespace(once[MaxHeaderLength - 1]);
    var u := Trim(RemoveStripped(once));
    assert RemoveStripped(once) == once;
    var j :| SliceBetweenWhitespace(once, u, j);
    assert |SanitizeTabHeader(once)| <= |u| < MaxHeaderLength;
  }

  // ---------------------------------------------------------------------------
  // The fixed text of the two templates, split at the places where values are
  // inserted. Line breaks and indentation are part of the text.

  const DocumentHead: string :=
    "\n"
    + "<html " + "lang=\"en\">\n"
    + "<head>\n"
    + "    <meta " + "charset=\"UTF-8\">\n"
    + "    <meta " + "name=\"viewport\" " + "content=\"width=device-width, "
    + "initial-scale=1.0\">\n"
    + "    " + "<title>Generated " + "Tabs</title>\n"
    + "</head>\n"
    + "<body " + "style=\"font-family: " + "-apple-system, " + "BlinkMacSystemFont, "
    + "'Segoe UI', " + "Roboto, " + "'Helvetica " + "Neue', " + "Arial, " + "sans-serif; "
    + "margin: 0; " + "padding: " + "20px; " + "background: " + "linear-gradient(135deg, "
    + "#667eea 0%, " + "#764ba2 " + "100%); " + "min-height: " + "100vh;\">\n"
    + "    <div " + "style=\"max-width: " + "900px; " + "margin: 0 " + "auto; "
    + "background-color: " + "white; " + "border-radius: " + "12px; " + "box-shadow: "
    + "0 20px 40px " + "rgba(0,0,0,0.1); " + "overflow: " + "hidden;\">\n"
    + "        " + "<!-- Tab " + "Headers -->\n"
    + "        " + "<div " + "style=\"display: " + "flex; " + "background: "
    + "linear-gradient(90deg, " + "#f8f9fa 0%, " + "#e9ecef " + "100%); " + "border-bottom: "
    + "2px solid " + "#dee2e6; " + "overflow-x: " + "auto; " + "scrollbar-width: "
    + "thin;\">\n"

  const HeadersToContents: string :=
    "\n"
    + "        " + "</div>\n"
    + "        \n"
    + "        " + "<!-- Tab " + "Contents " + "-->\n"

  const ContentsToScript: string :=
    "\n"
    + "    </div>\n"
    + "\n"
    + "    <style>\n"
    + "        " + "@keyframes " + "fadeIn {\n"
    + "            " + "from { " + "opacity: 0; " + "transform: " + "translateY(10px); " + "}\n"
    + "            " + "to { " + "opacity: 1; " + "transform: " + "translateY(0); " + "}\n"
    + "        }\n"
    + "    " + "</style>\n"
    + "\n"
    + "    " + "<script>\n"
    + "        var " + "currentTab " + "= '"

  const ScriptAfterCurrentTab: string :=
    "';\n"
    + "        \n"
    + "        " + "function " + "showTab(tabId) " + "{\n"
    + "            " + "// Get all " + "tabs\n"
    + "            " + "var allTabs " + "= "

  const ScriptAfterIdList: string :=
    ";\n"
    + "            \n"
    + "            " + "// Hide all " + "tabs and " + "reset " + "styles\n"
    + "            " + "allTabs.forEach(function(id) " + "{\n"
    + "                " + "var content " + "= " + "document.getElementById('tab-content-' "
    + "+ id);\n"
    + "                " + "var btn = " + "document.getElementById('tab-btn-' " + "+ id);\n"
    + "                \n"
    + "                " + "if " + "(content) {\n"
    + "                    " + "content.style.display " + "= 'none';\n"
    + "                " + "}\n"
    + "                \n"
    + "                " + "if (btn) {\n"
    + "                    " + "btn.style.backgroundColor " + "= " + "'transparent';\n"
    + "                    " + "btn.style.borderBottom " + "= 'none';\n"
    + "                    " + "btn.style.fontWeight " + "= '400';\n"
    + "                    " + "btn.style.color " + "= " + "'#6b7280';\n"
    + "                " + "}\n"
    + "            " + "});\n"
    + "            \n"
    + "            " + "// Show " + "selected " + "tab with " + "animation\n"
    + "            " + "var " + "selectedContent " + "= "
    + "document.getElementById('tab-content-' " + "+ tabId);\n"
    + "            " + "var " + "selectedBtn " + "= " + "document.getElementById('tab-btn-' "
    + "+ tabId);\n"
    + "            \n"
    + "            " + "if " + "(selectedContent) " + "{\n"
    + "                " + "selectedContent.style.display " + "= 'block';\n"
    + "                " + "selectedContent.style.animation " + "= 'fadeIn " + "0.3s "
    + "ease-in';\n"
    + "            " + "}\n"
    + "            \n"
    + "            " + "if " + "(selectedBtn) " + "{\n"
    + "                " + "selectedBtn.style.backgroundColor " + "= 'white';\n"
    + "                " + "selectedBtn.style.borderBottom " + "= '3px " + "solid "
    + "#4f46e5';\n"
    + "                " + "selectedBtn.style.fontWeight " + "= '600';\n"
    + "                " + "selectedBtn.style.color " + "= " + "'#4f46e5';\n"
    + "            " + "}\n"
    + "            \n"
    + "            " + "currentTab " + "= tabId;\n"
    + "        }\n"
    + "        \n"
    + "        // " + "Add " + "keyboard " + "navigation\n"
    + "        " + "document.addEventListener('keydown', " + "function(e) " + "{\n"
    + "            " + "if (e.key " + "=== " + "'ArrowLeft' " + "|| e.key " + "=== "
    + "'ArrowRight') " + "{\n"
    + "                " + "var allTabs " + "= "

  const ScriptTail: string :=
    ";\n"
    + "                " + "var " + "currentIndex " + "= " + "allTabs.indexOf(currentTab);\n"
    + "                " + "var " + "newIndex;\n"
    + "                \n"
    + "                " + "if (e.key " + "=== " + "'ArrowLeft') " + "{\n"
    + "                    " + "newIndex = " + "currentIndex " + "> 0 ? " + "currentIndex "
    + "- 1 : " + "allTabs.length " + "- 1;\n"
    + "                " + "} else {\n"
    + "                    " + "newIndex = " + "currentIndex " + "< " + "allTabs.length "
    + "- 1 ? " + "currentIndex " + "+ 1 : 0;\n"
    + "                " + "}\n"
    + "                \n"
    + "                " + "showTab(allTabs[newIndex]);\n"
    + "            " + "}\n"
    + "        });\n"
    + "    " + "</script>\n"
    + "</body>\n"

  const ButtonOpen: string :=
    "            " + "<button \n"
    + "                " + "onclick=\"showTab('"

  const ButtonAfterOnclickId: string := "')\" \n" + "                " + "id=\"tab-btn-"

  const ButtonAfterId: string :=
    "\"\n"
    + "                " + "style=\"padding: " + "16px 32px; " + "background-color: "

  const ButtonAfterBackground: string := "; border: " + "none; " + "border-bottom: "

  const ButtonAfterBorder: string := "; cursor: pointer; font-weight: "

  const ButtonAfterWeight: string := "; color: "

  const ButtonAfterColour: string :=
    "; " + "transition: " + "all 0.3s " + "cubic-bezier(0.4, " + "0, 0.2, 1); "
    + "flex-shrink: " + "0; " + "font-size: " + "15px; " + "position: " + "relative; "
    + "white-space: " + "nowrap;\"\n"
    + "                " + "onmouseover=\"if(this.id " + "!== " + "'tab-btn-' " + "+ "
    + "currentTab) " + "{ " + "this.style.backgroundColor='#f3f4f6'; "
    + "this.style.color='#374151'; " + "}\" \n"
    + "                " + "onmouseout=\"if(this.id " + "!== " + "'tab-btn-' " + "+ "
    + "currentTab) " + "{ " + "this.style.backgroundColor='transparent'; "
    + "this.style.color='#6b7280'; " + "}\"\n"
    + "            " + ">"

  const ButtonClose: string := "</button>"

  const DivOpen: string := "        " + "<div \n" + "            " + "id=\"tab-content-"

  const DivAfterId: string :=
    "\" \n"
    + "            " + "style=\"padding: " + "32px; " + "display: "

  const DivAfterDisplay: string :=
    "; " + "min-height: " + "300px; " + "white-space: " + "pre-wrap; " + "word-wrap: "
    + "break-word; " + "line-height: " + "1.6; color: " + "#1f2937; " + "animation: "

  const DivAfterAnimation: string := ";\"\n" + "        >"

  const DivClose: string := "</div>"

  const EmptyBeforeMessage: string :=
    "\n"
    + "<html " + "lang=\"en\">\n"
    + "<head>\n"
    + "    <meta " + "charset=\"UTF-8\">\n"
    + "    <meta " + "name=\"viewport\" " + "content=\"width=device-width, "
    + "initial-scale=1.0\">\n"
    + "    " + "<title>No " + "Tabs " + "Generated</title>\n"
    + "</head>\n"
    + "<body " + "style=\"font-family: " + "Arial, " + "sans-serif; " + "display: " + "flex; "
    + "justify-content: " + "center; " + "align-items: " + "center; " + "min-height: "
    + "100vh; " + "margin: 0; " + "background: " + "linear-gradient(135deg, " + "#667eea 0%, "
    + "#764ba2 " + "100%);\">\n"
    + "    <div " + "style=\"text-align: " + "center; " + "padding: " + "40px; "
    + "background: " + "white; " + "border-radius: " + "12px; " + "box-shadow: "
    + "0 10px 30px " + "rgba(0,0,0,0.1);\">\n"
    + "        <h1 " + "style=\"color: " + "#4f46e5; " + "margin-bottom: " + "10px;\">"

  const EmptyAfterMessage: string :=
    "</h1>\n"
    + "        <p " + "style=\"color: " + "#6b7280;\">Please " + "create some " + "tabs "
    + "first!</p>\n"
    + "    </div>\n"
    + "</body>\n"
}

=== FILE: text.dfy ===
/** String operations of the JavaScript runtime that the three core files rely on:
    `trim`, `length` and `substring` (which count UTF-16 code units), `join`,
    `toString` of a non-negative integer and `padStart`, plus the
    substring relation used to state what a generated document contains. */
module Text {

  /** True when `p` occurs in `s` starting at position `k`. */
  predicate OccursAt(s: string, p: string, k: int) {
    0 <= k && k + |p| <= |s| && s[k..k + |p|] == p
  }

  /** `s.includes(p)`. */
  ghost predicate Contains(s: string, p: string) {
    exists k :: OccursAt(s, p, k)
  }

  lemma OccursSelf(s: string)
    ensures OccursAt(s, s, 0)
  {
    assert s[0..|s|] == s;
  }

  /** Appending text after a string keeps its occurrences. */
  lemma OccursLeft(s: string, b: string, p: string, k: int)
    requires OccursAt(s, p, k)
    ensures OccursAt(s + b, p, k)
  {
    assert (s + b)[k..k + |p|] == s[k..k + |p|];
  }

  /** Prepending text before a string shifts its occurrences. */
  lemma OccursRight(a: string, s: string, p: string, k: int)
    requires OccursAt(s, p, k)
    ensures OccursAt(a + s, p, |a| + k)
  {
    assert (a + s)[|a| + k..|a| + k + |p|] == s[k..k + |p|];
  }

  /** An occurrence inside a part of a concatenation is an occurrence in the whole. */
  lemma OccursInConcat(a: string, s: string, b: string, p: string, k: int)
    requires OccursAt(s, p, k)
    ensures OccursAt(a + s + b, p, |a| + k)
  {
    OccursRight(a, s, p, k);
    OccursLeft(a + s, b, p, |a| + k);
  }

  /** An occurrence inside an occurrence is an occurrence. */
  lemma OccursWithin(s: string, part: string, k: int, p: string, m: int)
    requires OccursAt(s, part, k) && OccursAt(part, p, m)
    ensures OccursAt(s, p, k + m)
  {
    forall j | 0 <= j < |p| ensures s[k + m + j] == p[j] {
      assert s[k + m + j] == part[m + j];
    }
  }

  /** Two texts that differ at position `m` cannot occur at the same place. */
  lemma OccursExclusive(s: string, p: string, q: string, k: int, m: nat)
    requires m < |p| && m < |q| && p[m] != q[m]
    requires OccursAt(s, q, k)
    ensures !OccursAt(s, p, k)
  {
    assert s[k..k + |q|][m] == s[k + m];
  }

  // ---------------------------------------------------------------------------
  // Sequences

  /** A non-empty sequence is its first element followed by the rest. */
  lemma SplitFirst<T>(s: seq<T>, t: seq<T>)
    requires s != []
    ensures s == [s[0]] + s[1..] && s + t == [s[0]] + (s[1..] + t)
  {
  }

  /** Dropping the last element of `a + b`, for a non-empty `b`, drops it from `b`. */
  lemma SplitLast<T>(a: seq<T>, b: seq<T>)
    requires b != []
    ensures (a + b)[..|a + b| - 1] == a + b[..|b| - 1] && (a + b)[|a + b| - 1] == b[|b| - 1]
  {
  }

  /** Concatenation is associative. */
  lemma AppendAssoc<T>(a: seq<T>, b: seq<T>, c: seq<T>)
    ensures a + (b + c) == (a + b) + c
  {
  }

  // ---------------------------------------------------------------------------
  // String.prototype.trim

  /** The characters ECMAScript's `trim` removes: WhiteSpace (tab, vertical tab,
      form feed, space, no-break space, the byte-order mark and every other
      Unicode space separator) and LineTerminator (LF, CR, LS, PS). */
  predicate IsJsWhitespace(c: char) {
    c == '\U{0009}' || c == '\U{000B}' || c == '\U{000C}' || c == ' ' || c == '\U{00A0}'
    || c == '\U{FEFF}' || c == '\U{1680}' || ('\U{2000}' <= c <= '\U{200A}') || c == '\U{202F}'
    || c == '\U{205F}' || c == '\U{3000}'
    || c == '\n' || c == '\r' || c == '\U{2028}' || c == '\U{2029}'
  }

  /** The end of the run of whitespace that starts at `i`. */
  function SkipWhitespace(s: string, i: nat): (k: nat)
    requires i <= |s|
    ensures i <= k <= |s|
    ensures forall j :: i <= j < k ==> IsJsWhitespace(s[j])
    ensures k == |s| || !IsJsWhitespace(s[k])
    decreases |s| - i
  {
    if i < |s| && IsJsWhitespace(s[i]) then SkipWhitespace(s, i + 1) else i
  }

  /** The start of the run of whitespace that ends at `e`, not going below `lo`. */
  function SkipWhitespaceBack(s: string, lo: nat, e: nat): (k: nat)
    requires lo <= e <= |s|
    ensures lo <= k <= e
    ensures forall j :: k <= j < e ==> IsJsWhitespace(s[j])
    ensures k == lo || !IsJsWhitespace(s[k - 1])
    decreases e - lo
  {
    if lo < e && IsJsWhitespace(s[e - 1]) then SkipWhitespaceBack(s, lo, e - 1) else e
  }

  /** `r` is the slice of `s` starting at `i`, and only whitespace lies outside it. */
  predicate SliceBetweenWhitespace(s: string, r: string, i: int) {
    && 0 <= i <= |s| - |r| && r == s[i..i + |r|]
    && (forall j :: 0 <= j < i ==> IsJsWhitespace(s[j]))
    && (forall j :: i + |r| <= j < |s| ==> IsJsWhitespace(s[j]))
  }

  /** `s.trim()`: the slice of `s` that neither starts nor ends with whitespace,
      everything outside of it being whitespace. */
  function Trim(s: string): (r: string)
    ensures |r| <= |s|
    ensures exists i :: SliceBetweenWhitespace(s, r, i)
    ensures r == [] || (!IsJsWhitespace(r[0]) && !IsJsWhitespace(r[|r| - 1]))
  {
    var i := SkipWhitespace(s, 0);
    var e := SkipWhitespaceBack(s, i, |s|);
    assert SliceBetweenWhitespace(s, s[i..e], i);
    s[i..e]
  }

  /** A string that neither starts nor ends with whitespace is its own trim. */
  lemma TrimOfTrimmed(s: string)
    requires s == [] || (!IsJsWhitespace(s[0]) && !IsJsWhitespace(s[|s| - 1]))
    ensures Trim(s) == s
  {
    if s != [] {
      assert SkipWhitespace(s, 0) == 0;
      assert SkipWhitespaceBack(s, 0, |s|) == |s|;
      assert s[0..|s|] == s;
    }
  }

  /** The trim is empty exactly when every character is whitespace. */
  lemma TrimEmpty(s: string)
    ensures Trim(s) == [] <==> forall i :: 0 <= i < |s| ==> IsJsWhitespace(s[i])
  {
    var i :| SliceBetweenWhitespace(s, Trim(s), i);
    if Trim(s) != [] {
      assert s[i] == Trim(s)[0];
    }
  }

  /** Trimming keeps only characters of the original. */
  lemma TrimKeeps(s: string)
    ensures forall c :: c in Trim(s) ==> c in s
  {
    var j :| SliceBetweenWhitespace(s, Trim(s), j);
    forall c | c in Trim(s) ensures c in s {
      var k :| 0 <= k < |Trim(s)| && Trim(s)[k] == c;
      assert s[j + k] == c;
    }
  }

  // ---------------------------------------------------------------------------
  // UTF-16 code units: JavaScript's `length` and `substring` count these

  /** Characters above the Basic Multilingual Plane take a surrogate pair. */
  function CodeUnits(c: char): (n: nat)
    ensures n == 1 || n == 2
    ensures n == 2 <==> c >= '\U{10000}'
  {
    if c >= '\U{10000}' then 2 else 1
  }

  /** `s.length`. */
  function Utf16Length(s: string): (n: nat)
    ensures |s| <= n <= 2 * |s|
    ensures (forall i :: 0 <= i < |s| ==> s[i] < '\U{10000}') ==> n == |s|
  {
    if s == [] then 0 else CodeUnits(s[0]) + Utf16Length(s[1..])
  }

  lemma {:induction false} Utf16LengthConcat(a: string, b: string)
    ensures Utf16Length(a + b) == Utf16Length(a) + Utf16Length(b)
  {
    if a != [] {
      assert (a + b)[1..] == a[1..] + b;
      Utf16LengthConcat(a[1..], b);
    } else {
      assert a + b == b;
    }
  }

  /** `s.substring(0, n)`: the longest prefix of `s` that fits in `n` code
      units. A surrogate pair that the cut would split is left out whole. */
  function Utf16Prefix(s: string, n: nat): (r: string)
    ensures r <= s
    ensures Utf16Length(r) <= n
    ensures Utf16Length(s) <= n ==> r == s
    ensures |r| < |s| ==> n < Utf16Length(r) + CodeUnits(s[|r|])
  {
    if s == [] || n < CodeUnits(s[0]) then []
    else
      var r := [s[0]] + Utf16Prefix(s[1..], n - CodeUnits(s[0]));
      assert r[1..] == Utf16Prefix(s[1..], n - CodeUnits(s[0]));
      r
  }

  /** Within the Basic Multilingual Plane, code units are characters. */
  lemma Utf16PrefixOfBmp(s: string, n: nat)
    requires forall i :: 0 <= i < |s| ==> s[i] < '\U{10000}'
    ensures Utf16Prefix(s, n) == if |s| <= n then s else s[..n]
  {
    var r := Utf16Prefix(s, n);
    assert forall i :: 0 <= i < |r| ==> r[i] == s[i];
  }

  // ---------------------------------------------------------------------------
  // Array.prototype.join

  /** `parts.join(sep)`. */
  function Join(parts: seq<string>, sep: string): string {
    if |parts| == 0 then ""
    else if |parts| == 1 then parts[0]
    else parts[0] + sep + Join(parts[1..], sep)
  }

  /** Where the `i`-th part starts inside `Join(parts, sep)`. */
  function JoinOffset(parts: seq<string>, sep: string, i: nat): nat
    requires i < |parts|
  {
    if i == 0 then 0 else |parts[0]| + |sep| + JoinOffset(parts[1..], sep, i - 1)
  }

  /** Every part occurs in the joined string, at its offset, and the parts keep
      their order: a later part starts after an earlier one ends. */
  lemma {:induction false} JoinPartAt(parts: seq<string>, sep: string, i: nat)
    requires i < |parts|
    ensures OccursAt(Join(parts, sep), parts[i], JoinOffset(parts, sep, i))
    ensures i + 1 < |parts| ==>
              JoinOffset(parts, sep, i) + |parts[i]| + |sep| == JoinOffset(parts, sep, i + 1)
  {
    if i == 0 {
      if |parts| > 1 {
        OccursInConcat([], parts[0], sep + Join(parts[1..], sep), parts[0], 0);
        assert parts[0] + sep + Join(parts[1..], sep) == [] + parts[0] + (sep + Join(parts[1..], sep));
      } else {
        OccursSelf(parts[0]);
      }
    } else {
      JoinPartAt(parts[1..], sep, i - 1);
      OccursInConcat(parts[0] + sep, Join(parts[1..], sep), [], parts[i], JoinOffset(parts[1..], sep, i - 1));
      assert parts[0] + sep + Join(parts[1..], sep) + [] == Join(parts, sep);
    }
  }

  // ---------------------------------------------------------------------------
  // Template literals

  /** The concatenation of a template literal's pieces, in order: the fixed
      text between interpolations and the interpolated values. */
  function Flatten(pieces: seq<string>): string {
    if |pieces| == 0 then "" else Flatten(pieces[..|pieces| - 1]) + pieces[|pieces| - 1]
  }

  /** Joining with the empty separator is concatenation. */
  lemma {:induction false} FlattenIsJoin(parts: seq<string>)
    ensures Flatten(parts) == Join(parts, "")
  {
    if |parts| == 1 {
      assert Flatten(parts) == Flatten([]) + parts[0];
    } else if |parts| > 1 {
      FlattenIsJoin(parts[1..]);
      FlattenConcat([parts[0]], parts[1..]);
      assert [parts[0]] + parts[1..] == parts;
      assert Flatten([parts[0]]) == Flatten([]) + parts[0];
    }
  }

  /** Where piece `j` starts in the flattened text. */
  function Offset(pieces: seq<string>, j: nat): nat
    requires j <= |pieces|
  {
    |Flatten(pieces[..j])|
  }

  lemma {:induction false} FlattenConcat(a: seq<string>, b: seq<string>)
    ensures Flatten(a + b) == Flatten(a) + Flatten(b)
    decreases |b|
  {
    if |b| == 0 {
      assert a + b == a;
    } else {
      var b', x := b[..|b| - 1], b[|b| - 1];
      SplitLast(a, b);
      FlattenConcat(a, b');
      AppendAssoc(Flatten(a), Flatten(b'), x);
    }
  }

  /** Every piece occurs in the flattened text at its offset. */
  lemma {:induction false} PieceAt(pieces: seq<string>, j: nat)
    requires j < |pieces|
    ensures OccursAt(Flatten(pieces), pieces[j], Offset(pieces, j))
  {
    var n := |pieces|;
    var init, last := pieces[..n - 1], pieces[n - 1];
    assert Flatten(pieces) == Flatten(init) + last;
    if j == n - 1 {
      assert init == pieces[..j];
      OccursSelf(last);
      OccursRight(Flatten(init), last, last, 0);
    } else {
      PieceAt(init, j);
      assert init[..j] == pieces[..j] && init[j] == pieces[j];
      OccursLeft(Flatten(init), last, pieces[j], Offset(init, j));
    }
  }

  /** The same, for a piece known by its value. */
  lemma PieceOccurs(pieces: seq<string>, j: nat, x: string)
    requires j < |pieces| && pieces[j] == x
    ensures OccursAt(Flatten(pieces), x, Offset(pieces, j))
  {
    PieceAt(pieces, j);
  }

  /** Pieces keep their order: a piece ends before any later piece starts. */
  lemma PiecesInOrder(pieces: seq<string>, j: nat, l: nat)
    requires j < l <= |pieces|
    ensures Offset(pieces, j) + |pieces[j]| <= Offset(pieces, l)
  {
    assert pieces[..l] == pieces[..j + 1] + pieces[j + 1..l];
    FlattenConcat(pieces[..j + 1], pieces[j + 1..l]);
    assert pieces[..j + 1][..j] == pieces[..j];
  }

  /** The same, for a piece known by its value. */
  lemma PieceEndsBefore(pieces: seq<string>, j: nat, l: nat, x: string)
    requires j < l <= |pieces| && pieces[j] == x
    ensures Offset(pieces, j) + |x| <= Offset(pieces, l)
  {
    PiecesInOrder(pieces, j, l);
  }

  /** `x` occurs in the flattened text where piece `j` starts. */
  predicate AtPiece(pieces: seq<string>, j: nat, x: string) {
    j <= |pieces| && OccursAt(Flatten(pieces), x, Offset(pieces, j))
  }

  /** `x` occurs where piece `j` starts and ends before piece `j + 1` starts. */
  predicate Listed(pieces: seq<string>, j: nat, x: string) {
    j < |pieces| && AtPiece(pieces, j, x) && Offset(pieces, j) + |x| <= Offset(pieces, j + 1)
  }

  /** Every piece is listed in its own place. */
  lemma PieceListed(pieces: seq<string>, j: nat, x: string)
    requires j < |pieces| && pieces[j] == x
    ensures Listed(pieces, j, x)
  {
    PieceAt(pieces, j);
    PiecesInOrder(pieces, j, j + 1);
  }

  /** A text that differs from piece `j` at position `m` does not occur where
      piece `j` starts. */
  lemma NotAtPiece(pieces: seq<string>, j: nat, x: string, m: nat)
    requires j < |pieces| && m < |x| && m < |pieces[j]| && x[m] != pieces[j][m]
    ensures !AtPiece(pieces, j, x)
  {
    PieceAt(pieces, j);
    OccursExclusive(Flatten(pieces), x, pieces[j], Offset(pieces, j), m);
  }

  /** The last piece ends the flattened text. */
  lemma LastPiece(pieces: seq<string>)
    requires |pieces| > 0
    ensures OccursAt(Flatten(pieces), pieces[|pieces| - 1], |Flatten(pieces)| - |pieces[|pieces| - 1]|)
  {
    PieceAt(pieces, |pieces| - 1);
  }

  // ---------------------------------------------------------------------------
  // Number.prototype.toString and String.prototype.padStart on counts

  predicate IsDigit(c: char) { '0' <= c <= '9' }

  function DigitChar(d: nat): (c: char)
    requires d < 10
    ensures IsDigit(c)
  {
    "0123456789"[d]
  }

  function DigitValue(c: char): (d: nat)
    requires IsDigit(c)
    ensures d < 10
  {
    (c as int - '0' as int) as nat
  }

  /** The value of a string of decimal digits (leading zeros allowed). */
  function DigitsValue(s: string): nat
    requires forall i :: 0 <= i < |s| ==> IsDigit(s[i])
  {
    if s == [] then 0 else DigitsValue(s[..|s| - 1]) * 10 + DigitValue(s[|s| - 1])
  }

  /** `n.toString()` for a non-negative integer: decimal digits without leading zeros. */
  function Decimal(n: nat): (r: string)
    ensures |r| >= 1
    ensures forall i :: 0 <= i < |r| ==> IsDigit(r[i])
    ensures r[0] == '0' ==> n == 0
  {
    if n < 10 then [DigitChar(n)] else Decimal(n / 10) + [DigitChar(n % 10)]
  }

  /** Printing a count and reading it back gives the count. */
  lemma {:induction false} DecimalRoundTrip(n: nat)
    ensures DigitsValue(Decimal(n)) == n
  {
    var r := Decimal(n);
    if n >= 10 {
      DecimalRoundTrip(n / 10);
      assert r[..|r| - 1] == Decimal(n / 10);
    }
  }

  /** `k` copies of `c`. */
  function Repeat(c: char, k: nat): (r: string)
    ensures |r| == k && forall i :: 0 <= i < k ==> r[i] == c
  {
    seq(k, _ => c)
  }

  /** `s.padStart(width, c)`: `s` preceded by enough copies of `c` to reach `width`. */
  function PadStart(s: string, width: nat, c: char): (r: string)
    ensures |r| == if |s| >= width then |s| else width
    ensures r[|r| - |s|..] == s
    ensures forall i :: 0 <= i < |r| - |s| ==> r[i] == c
  {
    if |s| >= width then s else Repeat(c, width - |s|) + s
  }

  /** Leading zeros do not change the value of a digit string. */
  lemma {:induction false} LeadingZeros(z: string, s: string)
    requires forall i :: 0 <= i < |z| ==> z[i] == '0'
    requires forall i :: 0 <= i < |s| ==> IsDigit(s[i])
    ensures forall i :: 0 <= i < |z + s| ==> IsDigit((z + s)[i])
    ensures DigitsValue(z + s) == DigitsValue(s)
  {
    if s == [] {
      assert z + s == z;
      ZerosValue(z);
    } else {
      var s' := s[..|s| - 1];
      assert (z + s)[..|z + s| - 1] == z + s';
      LeadingZeros(z, s');
    }
  }

  lemma {:induction false} ZerosValue(z: string)
    requires forall i :: 0 <= i < |z| ==> z[i] == '0'
    ensures DigitsValue(z) == 0
  {
    if z != [] {
      ZerosValue(z[..|z| - 1]);
    }
  }

  // ---------------------------------------------------------------------------
  // HTML documents

  const Doctype: string := "<!DOCTYPE html>"
  const HtmlClose: string := "</html>"

  /** A complete HTML document: it starts with the doctype and ends with the
      closing `html` tag. */
  predicate IsHtmlDocument(s: string) {
    OccursAt(s, Doctype, 0) && OccursAt(s, HtmlClose, |s| - |HtmlClose|)
  }

  /** Pieces that open with the doctype and close with `</html>` make a
      complete document. */
  lemma FramedDocument(ps: seq<string>)
    requires |ps| >= 2 && ps[0] == Doctype && ps[|ps| - 1] == HtmlClose
    ensures IsHtmlDocument(Flatten(ps))
  {
    PieceAt(ps, 0);
    assert ps[..0] == [];
    LastPiece(ps);
  }
}

=== FILE: wrappers.dfy ===
/** Optional values, standing for TypeScript's `T | undefined` and `T | null`. */
module Wrappers {

  datatype Option<+T> = None | Some(value: T) {

    /** The value, or `default` when there is none (the `x ?? default` of TypeScript). */
    function GetOr(default: T): T {
      match this
      case Some(v) => v
      case None => default
    }
  }
}
